=== FILE: README.md ===
# School management: a verified model of the record store

This project models the rules of a small Flask school-management application in Dafny:

- the five tables: users, students, teachers, classes and subject assignments;
- the unique and foreign-key constraints of those tables, and the cascade and nullify rules that apply on delete;
- the form validators;
- the guards in front of every route: `@login_required` and `admin_required`;
- every student, teacher, class, assignment, login and dashboard route handler;
- the loops of the sample-data script.

The store is the class `Models.SchoolDb`. Its five tables are sequences of rows in insertion order, and the route
handlers update them in place. Each mutating route is a method. It returns the error it ends in, or none, and it is
proved against two things:

- a decision function (`CreateStudentError`, `AssignSubjectError`, ...) that names the checks in the route's own order;
- the pure table operation it performs (`DeleteClass`, `AfterEdit`, ...).

A rejected request leaves the store unchanged. Every successful request keeps the invariant `Models.Consistent`, which
covers:

- every unique column;
- the per-user teacher link;
- the (grade, section) pair of a class;
- the (teacher, class, subject) triple of an assignment;
- every foreign key.

The read-only routes (lists, views, dashboard) are functions, except the class list. That one is a method, because
the source builds it with an accumulating loop. The sample-data script is imperative: it has a counter, a set of used
emails, and lists built by appending. It is modelled as the class `Seed.Seeder` with loops and their invariants.

Module layout:

- `Common`: options, dates, ASCII lower-casing, substring tests.
- `Table`: keyed tables, uniqueness, references, filtering and deleting by key.
- `Order`: insertion sort, string order, pagination.
- `Models`: the records, the invariant, the deletes with their cascades, and `SchoolDb`.
- `Forms`: the forms and their validators.
- `Auth`: the guards, the login decision and the session.
- `Students`, `Teachers`, `Classes` and `Dashboard`: the route handlers.
- `Seed`: the sample-data script.

## Model

| member | source | states |
|---|---|---|
| Models.WithPassword | models.py:30-32 | after setting a password, that password is accepted, and nothing but the stored hash changes |
| Models.OnlyNewPasswordAccepted | models.py:30-36 | with an injective hash, the password just set is the only one `check_password` accepts |
| Models.DisplayName | models.py:114-116 | the name is the grade, then one hyphen, then the section |
| Models.DisplayNameInjective | models.py:114-116 | if no grade contains a hyphen, equal display names mean equal (grade, section) |
| Models.DisplayNameCollision | models.py:114-116 | two different (grade, section) pairs can share a display name when a grade contains a hyphen |
| Models.ClassIds | routes/students.py:77-78 | the class select offers exactly the ids of existing classes |
| Models.TeacherIds | routes/classes.py:132-133 | the teacher select offers exactly the ids of existing teachers |
| Models.EmptyTables | models.py:13-143 | the empty store satisfies every constraint |
| Models.AddUserConsistent | models.py:21-22 | a user with a fresh id, username and email keeps the store consistent |
| Models.ReplaceUserConsistent | models.py:21-22 | overwriting a user while keeping its keys keeps the store consistent |
| Models.AddStudentConsistent | models.py:54-65 | a student with a fresh row id, a fresh student ID, a NULL or unused email and a NULL or existing class keeps the store consistent |
| Models.ReplaceStudentConsistent | models.py:54-65 | overwriting a student keeps the store consistent when each unique value is kept, NULL, or unused |
| Models.AddTeacherConsistent | models.py:79-90 | a teacher with a fresh teacher ID, a NULL or unused email, and a NULL or unlinked existing user keeps the store consistent |
| Models.ReplaceTeacherConsistent | models.py:79-90 | overwriting a teacher keeps the store consistent when each unique value is kept, NULL, or unused |
| Models.AddClassConsistent | models.py:107-108 | a class whose (grade, section) is new keeps the store consistent |
| Models.AddAssignmentConsistent | models.py:130-140 | an assignment with a new triple and an existing teacher and class keeps the store consistent |
| Models.DeleteStudent | routes/students.py:169-174 | deleting a student removes exactly the rows with that id and touches no other table |
| Models.DeleteStudentConsistent | models.py:46-68 | deleting a student keeps the store consistent |
| Models.Unlink | models.py:64-65 | the class link of the deleted class's students is cleared, and nothing else in any row changes |
| Models.DeleteClass | models.py:112 | deleting a class deletes its assignments (cascade), keeps every student with the class link cleared, and leaves users and teachers alone |
| Models.DeleteClassConsistent | models.py:99-119 | deleting a class keeps the store consistent: no student or assignment refers to it afterwards |
| Models.DeleteTeacher | models.py:93 | deleting a teacher deletes exactly its assignments (cascade) and leaves students, classes and users alone |
| Models.DeleteTeacherConsistent | models.py:71-96 | deleting a teacher keeps the store consistent |
| Models.LinkedTeachers | models.py:28 | the row ids of the teachers whose user link names the account |
| Models.DeleteUser | models.py:28 | deleting an account deletes its linked teacher and, through it, that teacher's assignments |
| Models.DeleteUserConsistent | models.py:13-43 | deleting an account keeps the store consistent |
| Models.DeleteUserRemovesAtMostOneTeacher | models.py:90 | since `user_id` is unique, deleting an account removes at most one teacher |
| Models.DeleteAssignment | routes/classes.py:180-184 | deleting an assignment removes exactly that row and touches no other table |
| Models.DeleteAssignmentConsistent | models.py:122-143 | deleting an assignment keeps the store consistent |
| Models.SchoolDb.constructor | models.py:13-143 | a fresh database is empty and consistent |
| Models.SchoolDb.AddUser | models.py:21-22 | an account is added, with its password set, exactly when the username and the email are both unused; otherwise nothing changes |
| Models.SchoolDb.SetPassword | models.py:30-32 | the account with that id gets the new password hash; nothing else changes |
| Models.SchoolDb.LinkTeacherAccount | models.py:90 | a teacher is linked to an account exactly when both exist and the account has no teacher yet |
| Models.SchoolDb.RemoveUser | models.py:28 | the store becomes `DeleteUser` of the old store and stays consistent |
| Forms.Stored | routes/students.py:96-98 | an empty field is stored as NULL, and anything else is stored as typed |
| Forms.ClassLink | routes/students.py:99 | the "Select Class" sentinel 0 is stored as NULL, and any other choice as the class id |
| Forms.TodayIsTheBoundary | forms.py:27-30 | today is accepted as a date of birth and as a joining date; tomorrow is refused by both |
| Forms.StudentFormBounds | forms.py:17-35 | a valid student form has a date of birth no later than today, student ID 1..20, name 2..100, email at most 120, phone at most 20, address at most 500, and a class choice that is 0 or an existing class |
| Forms.TeacherFormBounds | forms.py:38-51 | a valid teacher form has a joining date no later than today, teacher ID 1..20, name 2..100, subject 1..100, qualification at most 200 |
| Forms.ClassFormBounds | forms.py:54-57 | grade and section are 1..10 characters and not blank |
| Forms.AssignmentFormBounds | forms.py:60-64 | a valid assignment form selects an existing teacher and class, never the sentinel, and has a subject of 1..100 characters |
| Forms.LoginFormBounds | forms.py:11-14 | a valid login form has a username of 3..80 characters and a non-empty password |
| Auth.CurrentUser | app.py:32-35 | the request is signed in exactly when the session's user id names an existing account, and then it is that account |
| Auth.LoginGate | routes/auth.py:42 | `@login_required` lets exactly the signed-in callers through |
| Auth.AdminGate | routes/students.py:14-23 | anonymous callers are sent to log in, signed-in non-administrators are refused, and only a role of exactly "Admin" (`is_admin`, models.py lines 38-40) passes |
| Auth.Authenticate | routes/auth.py:27-30 | an account is returned exactly when one with that exact username exists and the password checks against it |
| Auth.LoginDecision | routes/auth.py:19-36 | a signed-in caller is redirected with no credential check; sign-in succeeds exactly when the form is valid and the credentials match; on success it goes to `next` if given, else to the dashboard |
| Auth.FailuresLookAlike | routes/auth.py:30-36 | an unknown username and a wrong password give the same outcome and the same message |
| Auth.Session.constructor | routes/auth.py:41-50 | a new session has nobody signed in |
| Auth.Session.Login | routes/auth.py:13-38 | the session records the user exactly when the decision is a success, and the recorded user has the submitted username |
| Auth.Session.Logout | routes/auth.py:41-50 | after logout nobody is signed in |
| Students.MatchingStudents | routes/students.py:39-50 | exactly the students that match the search (ignoring case, on name, ID or email) and the class filter |
| Students.OrderedStudents | routes/students.py:56 | the matching students, each once, ordered newest first |
| Students.ListStudents | routes/students.py:26-58 | anonymous callers are refused; page p holds entries (p-1)*10 onwards of the matching students ordered newest first, in order: at most 10, exactly 10 when that many remain, none past the end |
| Students.EveryMatchIsListed | routes/students.py:39-58 | every matching student appears on some page |
| Students.CreateStudentError | routes/students.py:67-89 | the guard first; an invalid form is refused; with a valid form, a taken student ID is a duplicate ID, and otherwise a taken non-empty email is a duplicate email; a create passes exactly when the caller is an admin, the form is valid, the ID is unused and the email is empty or unused |
| Students.CreateStudentConsistent | routes/students.py:82-100 | a create that passes the pre-checks keeps the store consistent |
| Students.CreateStudent | routes/students.py:67-111 | on success, exactly the new student is appended; on any failure, nothing changes |
| Students.CreateStudentAddsOne | routes/students.py:92-100 | the new row carries the form's ID, name and date of birth (not after today); email, phone and address are NULL when empty and otherwise the text given; class 0 becomes NULL and any other choice is stored; both timestamps are `now`; the row was not in the table |
| Students.EditedStudent | routes/students.py:142-149 | an edit keeps the row id and the creation time |
| Students.EditStudentError | routes/students.py:114-139 | a missing id is NotFound; an invalid form is refused; a duplicate ID is reported exactly when the ID changed and another student has it; otherwise a duplicate email exactly when the email is non-empty, changed and taken; the edit passes exactly when neither clash applies |
| Students.EditIndex | routes/students.py:121 | the position of the student with that row id |
| Students.EditStudentConsistent | routes/students.py:130-149 | after a passing edit no other student shares the new ID or non-empty email, and the store stays consistent |
| Students.EditStudent | routes/students.py:114-159 | on success, the store becomes `AfterEdit`; on any failure, nothing changes |
| Students.EditStudentTouchesOneRow | routes/students.py:142-149 | an edit changes only the row with that id: its student ID, name and date of birth become the form's, an empty email, phone or address becomes NULL and any other is stored as typed, class 0 becomes NULL and any other is the class id, `updated_at` becomes now, and the row id and `created_at` are kept; every other row and table is unchanged |
| Students.DeleteStudentError | routes/students.py:162-169 | delete passes exactly for an administrator and an existing student |
| Students.RemoveStudent | routes/students.py:162-180 | on success, the store becomes `DeleteStudent`; otherwise nothing changes |
| Students.DeleteStudentRemovesOne | routes/students.py:169-174 | deleting an existing student removes exactly one row, and its id is gone |
| Students.ViewStudent | routes/students.py:183-190 | anonymous callers are refused, a missing id is NotFound, otherwise the student with that id is returned |
| Teachers.MatchingTeachers | routes/teachers.py:38-46 | exactly the teachers that match the search (ignoring case, on name, ID, subject or email) |
| Teachers.OrderedTeachers | routes/teachers.py:49 | the matching teachers, each once, newest first |
| Teachers.ListTeachers | routes/teachers.py:26-51 | anonymous callers are refused; page p holds entries (p-1)*10 onwards of the matching teachers ordered newest first, in order: at most 10, exactly 10 when that many remain, none past the end |
| Teachers.EveryMatchIsListed | routes/teachers.py:38-51 | every matching teacher appears on some page |
| Teachers.CreateTeacherError | routes/teachers.py:56-74 | the guard first; an invalid form is refused; with a valid form, a taken teacher ID is a duplicate ID, and otherwise a taken non-empty email is a duplicate email; a create passes exactly when the caller is an admin, the form is valid, the ID is unused and the email is empty or unused |
| Teachers.CreateTeacherConsistent | routes/teachers.py:67-85 | a create that passes the pre-checks keeps the store consistent |
| Teachers.CreateTeacher | routes/teachers.py:56-96 | on success, exactly the new teacher is appended; on any failure, nothing changes |
| Teachers.CreateTeacherAddsOne | routes/teachers.py:77-85 | the new row carries the form's ID, name, subject and joining date (not after today); qualification, email and phone are NULL when empty and otherwise the text given; both timestamps are `now`; no user link; the row was not in the table |
| Teachers.EditedTeacher | routes/teachers.py:123-130 | an edit keeps the row id, the creation time and the user link |
| Teachers.EditTeacherError | routes/teachers.py:99-120 | a missing id is NotFound; an invalid form is refused; a duplicate ID is reported exactly when the ID changed and another teacher has it; otherwise a duplicate email exactly when the email is non-empty, changed and taken; the edit passes exactly when neither clash applies |
| Teachers.EditIndex | routes/teachers.py:106 | the position of the teacher with that row id |
| Teachers.EditTeacherConsistent | routes/teachers.py:111-130 | after a passing edit no other teacher shares the new ID or non-empty email, and the store stays consistent |
| Teachers.EditTeacher | routes/teachers.py:99-140 | on success, the store becomes `AfterEdit`; on any failure, nothing changes |
| Teachers.EditTeacherTouchesOneRow | routes/teachers.py:123-130 | an edit changes only the row with that id: its teacher ID, name, subject and joining date become the form's, an empty qualification, email or phone becomes NULL and any other is stored as typed, `updated_at` becomes now, and the row id, `created_at` and user link are kept; every other row and table is unchanged |
| Teachers.DeleteTeacherError | routes/teachers.py:143-150 | delete passes exactly for an administrator and an existing teacher |
| Teachers.RemoveTeacher | routes/teachers.py:143-161 | on success, the store becomes `DeleteTeacher` (with the assignment cascade); otherwise nothing changes |
| Teachers.DeleteTeacherRemovesOne | routes/teachers.py:150-155 | exactly one teacher goes, and no assignment names it afterwards |
| Teachers.ViewTeacher | routes/teachers.py:164-171 | anonymous callers are refused, a missing id is NotFound, otherwise the teacher with that id is returned |
| Classes.StudentsOf | routes/classes.py:36 | exactly the students whose class link is the class |
| Classes.AssignmentsOf | routes/classes.py:37 | exactly the assignments of the class |
| Classes.ClassesInOrder | routes/classes.py:31 | every class once, ordered by grade and then section, in string order |
| Classes.ListClasses | routes/classes.py:25-44 | anonymous callers are refused; otherwise there is one entry per class in that order, and its counts are the class's students and assignments |
| Classes.ClassListCountsEveryone | routes/classes.py:35-42 | on a consistent store, the student counts sum to the number of students with a class, and the assignment counts sum to the number of assignments |
| Classes.CreateClassError | routes/classes.py:47-65 | the guard; an invalid form is refused; an existing (grade, section) is a duplicate; a create passes exactly when neither happens |
| Classes.CreateClassConsistent | routes/classes.py:58-75 | the pre-check alone keeps (grade, section) unique, and the store consistent |
| Classes.CreateClass | routes/classes.py:47-82 | on success, exactly the new class is appended; otherwise nothing changes |
| Classes.CreatedClassHasFreshName | routes/classes.py:58-65 | if no grade contains a hyphen, a new class's display name differs from every existing one |
| Classes.DeleteClassError | routes/classes.py:85-92 | delete passes exactly for an administrator and an existing class |
| Classes.RemoveClass | routes/classes.py:85-103 | on success, the store becomes `DeleteClass`: its assignments are gone and its students are unlinked; otherwise nothing changes |
| Classes.ViewClass | routes/classes.py:106-119 | anonymous callers are refused, a missing id is NotFound; otherwise exactly the class's students, sorted by name, and exactly its assignments |
| Classes.ViewMatchesList | routes/classes.py:35-42 | a class page shows as many students and assignments as the class list counts for it |
| Classes.DeletedClassIsGone | routes/classes.py:92-97 | after a delete the class page is NotFound, no student is in the class, and no student was lost |
| Classes.AssignSubjectError | routes/classes.py:122-163 | the guard; an invalid form (including either select left at 0) is refused; an existing triple is a duplicate; the assignment is made exactly when the caller is an admin, the form is valid and the triple is new |
| Classes.SentinelCheckNeverFires | routes/classes.py:150-152 | the route's own check for the sentinel 0 is never reached, because the form already refused it |
| Classes.AssignSubjectConsistent | routes/classes.py:139-163 | an assignment that passes the checks keeps the store consistent |
| Classes.AssignSubject | routes/classes.py:122-170 | on success, exactly the new assignment is appended; otherwise nothing changes |
| Classes.DeleteAssignmentError | routes/classes.py:173-180 | delete passes exactly for an administrator and an existing assignment |
| Classes.RemoveAssignment | routes/classes.py:173-190 | on success, the store becomes `DeleteAssignment`; otherwise nothing changes |
| Classes.DeleteAssignmentRemovesOne | routes/classes.py:180-184 | exactly one assignment goes |
| Order.Paginate | routes/students.py:56-58 | a page holds at most 10 rows, row `k` of page `p` is row `(p-1)*10+k`, a page past the end is empty, and a full page has 10 rows |
| Order.PageHolds | routes/teachers.py:49-51 | every row is on page `k/10+1` at position `k%10` |
| Dashboard.Latest | routes/dashboard.py:27 | `min(n, size)` rows, newest first, taken from the table, and no omitted row is newer than a shown one |
| Dashboard.RecentStudents | routes/dashboard.py:27 | at most 5 students, newest first, and no omitted student is newer than a shown one |
| Dashboard.RecentTeachers | routes/dashboard.py:30 | at most 5 teachers, newest first, and no omitted teacher is newer than a shown one |
| Dashboard.Index | routes/dashboard.py:12-38 | anonymous callers are refused; the four totals are the table sizes and the recent lists are the newest five; the store is only read |
| Dashboard.NewestStudentShown | routes/dashboard.py:27 | a strictly newest student is always shown |
| Seed.Decimal | seed_data.py:138 | `str(n)` is a non-empty string of digits |
| Seed.DecimalValue | seed_data.py:138 | the numeral of `n` denotes `n` |
| Seed.ZeroPadded | seed_data.py:138 | padding to width 4 gives `max(4, len)` characters, leading zeros, the numeral as suffix, and the same value |
| Seed.NumberedAt | seed_data.py:138-169 | in a list built by the counter, row `k` has row id `k + 1` and student ID `StudentNumber(k + 1)` |
| Seed.StudentNumberInjective | seed_data.py:138 | different counters give different student IDs |
| Seed.StudentNumberExamples | seed_data.py:138 | counters 1 and 42 give "STU0001" and "STU0042" |
| Seed.CandidatesDiffer | seed_data.py:150-153 | no two attempts of the email loop produce the same address |
| Seed.CandidatesCount | seed_data.py:150-153 | the first `n` attempts are `n` different addresses, which bounds the loop by the number of used emails |
| Seed.FirstFree | seed_data.py:147-153 | the loop ends with an unused address, and every address tried before it was used |
| Seed.PlacedClassIds | seed_data.py:132 | the classes that receive students are existing classes |
| Seed.Seeder.constructor | seed_data.py:127-129 | an empty student list, counter 1, no used email |
| Seed.Seeder.UniqueEmail | seed_data.py:147-154 | the address was not used before and is recorded afterwards; students and counter are unchanged |
| Seed.Seeder.AddStudent | seed_data.py:158-169 | one student is appended with the next row id and ID, and the counter goes up by one |
| Seed.Seeder.FreshEmail | seed_data.py:182-188 | a newly recorded address that no student has yet |
| Seed.Seeder.PlaceStudent | seed_data.py:145-169 | one loop pass: one student appended, named first name, space, last name, with the drawn date of birth, the given class, phone and address, and an email exactly when one is drawn (a fresh one) |
| Seed.Seeder.SeedClass | seed_data.py:134-169 | one student per draw is appended, in draw order, each made from its draw (`FromDraw`: name, date of birth, email exactly when drawn, phone exactly when drawn, address) and all in that class |
| Seed.Seeder.SeedPlacedStudents | seed_data.py:132-169 | for each of the first ten classes, the students of group `i` follow those of the groups before it and are made one by one from group `i`'s draws, in class `i` (`GroupInClass`); every new student is in one of those classes |
| Seed.Seeder.SeedUnplacedStudents | seed_data.py:172-200 | ten students appended in draw order, each made from its draw (`ExtraFromDraw`: the drawn name and date of birth, an email, the drawn `555-` phone, no address, no class) |
| Seed.SeedStudents | seed_data.py:127-200 | row ids 1.. and IDs STU0001.. in order; IDs and emails unique; every class link names a class; group `i`'s students come first, made from its draws in class `i`, and the ten after them are made from the extra draws, with no class but with an email and a phone |
| Seed.NumberedRowsDistinct | seed_data.py:138 | rows numbered 1, 2, 3, ... have distinct row ids and student IDs |
| Seed.SubjectsFor | seed_data.py:225-227 | at most three subjects per class |
| Seed.Available | seed_data.py:229-231 | exactly the teachers that pass the matching test, in list order |
| Seed.AssignClass | seed_data.py:224-241 | for one class: appended after the earlier rows, one numbered assignment per subject of the grade's first three that some teacher teaches, in that order, each to the teacher drawn for the class and subject; no other class's assignments change |
| Seed.NoAssignmentsYet | seed_data.py:223 | since class ids are unique, the class the loop reaches has no assignment yet |
| Seed.SeedAssignments | seed_data.py:222-241 | numbered assignments, each to an existing class by a teacher who teaches the subject; each class's assignments are exactly one per staffed subject of its grade's first three, in order, each to the teacher drawn for it |
| Seed.Chosen | seed_data.py:233-236 | `random.choice` picks one of the available teachers, so the chosen one teaches the subject |
| Seed.Staffed | seed_data.py:227-233 | a subject gets an assignment exactly when some teacher teaches it; there are never more than the subjects considered |
| Seed.ScienceMatchesComputerScience | seed_data.py:229 | a "Computer Science" teacher matches "Science" through the substring test alone |

## Left out

- Rendering, `flash` messages and redirects are not modelled. Each route ends in an error kind, or none; this includes the referrer redirect after deleting an assignment.
- The GET side of the form routes, which only displays the form, is not modelled.
- Password hashing is a parameter, `Models.Hasher`, with a random salt passed in. The werkzeug internals are a foreign call.
- Flask-Login's cookie and remember-me mechanics, and CSRF protection, are not modelled. The session is a user id.
- The `except Exception` rollback paths are not modelled. Each handler is one atomic step, and its pre-checks are what keep the constraints.
- A concurrent request racing a pre-check against the database's unique constraint is not modelled, because the model is sequential.
- The `Email()` validator is left out, because it is a library validator and its format rules are not visible here. So is SelectField's rejection of non-integer input. A select field's value is a number among its choices or 0.
- `ilike` is modelled as a literal, ASCII case-insensitive substring test. `%` and `_` wildcards in the search text and Unicode case folding are not modelled. Likewise the seed script's `.lower()` (seed_data.py:147 and 182 for email bases, 229 for matching teachers to subjects) is modelled as ASCII lower-casing, which agrees with Python on the script's ASCII name and subject lists.
- A class filter that is not a number is not modelled. The filter is None or an integer.
- Rows with equal creation times are kept in table order, by a stable insertion sort. The database does not promise that tie order.
- Class ordering uses code-point string order, so grade "10" sorts before "2", as in SQL text ordering.
- The clock (`utcnow`, `today`) is a parameter.
- The seed script's `random` calls are inputs: one `Seed.Draw` per student, and the `choose` function for `random.choice`. Their ranges (20-30 students per class, 4-digit phone numbers) are not constrained.
- The seed script's `print` output, its table wipe, and its fixed users, classes and teachers (seed_data.py:17-116) are not modelled. Student and assignment row ids are taken to be 1, 2, 3, ... after the wipe.
- config.py, app.py (apart from the user loader) and run.py are configuration and start-up code, and are not part of this model.
- Classes.AssignSubjectError: the route's own sentinel check (routes/classes.py:150-152) is kept in the decision, after the duplicate check. `Classes.SentinelCheckNeverFires` proves it cannot fire, because `DataRequired` on a coerced select already refuses 0.

=== FILE: auth.dfy ===
/** Sign-in, sign-out and the two route guards: `@login_required` and the
    routes' `admin_required` decorator. */
module Auth {
  import opened Common
  import opened Table
  import opened Models
  import opened Forms

  /** Who is making the request: `current_user`. */
  datatype Principal = Anonymous | SignedIn(user: User)

  /** The user loader: the user id kept in the session, looked up in the users table. A session
      whose user no longer exists reads as anonymous. */
  function CurrentUser(users: seq<User>, session: Option<nat>): (p: Principal)
    ensures p.SignedIn? <==> session.Some? && Some(session.value) in KeySet(users, UserRow)
    ensures p.SignedIn? ==> p.user in users && p.user.id == session.value
  {
    if session.None? then Anonymous
    else
      match FindIndex(users, UserRow, Some(session.value))
      case None => Anonymous
      case Some(i) => SignedIn(users[i])
  }

  /** `@login_required`: anonymous callers are sent to the login page. */
  function LoginGate(p: Principal): (e: Option<Error>)
    ensures e.None? <==> p.SignedIn?
    ensures e.Some? ==> e.value == LoginRequired
  {
    if p.Anonymous? then Some(LoginRequired) else None
  }

  /** `@login_required` followed by `@admin_required`: only a signed-in user whose role is
      exactly "Admin" gets through. */
  function AdminGate(p: Principal): (e: Option<Error>)
    ensures e.None? <==> p.SignedIn? && p.user.role == "Admin"
    ensures e == Some(LoginRequired) <==> p.Anonymous?
    ensures e == Some(AccessDenied) <==> p.SignedIn? && p.user.role != "Admin"
  {
    if p.Anonymous? then Some(LoginRequired)
    else if !IsAdmin(p.user) then Some(AccessDenied)
    else None
  }

  /** Where a successful sign-in redirects. */
  datatype Destination = Dashboard | NextPage(url: string)

  datatype LoginOutcome =
    | AlreadySignedIn                          // redirected to the dashboard, no credential check
    | FormRejected                             // the login form is redisplayed with its errors
    | BadCredentials                           // "Invalid username or password."
    | Welcome(userId: nat, destination: Destination)

  /** The one message shown for an unknown username and for a wrong password alike. */
  const InvalidCredentials := "Invalid username or password."

  function LoginMessage(o: LoginOutcome): string
  {
    if o == BadCredentials then InvalidCredentials else ""
  }

  /** The account with this exact username, provided the password matches its stored hash. */
  function Authenticate(users: seq<User>, username: string, password: string, hash: Hasher): (r: Option<User>)
    requires Distinct(users, Username)
    ensures r.Some? <==> exists u :: u in users && u.username == username && CheckPassword(u, password, hash)
    ensures r.Some? ==> r.value in users && r.value.username == username
  {
    match FindIndex(users, Username, Some(username))
    case None => None
    case Some(i) =>
      if CheckPassword(users[i], password, hash) then Some(users[i])
      else
        // usernames are unique, so users[i] is the only account with that name
        assert forall u :: u in users && u.username == username ==> u == users[i] by {
          forall u | u in users && u.username == username ensures u == users[i] {
            DistinctIndex(users, Username, i, u);
          }
        }
        None
  }

  /** The decision `login` makes on a POST. */
  function LoginDecision(users: seq<User>, p: Principal, f: LoginForm, next: string, hash: Hasher): (o: LoginOutcome)
    requires Distinct(users, Username)
    ensures o == AlreadySignedIn <==> p.SignedIn?
    ensures o.Welcome? <==> p.Anonymous? && LoginFormValid(f)
                             && exists u :: u in users && u.username == f.username && CheckPassword(u, f.password, hash)
    ensures o.Welcome? ==> exists u :: u in users && u.id == o.userId && u.username == f.username
    ensures o.Welcome? ==> o.destination == if next != "" then NextPage(next) else Dashboard
  {
    if p.SignedIn? then AlreadySignedIn
    else if !LoginFormValid(f) then FormRejected
    else
      match Authenticate(users, f.username, f.password, hash)
      case None => BadCredentials
      case Some(u) => Welcome(u.id, if next != "" then NextPage(next) else Dashboard)
  }

  /** An unknown username and a wrong password end the same way, with the same message. */
  lemma FailuresLookAlike(users: seq<User>, f: LoginForm, next: string, hash: Hasher)
    requires Distinct(users, Username) && LoginFormValid(f)
    ensures Some(f.username) !in KeySet(users, Username)
            ==> LoginDecision(users, Anonymous, f, next, hash) == BadCredentials
    ensures (exists u :: u in users && u.username == f.username && !CheckPassword(u, f.password, hash))
            ==> LoginDecision(users, Anonymous, f, next, hash) == BadCredentials
    ensures LoginDecision(users, Anonymous, f, next, hash) == BadCredentials
            ==> LoginMessage(LoginDecision(users, Anonymous, f, next, hash)) == "Invalid username or password."
  {
    if exists u :: u in users && u.username == f.username && !CheckPassword(u, f.password, hash) {
      var u :| u in users && u.username == f.username && !CheckPassword(u, f.password, hash);
      forall v | v in users && v.username == f.username ensures !CheckPassword(v, f.password, hash) {
        var j :| 0 <= j < |users| && users[j] == u;
        DistinctIndex(users, Username, j, v);
      }
    }
  }

  /** The browser session: the id of the signed-in user, if any. */
  class Session {
    var userId: Option<nat>

    constructor ()
      ensures userId == None
    {
      userId := None;
    }

    /** `POST /auth/login`: `login_user` on success, the session unchanged otherwise. */
    method Login(users: seq<User>, f: LoginForm, next: string, hash: Hasher) returns (o: LoginOutcome)
      requires Distinct(users, UserRow) && Distinct(users, Username)
      modifies this
      ensures o == LoginDecision(users, CurrentUser(users, old(userId)), f, next, hash)
      ensures userId == if o.Welcome? then Some(o.userId) else old(userId)
      ensures o.Welcome? ==> CurrentUser(users, userId).SignedIn?
                             && CurrentUser(users, userId).user.username == f.username
    {
      o := LoginDecision(users, CurrentUser(users, userId), f, next, hash);
      if o.Welcome? {
        ghost var u :| u in users && u.id == o.userId && u.username == f.username;
        ghost var i :| 0 <= i < |users| && users[i] == u;
        KeySetMember(users, UserRow, i);
        ghost var w := CurrentUser(users, Some(o.userId));
        ghost var j :| 0 <= j < |users| && users[j] == w.user;
        DistinctIndex(users, UserRow, j, u);
        userId := Some(o.userId);
      }
    }

    /** `GET /auth/logout`: behind `@login_required`; afterwards nobody is signed in. */
    method Logout(users: seq<User>) returns (e: Option<Error>)
      modifies this
      ensures e == LoginGate(CurrentUser(users, old(userId)))
      ensures e.None? ==> userId == None
      ensures e.Some? ==> userId == old(userId)
      ensures CurrentUser(users, userId) == Anonymous
    {
      e := LoginGate(CurrentUser(users, userId));
      if e.None? {
        userId := None;
      }
    }
  }
}

=== FILE: classes.dfy ===
/** The class routes: the class list with its per-class counts, create, delete, view, and the
    subject assignments (assign a teacher to a class for a subject; delete an assignment). */
module Classes {
  import opened Common
  import opened Table
  import opened Order
  import opened Models
  import opened Forms
  import opened Auth

  function Grade(c: Class): string { c.grade }
  function Section(c: Class): string { c.section }
  function StudentName(s: Student): string { s.fullName }

  /** `Student.query.filter_by(class_id=id)`, in table order. */
  function StudentsOf(students: seq<Student>, id: nat): (r: seq<Student>)
    ensures forall s :: s in r <==> s in students && s.classId == Some(id)
  {
    RefIsMeans(StudentClass, Some(id));
    Filter(students, RefIs(StudentClass, Some(id)))
  }

  /** `SubjectAssignment.query.filter_by(class_id=id)`, in table order. */
  function AssignmentsOf(assignments: seq<Assignment>, id: nat): (r: seq<Assignment>)
    ensures forall a :: a in r <==> a in assignments && a.classId == id
  {
    RefIsMeans(AssignmentClass, Some(id));
    Filter(assignments, RefIs(AssignmentClass, Some(id)))
  }

  // ---------------------------------------------------------------------
  // list_classes

  /** `Class.query.order_by(Class.grade, Class.section)`: every class once, ordered by grade and then
      section, both compared as text. */
  function ClassesInOrder(t: Tables): (r: seq<Class>)
    ensures multiset(r) == multiset(t.classes)
    ensures Sorted(r, ByTextPair(Grade, Section))
  {
    ByTextPairPreorder(Grade, Section);
    SortBySorted(t.classes, ByTextPair(Grade, Section));
    SortBy(t.classes, ByTextPair(Grade, Section))
  }

  /** One entry of `class_data`. */
  datatype ClassSummary = ClassSummary(cls: Class, studentCount: nat, assignmentCount: nat)

  /** What the class list shows: one entry per class in `ClassesInOrder`, with the number of
      students in that class and the number of subject assignments for it. */
  ghost predicate IsClassList(t: Tables, rows: seq<ClassSummary>)
  {
    var order := ClassesInOrder(t);
    && |rows| == |order|
    && forall k :: 0 <= k < |rows| ==>
         && rows[k].cls == order[k]
         && rows[k].studentCount == |StudentsOf(t.students, order[k].id)|
         && rows[k].assignmentCount == |AssignmentsOf(t.assignments, order[k].id)|
  }

  /** `GET /classes/`: the loop that builds `class_data`. */
  method ListClasses(t: Tables, p: Principal) returns (r: Result<seq<ClassSummary>>)
    ensures r.Err? <==> p.Anonymous?
    ensures r.Err? ==> r.error == LoginRequired
    ensures r.Ok? ==> IsClassList(t, r.value)
  {
    if p.Anonymous? {
      return Err(LoginRequired);
    }
    var classes := ClassesInOrder(t);
    var rows: seq<ClassSummary> := [];
    var i := 0;
    while i < |classes|
      invariant 0 <= i <= |classes|
      invariant |rows| == i
      invariant forall k :: 0 <= k < i ==>
                  && rows[k].cls == classes[k]
                  && rows[k].studentCount == |StudentsOf(t.students, classes[k].id)|
                  && rows[k].assignmentCount == |AssignmentsOf(t.assignments, classes[k].id)|
    {
      var c := classes[i];
      var studentCount := |StudentsOf(t.students, c.id)|;
      var assignmentCount := |AssignmentsOf(t.assignments, c.id)|;
      rows := rows + [ClassSummary(c, studentCount, assignmentCount)];
      i := i + 1;
    }
    return Ok(rows);
  }

  function StudentTotal(rows: seq<ClassSummary>): nat
  {
    if rows == [] then 0 else rows[0].studentCount + StudentTotal(rows[1..])
  }

  function AssignmentTotal(rows: seq<ClassSummary>): nat
  {
    if rows == [] then 0 else rows[0].assignmentCount + AssignmentTotal(rows[1..])
  }

  lemma {:induction false} RowTotals(t: Tables, rows: seq<ClassSummary>, order: seq<Class>)
    requires |rows| == |order|
    requires forall k :: 0 <= k < |rows| ==>
               && rows[k].studentCount == |StudentsOf(t.students, order[k].id)|
               && rows[k].assignmentCount == |AssignmentsOf(t.assignments, order[k].id)|
    ensures StudentTotal(rows) == RefTotal(t.students, StudentClass, order, ClassRow)
    ensures AssignmentTotal(rows) == RefTotal(t.assignments, AssignmentClass, order, ClassRow)
    decreases |rows|
  {
    if rows != [] {
      RowTotals(t, rows[1..], order[1..]);
    }
  }

  /** On a consistent store the class list accounts for everyone: its student counts add up to the
      number of students placed in a class, and its assignment counts to the number of assignments. */
  lemma ClassListCountsEveryone(t: Tables, rows: seq<ClassSummary>)
    requires Consistent(t) && IsClassList(t, rows)
    ensures StudentTotal(rows) == |Filter(t.students, HasRef(StudentClass))|
    ensures AssignmentTotal(rows) == |t.assignments|
  {
    var order := ClassesInOrder(t);
    RowTotals(t, rows, order);
    DistinctPermutation(t.classes, order, ClassRow);
    KeySetPermutation(t.classes, order, ClassRow);
    RefTotalCount(t.students, StudentClass, order, ClassRow);
    RefTotalCount(t.assignments, AssignmentClass, order, ClassRow);
    FilterAll(t.assignments, HasRef(AssignmentClass));
  }

  // ---------------------------------------------------------------------
  // create_class

  /** The row `create_class` inserts. */
  function NewClass(t: Tables, f: ClassForm, now: Timestamp): Class
  {
    Class(NextId(t.classes, ClassRow), f.grade, f.section, now)
  }

  /** How `POST /classes/create` ends: the guards, the form, then the (grade, section) pre-check. */
  function CreateClassError(t: Tables, p: Principal, f: ClassForm): (e: Option<Error>)
    ensures AdminGate(p).Some? ==> e == AdminGate(p)
    ensures AdminGate(p).None? ==> (e == Some(InvalidForm) <==> !ClassFormValid(f))
    ensures AdminGate(p).None? && ClassFormValid(f) ==>
              (e == Some(DuplicateClass) <==> exists c :: c in t.classes && c.grade == f.grade && c.section == f.section)
    ensures e.None? <==> AdminGate(p).None? && ClassFormValid(f)
                         && forall c :: c in t.classes ==> c.grade != f.grade || c.section != f.section
  {
    if AdminGate(p).Some? then AdminGate(p)
    else if !ClassFormValid(f) then Some(InvalidForm)
    else if Some((f.grade, f.section)) in KeySet(t.classes, GradeSection) then Some(DuplicateClass)
    else None
  }

  lemma CreateClassConsistent(t: Tables, p: Principal, f: ClassForm, now: Timestamp)
    requires Consistent(t) && CreateClassError(t, p, f).None?
    ensures Consistent(t.(classes := t.classes + [NewClass(t, f, now)]))
  {
    AddClassConsistent(t, NewClass(t, f, now));
  }

  /** `POST /classes/create`. */
  method CreateClass(db: SchoolDb, p: Principal, f: ClassForm, now: Timestamp) returns (e: Option<Error>)
    requires db.Valid()
    modifies db
    ensures db.Valid()
    ensures e == CreateClassError(old(db.State()), p, f)
    ensures e.None? ==> db.State() == old(db.State()).(classes := old(db.classes) + [NewClass(old(db.State()), f, now)])
    ensures e.Some? ==> db.State() == old(db.State())
  {
    e := AdminGate(p);
    if e.Some? {
      return;
    }
    if !ClassFormValid(f) {
      return Some(InvalidForm);
    }
    if FindIndex(db.classes, GradeSection, Some((f.grade, f.section))).Some? {
      return Some(DuplicateClass);
    }
    CreateClassConsistent(db.State(), p, f, now);
    db.classes := db.classes + [NewClass(db.State(), f, now)];
  }

  /** A new class's name differs from every existing class's name whenever no grade contains '-'. */
  lemma CreatedClassHasFreshName(t: Tables, p: Principal, f: ClassForm, now: Timestamp)
    requires CreateClassError(t, p, f).None?
    requires forall c :: c in t.classes ==> '-' !in c.grade
    requires '-' !in f.grade
    ensures forall c :: c in t.classes ==> DisplayName(c) != DisplayName(NewClass(t, f, now))
  {
    forall c | c in t.classes ensures DisplayName(c) != DisplayName(NewClass(t, f, now)) {
      if DisplayName(c) == DisplayName(NewClass(t, f, now)) {
        DisplayNameInjective(c, NewClass(t, f, now));
      }
    }
  }

  // ---------------------------------------------------------------------
  // delete_class and view_class

  function DeleteClassError(t: Tables, p: Principal, id: nat): (e: Option<Error>)
    ensures AdminGate(p).Some? ==> e == AdminGate(p)
    ensures e.None? <==> AdminGate(p).None? && Some(id) in KeySet(t.classes, ClassRow)
  {
    if AdminGate(p).Some? then AdminGate(p)
    else if FindIndex(t.classes, ClassRow, Some(id)).None? then Some(NotFound)
    else None
  }

  /** `POST /classes/<id>/delete`: the class, its assignments by cascade, and its students' links. */
  method RemoveClass(db: SchoolDb, p: Principal, id: nat) returns (e: Option<Error>)
    requires db.Valid()
    modifies db
    ensures db.Valid()
    ensures e == DeleteClassError(old(db.State()), p, id)
    ensures e.None? ==> db.State() == DeleteClass(old(db.State()), id)
    ensures e.Some? ==> db.State() == old(db.State())
  {
    e := AdminGate(p);
    if e.Some? {
      return;
    }
    if FindIndex(db.classes, ClassRow, Some(id)).None? {
      return Some(NotFound);
    }
    DeleteClassConsistent(db.State(), id);
    var r := DeleteClass(db.State(), id);
    db.students, db.classes, db.assignments := r.students, r.classes, r.assignments;
  }

  /** What `view_class` shows. */
  datatype ClassView = ClassView(cls: Class, students: seq<Student>, assignments: seq<Assignment>)

  /** `GET /classes/<id>`: the class, its students by name, and its subject assignments. */
  function ViewClass(t: Tables, p: Principal, id: nat): (r: Result<ClassView>)
    ensures p.Anonymous? <==> r == Err(LoginRequired)
    ensures r == Err(NotFound) <==> p.SignedIn? && Some(id) !in KeySet(t.classes, ClassRow)
    ensures r.Ok? ==> r.value.cls in t.classes && r.value.cls.id == id
    ensures r.Ok? ==> multiset(r.value.students) == multiset(StudentsOf(t.students, id))
    ensures r.Ok? ==> forall s :: s in r.value.students <==> s in t.students && s.classId == Some(id)
    ensures r.Ok? ==> Sorted(r.value.students, ByText(StudentName))
    ensures r.Ok? ==> forall a :: a in r.value.assignments <==> a in t.assignments && a.classId == id
  {
    if p.Anonymous? then Err(LoginRequired)
    else
      match FindIndex(t.classes, ClassRow, Some(id))
      case None => Err(NotFound)
      case Some(i) =>
        var members := StudentsOf(t.students, id);
        ByTextPreorder(StudentName);
        SortBySorted(members, ByText(StudentName));
        var sorted := SortBy(members, ByText(StudentName));
        assert forall s :: s in sorted <==> s in multiset(members);
        Ok(ClassView(t.classes[i], sorted, AssignmentsOf(t.assignments, id)))
  }

  /** The class page lists as many students and assignments as the class list counts for it. */
  lemma ViewMatchesList(t: Tables, p: Principal, rows: seq<ClassSummary>, k: nat)
    requires p.SignedIn? && IsClassList(t, rows) && k < |rows|
    ensures ViewClass(t, p, rows[k].cls.id).Ok?
    ensures |ViewClass(t, p, rows[k].cls.id).value.students| == rows[k].studentCount
    ensures |ViewClass(t, p, rows[k].cls.id).value.assignments| == rows[k].assignmentCount
  {
    var order := ClassesInOrder(t);
    assert order[k] in multiset(t.classes);
    assert ClassRow(order[k]) in KeySet(t.classes, ClassRow);
    var v := ViewClass(t, p, rows[k].cls.id).value;
    assert |v.students| == |multiset(v.students)|;
  }

  /** Once a class is deleted its page is gone, no student is left in it, and no student was lost. */
  lemma DeletedClassIsGone(t: Tables, p: Principal, id: nat)
    requires p.SignedIn?
    ensures ViewClass(DeleteClass(t, id), p, id) == Err(NotFound)
    ensures |DeleteClass(t, id).students| == |t.students|
    ensures forall s :: s in DeleteClass(t, id).students ==> s.classId != Some(id)
  {
    var r := DeleteClass(t, id);
    forall s | s in r.students ensures s.classId != Some(id) {
      var k :| 0 <= k < |r.students| && r.students[k] == s;
    }
  }

  // ---------------------------------------------------------------------
  // assign_subject and delete_assignment

  /** The row `assign_subject` inserts. */
  function NewAssignment(t: Tables, f: AssignmentForm, now: Timestamp): Assignment
  {
    Assignment(NextId(t.assignments, AssignmentRow), f.teacherChoice, f.classChoice, f.subjectName, now)
  }

  /** How `POST /classes/assign-subject` ends: the guards, the form (whose select fields offer
      the sentinel 0 and the existing teachers and classes), the duplicate pre-check, then the
      route's own sentinel check. */
  function AssignSubjectError(t: Tables, p: Principal, f: AssignmentForm): (e: Option<Error>)
    ensures AdminGate(p).Some? ==> e == AdminGate(p)
    ensures AdminGate(p).None? ==> (e == Some(InvalidForm) <==> !AssignmentFormValid(f, TeacherIds(t), ClassIds(t)))
    ensures AdminGate(p).None? && AssignmentFormValid(f, TeacherIds(t), ClassIds(t)) ==>
              (e == Some(DuplicateAssignment) <==>
                 exists a :: a in t.assignments && a.teacherId == f.teacherChoice && a.classId == f.classChoice
                             && a.subjectName == f.subjectName)
    ensures e.None? ==> f.teacherChoice in TeacherIds(t) && f.classChoice in ClassIds(t)
    ensures e.None? <==> AdminGate(p).None? && AssignmentFormValid(f, TeacherIds(t), ClassIds(t))
                         && forall a :: a in t.assignments ==>
                              a.teacherId != f.teacherChoice || a.classId != f.classChoice || a.subjectName != f.subjectName
  {
    if AdminGate(p).Some? then AdminGate(p)
    else if !AssignmentFormValid(f, TeacherIds(t), ClassIds(t)) then Some(InvalidForm)
    else if Some((f.teacherChoice, f.classChoice, f.subjectName)) in KeySet(t.assignments, AssignmentTriple) then
      Some(DuplicateAssignment)
    else if f.teacherChoice == 0 || f.classChoice == 0 then Some(MissingSelection)
    else None
  }

  /** `DataRequired` on the two selects already refuses the sentinel, so the route's own check for
      an unselected teacher or class never fires. */
  lemma SentinelCheckNeverFires(t: Tables, p: Principal, f: AssignmentForm)
    ensures AssignSubjectError(t, p, f) != Some(MissingSelection)
    ensures (f.teacherChoice == 0 || f.classChoice == 0) && AdminGate(p).None? ==>
              AssignSubjectError(t, p, f) == Some(InvalidForm)
  {
  }

  lemma AssignSubjectConsistent(t: Tables, p: Principal, f: AssignmentForm, now: Timestamp)
    requires Consistent(t) && AssignSubjectError(t, p, f).None?
    ensures Consistent(t.(assignments := t.assignments + [NewAssignment(t, f, now)]))
  {
    AddAssignmentConsistent(t, NewAssignment(t, f, now));
  }

  /** `POST /classes/assign-subject`. */
  method AssignSubject(db: SchoolDb, p: Principal, f: AssignmentForm, now: Timestamp) returns (e: Option<Error>)
    requires db.Valid()
    modifies db
    ensures db.Valid()
    ensures e == AssignSubjectError(old(db.State()), p, f)
    ensures e.None? ==> db.State() == old(db.State()).(assignments := old(db.assignments) + [NewAssignment(old(db.State()), f, now)])
    ensures e.Some? ==> db.State() == old(db.State())
  {
    e := AdminGate(p);
    if e.Some? {
      return;
    }
    if !AssignmentFormValid(f, TeacherIds(db.State()), ClassIds(db.State())) {
      return Some(InvalidForm);
    }
    if FindIndex(db.assignments, AssignmentTriple, Some((f.teacherChoice, f.classChoice, f.subjectName))).Some? {
      return Some(DuplicateAssignment);
    }
    if f.teacherChoice == 0 || f.classChoice == 0 {
      // the form has refused the sentinel already
      assert false;
    }
    AssignSubjectConsistent(db.State(), p, f, now);
    db.assignments := db.assignments + [NewAssignment(db.State(), f, now)];
  }

  function DeleteAssignmentError(t: Tables, p: Principal, id: nat): (e: Option<Error>)
    ensures AdminGate(p).Some? ==> e == AdminGate(p)
    ensures e.None? <==> AdminGate(p).None? && Some(id) in KeySet(t.assignments, AssignmentRow)
  {
    if AdminGate(p).Some? then AdminGate(p)
    else if FindIndex(t.assignments, AssignmentRow, Some(id)).None? then Some(NotFound)
    else None
  }

  /** `POST /classes/assignment/<id>/delete`. */
  method RemoveAssignment(db: SchoolDb, p: Principal, id: nat) returns (e: Option<Error>)
    requires db.Valid()
    modifies db
    ensures db.Valid()
    ensures e == DeleteAssignmentError(old(db.State()), p, id)
    ensures e.None? ==> db.State() == DeleteAssignment(old(db.State()), id)
    ensures e.Some? ==> db.State() == old(db.State())
  {
    e := AdminGate(p);
    if e.Some? {
      return;
    }
    if FindIndex(db.assignments, AssignmentRow, Some(id)).None? {
      return Some(NotFound);
    }
    DeleteAssignmentConsistent(db.State(), id);
    db.assignments := DeleteAssignment(db.State(), id).assignments;
  }

  /** Deleting an existing assignment removes exactly that one row. */
  lemma DeleteAssignmentRemovesOne(t: Tables, id: nat)
    requires Consistent(t) && Some(id) in KeySet(t.assignments, AssignmentRow)
    ensures |DeleteAssignment(t, id).assignments| == |t.assignments| - 1
  {
    WithoutOneRow(t.assignments, AssignmentRow, id);
  }
}

=== FILE: common.dfy ===
/** Values shared by every part of the school record store: optional values,
    dates and timestamps, and the text helpers the routes use (ASCII case
    folding, substring search, blank detection). */
module Common {

  datatype Option<T> = None | Some(value: T)

  /** A calendar date, as a day number. `date.today()` is always a parameter. */
  type Date = int

  /** A UTC timestamp (`datetime.utcnow()`), always a parameter. */
  type Timestamp = int

  function Min(a: int, b: int): int { if a <= b then a else b }

  function Max(a: int, b: int): int { if a >= b then a else b }

  /** ASCII lower-casing of one character; other characters are unchanged. */
  function LowerChar(c: char): (r: char)
    ensures 'A' <= c <= 'Z' ==> 'a' <= r <= 'z'
    ensures !('A' <= c <= 'Z') ==> r == c
  {
    if 'A' <= c <= 'Z' then (c as int + 32) as char else c
  }

  /** `str.lower()` restricted to ASCII letters. */
  function Lower(s: string): (r: string)
    ensures |r| == |s|
    ensures forall i :: 0 <= i < |s| ==> r[i] == LowerChar(s[i])
  {
    seq(|s|, i requires 0 <= i < |s| => LowerChar(s[i]))
  }

  /** True when `needle` occurs in `hay` as a contiguous block. */
  predicate Contains(hay: string, needle: string)
    decreases |hay|
  {
    needle <= hay || (hay != [] && Contains(hay[1..], needle))
  }

  /** The SQL `ilike '%needle%'` test, read as a literal, ASCII case-insensitive substring search. */
  predicate ContainsIgnoringCase(hay: string, needle: string)
  {
    Contains(Lower(hay), Lower(needle))
  }

  /** The characters Python's `str.strip()` removes: those for which `str.isspace()` holds. */
  predicate IsSpace(c: char)
  {
    || c == ' ' || '\U{0009}' <= c <= '\U{000D}' || '\U{001C}' <= c <= '\U{001F}'
    || c == '\U{0085}' || c == '\U{00A0}' || c == '\U{1680}' || '\U{2000}' <= c <= '\U{200A}'
    || c == '\U{2028}' || c == '\U{2029}' || c == '\U{202F}' || c == '\U{205F}' || c == '\U{3000}'
  }

  /** Empty or whitespace only: what WTForms' `DataRequired` rejects and `Optional` skips. */
  predicate IsBlank(s: string)
  {
    forall i :: 0 <= i < |s| ==> IsSpace(s[i])
  }
}

=== FILE: dashboard.dfy ===
/** The dashboard: four table totals and the five newest students and teachers. It only reads. */
module Dashboard {
  import opened Common
  import opened Order
  import opened Models
  import opened Auth
  import Students
  import Teachers

  /** How many rows each "recent" list shows. */
  const RecentCount: nat := 5

  /** `order_by(key.desc()).limit(n)`: the first `n` rows newest first, and no row left out is
      newer than a row shown. */
  function Latest<T(==,!new)>(s: seq<T>, key: T -> int, n: nat): (r: seq<T>)
    ensures |r| == Min(n, |s|)
    ensures Sorted(r, ByKeyDesc(key))
    ensures multiset(r) <= multiset(s)
    ensures forall x, y :: x in multiset(s) - multiset(r) && y in r ==> key(x) <= key(y)
  {
    ByKeyDescPreorder(key);
    SortBySorted(s, ByKeyDesc(key));
    var sorted := SortBy(s, ByKeyDesc(key));
    var r := Take(sorted, n);
    assert sorted == r + sorted[|r|..];
    var rest := sorted[|r|..];
    assert multiset(sorted) == multiset(r) + multiset(rest);
    assert multiset(s) - multiset(r) == multiset(rest);
    forall x, y | x in multiset(rest) && y in r ensures key(x) <= key(y) {
      var i :| 0 <= i < |r| && r[i] == y;
      var j :| 0 <= j < |rest| && rest[j] == x;
      assert sorted[i] == y && sorted[|r| + j] == x;
    }
    SortedSlice(sorted, 0, |r|, ByKeyDesc(key));
    assert r == sorted[0..|r|];
    r
  }

  /** `Student.query.order_by(Student.created_at.desc()).limit(5)`. */
  function RecentStudents(students: seq<Student>): (r: seq<Student>)
    ensures |r| == Min(RecentCount, |students|)
    ensures Sorted(r, Students.NewestFirst())
    ensures multiset(r) <= multiset(students)
    ensures forall x, y :: x in multiset(students) - multiset(r) && y in r ==> x.createdAt <= y.createdAt
  {
    var r := Latest(students, Students.StudentCreated, RecentCount);
    assert forall x, y :: x in multiset(students) - multiset(r) && y in r
                          ==> Students.StudentCreated(x) <= Students.StudentCreated(y);
    r
  }

  /** `Teacher.query.order_by(Teacher.created_at.desc()).limit(5)`. */
  function RecentTeachers(teachers: seq<Teacher>): (r: seq<Teacher>)
    ensures |r| == Min(RecentCount, |teachers|)
    ensures Sorted(r, Teachers.NewestFirst())
    ensures multiset(r) <= multiset(teachers)
    ensures forall x, y :: x in multiset(teachers) - multiset(r) && y in r ==> x.createdAt <= y.createdAt
  {
    var r := Latest(teachers, Teachers.TeacherCreated, RecentCount);
    assert forall x, y :: x in multiset(teachers) - multiset(r) && y in r
                          ==> Teachers.TeacherCreated(x) <= Teachers.TeacherCreated(y);
    r
  }

  datatype Summary = Summary(totalStudents: nat, totalTeachers: nat, totalClasses: nat,
                             totalAssignments: nat, recentStudents: seq<Student>,
                             recentTeachers: seq<Teacher>)

  /** `GET /` and `GET /dashboard`: the four totals are the table sizes, the recent lists are the
      five newest rows. */
  function Index(t: Tables, p: Principal): (r: Result<Summary>)
    ensures r.Err? <==> p.Anonymous?
    ensures r.Err? ==> r.error == LoginRequired
    ensures r.Ok? ==> r.value.totalStudents == |t.students| && r.value.totalTeachers == |t.teachers|
                      && r.value.totalClasses == |t.classes| && r.value.totalAssignments == |t.assignments|
    ensures r.Ok? ==> r.value.recentStudents == RecentStudents(t.students)
    ensures r.Ok? ==> r.value.recentTeachers == RecentTeachers(t.teachers)
  {
    if p.Anonymous? then Err(LoginRequired)
    else
      Ok(Summary(|t.students|, |t.teachers|, |t.classes|, |t.assignments|,
                 RecentStudents(t.students), RecentTeachers(t.teachers)))
  }

  /** A student strictly newer than every other is always among the five shown, however many students there are. */
  lemma NewestStudentShown(t: Tables, p: Principal, x: Student)
    requires p.SignedIn? && x in t.students
    requires forall y :: y in t.students ==> y.createdAt < x.createdAt || y == x
    ensures x in Index(t, p).value.recentStudents
  {
    var r := RecentStudents(t.students);
    var y := r[0];
    assert y in multiset(t.students);
    if y != x {
      // y is older than x, so x cannot have been left out
      assert x !in multiset(t.students) - multiset(r);
    }
  }
}

=== FILE: forms.dfy ===
/** The submitted forms and their validators. A form is valid when every
    field passes its validator chain; the routes act only on valid forms.
    Text fields hold the submitted text as is (no stripping). */
module Forms {
  import opened Common

  datatype LoginForm = LoginForm(username: string, password: string)

  /** `classChoice` is the selected option: 0 is "Select Class". A date that did not parse is None. */
  datatype StudentForm = StudentForm(studentId: string, fullName: string, dateOfBirth: Option<Date>,
                                     email: string, phone: string, address: string, classChoice: nat)

  datatype TeacherForm = TeacherForm(teacherId: string, fullName: string, subject: string,
                                     qualification: string, email: string, phone: string,
                                     joiningDate: Option<Date>)

  datatype ClassForm = ClassForm(grade: string, section: string)

  /** `teacherChoice` and `classChoice` are the selected options: 0 is "Select ...". */
  datatype AssignmentForm = AssignmentForm(teacherChoice: nat, classChoice: nat, subjectName: string)

  /** `DataRequired()` on a text field: something other than whitespace. */
  predicate Required(s: string)
  {
    !IsBlank(s)
  }

  /** `Length(min, max)`: the length of the raw text, whitespace included. */
  predicate LengthIn(s: string, min: nat, max: nat)
  {
    min <= |s| <= max
  }

  /** `Optional(), Length(max=max)`: a blank field stops the chain and passes. */
  predicate OptionalMax(s: string, max: nat)
  {
    IsBlank(s) || |s| <= max
  }

  /** `validate_date_of_birth`: a date strictly after today is refused. */
  predicate ValidDateOfBirth(d: Option<Date>, today: Date)
  {
    !(d.Some? && d.value > today)
  }

  /** `validate_joining_date`: a date strictly after today is refused. */
  predicate ValidJoiningDate(d: Option<Date>, today: Date)
  {
    !(d.Some? && d.value > today)
  }

  /** `validate_student_id`: uniqueness is left to the route, so every value passes. */
  predicate ValidStudentId(s: string)
  {
    true
  }

  /** A select field accepts only one of the choices it was given: the sentinel 0 or an existing row id. */
  predicate ValidChoice(choice: nat, ids: set<nat>)
  {
    choice == 0 || choice in ids
  }

  /** `DataRequired()` on a select field coerced to int: the sentinel 0 is falsy and fails. */
  predicate RequiredChoice(choice: nat, ids: set<nat>)
  {
    choice != 0 && choice in ids
  }

  predicate LoginFormValid(f: LoginForm)
  {
    Required(f.username) && LengthIn(f.username, 3, 80) && Required(f.password)
  }

  predicate StudentFormValid(f: StudentForm, today: Date, classIds: set<nat>)
  {
    && Required(f.studentId) && LengthIn(f.studentId, 1, 20) && ValidStudentId(f.studentId)
    && Required(f.fullName) && LengthIn(f.fullName, 2, 100)
    && f.dateOfBirth.Some? && ValidDateOfBirth(f.dateOfBirth, today)
    && OptionalMax(f.email, 120)
    && OptionalMax(f.phone, 20)
    && OptionalMax(f.address, 500)
    && ValidChoice(f.classChoice, classIds)
  }

  predicate TeacherFormValid(f: TeacherForm, today: Date)
  {
    && Required(f.teacherId) && LengthIn(f.teacherId, 1, 20)
    && Required(f.fullName) && LengthIn(f.fullName, 2, 100)
    && Required(f.subject) && |f.subject| <= 100
    && OptionalMax(f.qualification, 200)
    && OptionalMax(f.email, 120)
    && OptionalMax(f.phone, 20)
    && f.joiningDate.Some? && ValidJoiningDate(f.joiningDate, today)
  }

  predicate ClassFormValid(f: ClassForm)
  {
    Required(f.grade) && LengthIn(f.grade, 1, 10) && Required(f.section) && LengthIn(f.section, 1, 10)
  }

  predicate AssignmentFormValid(f: AssignmentForm, teacherIds: set<nat>, classIds: set<nat>)
  {
    && RequiredChoice(f.teacherChoice, teacherIds)
    && RequiredChoice(f.classChoice, classIds)
    && Required(f.subjectName) && |f.subjectName| <= 100
  }

  /** `data if data else None`: the empty string is stored as NULL, anything else as typed. */
  function Stored(s: string): (r: Option<string>)
    ensures r.None? <==> s == ""
    ensures r.Some? ==> r.value == s
  {
    if s == "" then None else Some(s)
  }

  /** `class_id if class_id and class_id != 0 else None`: the sentinel 0 is stored as NULL. */
  function ClassLink(choice: nat): (r: Option<nat>)
    ensures r.None? <==> choice == 0
    ensures r.Some? ==> r.value == choice
  {
    if choice == 0 then None else Some(choice)
  }

  /** Today is the last accepted date: both date validators accept `today` and refuse `today + 1`. */
  lemma TodayIsTheBoundary(today: Date)
    ensures ValidDateOfBirth(Some(today), today) && !ValidDateOfBirth(Some(today + 1), today)
    ensures ValidJoiningDate(Some(today), today) && !ValidJoiningDate(Some(today + 1), today)
  {
  }

  /** A valid student form has a date of birth no later than today and fields within their bounds. */
  lemma StudentFormBounds(f: StudentForm, today: Date, classIds: set<nat>)
    requires StudentFormValid(f, today, classIds)
    ensures f.dateOfBirth.Some? && f.dateOfBirth.value <= today
    ensures 1 <= |f.studentId| <= 20 && 2 <= |f.fullName| <= 100
    ensures |f.email| <= 120 || IsBlank(f.email)
    ensures |f.phone| <= 20 || IsBlank(f.phone)
    ensures |f.address| <= 500 || IsBlank(f.address)
    ensures f.classChoice != 0 ==> f.classChoice in classIds
  {
  }

  /** A valid teacher form has a joining date no later than today and fields within their bounds. */
  lemma TeacherFormBounds(f: TeacherForm, today: Date)
    requires TeacherFormValid(f, today)
    ensures f.joiningDate.Some? && f.joiningDate.value <= today
    ensures 1 <= |f.teacherId| <= 20 && 2 <= |f.fullName| <= 100 && 1 <= |f.subject| <= 100
    ensures |f.qualification| <= 200 || IsBlank(f.qualification)
  {
  }

  /** Grade and section of a valid class form are 1 to 10 characters, and not blank. */
  lemma ClassFormBounds(f: ClassForm)
    requires ClassFormValid(f)
    ensures 1 <= |f.grade| <= 10 && 1 <= |f.section| <= 10
    ensures exists i :: 0 <= i < |f.grade| && !IsSpace(f.grade[i])
  {
  }

  /** A valid assignment form selects an existing teacher and class, never the sentinel, and names a
      subject of at most 100 characters. */
  lemma AssignmentFormBounds(f: AssignmentForm, teacherIds: set<nat>, classIds: set<nat>)
    requires AssignmentFormValid(f, teacherIds, classIds)
    ensures f.teacherChoice != 0 && f.classChoice != 0
    ensures f.teacherChoice in teacherIds && f.classChoice in classIds
    ensures 1 <= |f.subjectName| <= 100
  {
  }

  /** A valid login form has a username of 3 to 80 characters and a non-blank password. */
  lemma LoginFormBounds(f: LoginForm)
    requires LoginFormValid(f)
    ensures 3 <= |f.username| <= 80 && f.password != ""
  {
  }
}

=== FILE: models.dfy ===
/** The school record store: the five tables, their unique and foreign-key
    constraints, the cascade and nullify rules of the relationships, the
    password helpers of a user account, and the store itself as an object
    whose tables are updated in place. */
module Models {
  import opened Common
  import opened Table

  /** A stored password: the random salt and the digest of salt and password. */
  datatype PasswordHash = PasswordHash(salt: string, digest: string)

  /** The hashing function behind `generate_password_hash`, a foreign call:
      the digest of a password under a salt. */
  type Hasher = (string, string) -> string

  /** Distinct passwords under one salt give distinct digests. */
  ghost predicate Injective(hash: Hasher)
  {
    forall salt, p, q :: hash(salt, p) == hash(salt, q) ==> p == q
  }

  datatype User = User(id: nat, username: string, email: string, passwordHash: PasswordHash,
                       role: string, createdAt: Timestamp)

  datatype Student = Student(id: nat, studentId: string, fullName: string, dateOfBirth: Date,
                             email: Option<string>, phone: Option<string>, address: Option<string>,
                             classId: Option<nat>, createdAt: Timestamp, updatedAt: Timestamp)

  datatype Teacher = Teacher(id: nat, teacherId: string, fullName: string, subject: string,
                             qualification: Option<string>, email: Option<string>, phone: Option<string>,
                             joiningDate: Date, createdAt: Timestamp, updatedAt: Timestamp,
                             userId: Option<nat>)

  datatype Class = Class(id: nat, grade: string, section: string, createdAt: Timestamp)

  /** A row of `subject_assignments`: one teacher teaches one subject to one class. */
  datatype Assignment = Assignment(id: nat, teacherId: nat, classId: nat, subjectName: string,
                                   createdAt: Timestamp)

  /** The failures a request can end in. */
  datatype Error =
    | LoginRequired        // no signed-in user: sent to the login page
    | AccessDenied         // signed in, but not an administrator
    | NotFound             // `get_or_404` on a missing id
    | InvalidForm          // a form validator rejected the input
    | DuplicateStudentId
    | DuplicateTeacherId
    | DuplicateEmail
    | DuplicateClass
    | DuplicateAssignment
    | MissingSelection     // teacher or class left at "Select ..."

  datatype Result<T> = Ok(value: T) | Err(error: Error)

  // Columns, as functions from a row to its (nullable) value.

  function UserRow(u: User): Option<nat> { Some(u.id) }
  function Username(u: User): Option<string> { Some(u.username) }
  function UserEmail(u: User): Option<string> { Some(u.email) }

  function StudentRow(s: Student): Option<nat> { Some(s.id) }
  function StudentCode(s: Student): Option<string> { Some(s.studentId) }
  function StudentEmail(s: Student): Option<string> { s.email }
  function StudentClass(s: Student): Option<nat> { s.classId }

  function TeacherRow(t: Teacher): Option<nat> { Some(t.id) }
  function TeacherCode(t: Teacher): Option<string> { Some(t.teacherId) }
  function TeacherEmail(t: Teacher): Option<string> { t.email }
  function TeacherUser(t: Teacher): Option<nat> { t.userId }

  function ClassRow(c: Class): Option<nat> { Some(c.id) }
  function GradeSection(c: Class): Option<(string, string)> { Some((c.grade, c.section)) }

  function AssignmentRow(a: Assignment): Option<nat> { Some(a.id) }
  function AssignmentTriple(a: Assignment): Option<(nat, nat, string)> { Some((a.teacherId, a.classId, a.subjectName)) }
  function AssignmentTeacher(a: Assignment): Option<nat> { Some(a.teacherId) }
  function AssignmentClass(a: Assignment): Option<nat> { Some(a.classId) }

  /** The whole store as a value. */
  datatype Tables = Tables(users: seq<User>, students: seq<Student>, teachers: seq<Teacher>,
                           classes: seq<Class>, assignments: seq<Assignment>)

  ghost predicate UsersOk(t: Tables)
  {
    Distinct(t.users, UserRow) && Distinct(t.users, Username) && Distinct(t.users, UserEmail)
  }

  /** `student_id` unique, `email` unique when present, `class_id` NULL or an existing class. */
  ghost predicate StudentsOk(t: Tables)
  {
    && Distinct(t.students, StudentRow)
    && Distinct(t.students, StudentCode)
    && Distinct(t.students, StudentEmail)
    && RefersTo(t.students, StudentClass, t.classes, ClassRow)
  }

  /** `teacher_id` unique, `email` unique when present, at most one teacher per user account. */
  ghost predicate TeachersOk(t: Tables)
  {
    && Distinct(t.teachers, TeacherRow)
    && Distinct(t.teachers, TeacherCode)
    && Distinct(t.teachers, TeacherEmail)
    && Distinct(t.teachers, TeacherUser)
    && RefersTo(t.teachers, TeacherUser, t.users, UserRow)
  }

  /** (grade, section) unique: kept by the create-class pre-check alone, as the schema has no such constraint. */
  ghost predicate ClassesOk(t: Tables)
  {
    Distinct(t.classes, ClassRow) && Distinct(t.classes, GradeSection)
  }

  /** (teacher, class, subject) unique, and every assignment names an existing teacher and class. */
  ghost predicate AssignmentsOk(t: Tables)
  {
    && Distinct(t.assignments, AssignmentRow)
    && Distinct(t.assignments, AssignmentTriple)
    && RefersTo(t.assignments, AssignmentTeacher, t.teachers, TeacherRow)
    && RefersTo(t.assignments, AssignmentClass, t.classes, ClassRow)
  }

  ghost predicate Consistent(t: Tables)
  {
    UsersOk(t) && StudentsOk(t) && TeachersOk(t) && ClassesOk(t) && AssignmentsOk(t)
  }

  /** The row ids of the classes: the options of a class select field besides "Select Class". */
  function ClassIds(t: Tables): (ids: set<nat>)
    ensures forall n :: n in ids <==> Some(n) in KeySet(t.classes, ClassRow)
  {
    set c | c in t.classes :: c.id
  }

  /** The row ids of the teachers: the options of a teacher select field besides "Select Teacher". */
  function TeacherIds(t: Tables): (ids: set<nat>)
    ensures forall n :: n in ids <==> Some(n) in KeySet(t.teachers, TeacherRow)
  {
    set x | x in t.teachers :: x.id
  }

  function EmptyTables(): (t: Tables)
    ensures Consistent(t)
  {
    Tables([], [], [], [], [])
  }

  // ---------------------------------------------------------------------
  // User accounts

  /** `User.is_admin()`. */
  predicate IsAdmin(u: User)
  {
    u.role == "Admin"
  }

  /** `User.check_password`: the password hashed under the stored salt gives the stored digest. */
  predicate CheckPassword(u: User, password: string, hash: Hasher)
  {
    hash(u.passwordHash.salt, password) == u.passwordHash.digest
  }

  /** `User.set_password`: only the stored hash changes, and the new password is accepted. */
  function WithPassword(u: User, salt: string, password: string, hash: Hasher): (r: User)
    ensures CheckPassword(r, password, hash)
    ensures r.(passwordHash := u.passwordHash) == u
  {
    u.(passwordHash := PasswordHash(salt, hash(salt, password)))
  }

  /** With an injective hash, the password just set is the only one accepted. */
  lemma OnlyNewPasswordAccepted(u: User, salt: string, password: string, other: string, hash: Hasher)
    requires Injective(hash)
    ensures CheckPassword(WithPassword(u, salt, password, hash), other, hash) <==> other == password
  {
  }

  // ---------------------------------------------------------------------
  // Classes

  /** `Class.get_display_name`: grade, a hyphen, section. */
  function DisplayName(c: Class): (r: string)
    ensures |r| == |c.grade| + 1 + |c.section|
    ensures r[..|c.grade|] == c.grade && r[|c.grade|] == '-' && r[|c.grade| + 1..] == c.section
  {
    c.grade + "-" + c.section
  }

  /** Display names tell classes apart as long as no grade contains a hyphen. */
  lemma DisplayNameInjective(c: Class, d: Class)
    requires '-' !in c.grade && '-' !in d.grade
    requires DisplayName(c) == DisplayName(d)
    ensures c.grade == d.grade && c.section == d.section
  {
    // the first hyphen of the name ends the grade, in both names
    assert |c.grade| == |d.grade|;
  }

  /** Two distinct (grade, section) pairs that share a display name, since a grade may contain a hyphen. */
  lemma DisplayNameCollision()
    ensures var c, d := Class(1, "1", "-A", 0), Class(2, "1-", "A", 0);
            GradeSection(c) != GradeSection(d) && DisplayName(c) == DisplayName(d)
  {
  }

  // ---------------------------------------------------------------------
  // Inserting and overwriting rows. Each lemma names what the new row must
  // satisfy for the store to stay consistent.

  lemma AddUserConsistent(t: Tables, u: User)
    requires Consistent(t)
    requires UserRow(u) !in KeySet(t.users, UserRow)
    requires Username(u) !in KeySet(t.users, Username)
    requires UserEmail(u) !in KeySet(t.users, UserEmail)
    ensures Consistent(t.(users := t.users + [u]))
  {
    var r := t.(users := t.users + [u]);
    DistinctAppend(t.users, u, UserRow);
    DistinctAppend(t.users, u, Username);
    DistinctAppend(t.users, u, UserEmail);
    KeySetAppend(t.users, u, UserRow);
    RefersToMono(t.teachers, r.teachers, TeacherUser, t.users, r.users, UserRow);
  }

  /** A row whose keys are those of the row it replaces leaves every user constraint intact. */
  lemma ReplaceUserConsistent(t: Tables, i: nat, u: User)
    requires Consistent(t) && i < |t.users|
    requires u.id == t.users[i].id && u.username == t.users[i].username && u.email == t.users[i].email
    ensures Consistent(t.(users := t.users[i := u]))
  {
    var r := t.(users := t.users[i := u]);
    DistinctUpdate(t.users, i, u, UserRow);
    DistinctUpdate(t.users, i, u, Username);
    DistinctUpdate(t.users, i, u, UserEmail);
    KeySetUpdateSame(t.users, i, u, UserRow);
  }

  /** The conditions under which a new student row keeps the store consistent. */
  ghost predicate StudentFits(t: Tables, s: Student)
  {
    && StudentRow(s) !in KeySet(t.students, StudentRow)
    && StudentCode(s) !in KeySet(t.students, StudentCode)
    && (s.email.None? || s.email !in KeySet(t.students, StudentEmail))
    && (s.classId.None? || s.classId in KeySet(t.classes, ClassRow))
  }

  lemma AddStudentConsistent(t: Tables, s: Student)
    requires Consistent(t) && StudentFits(t, s)
    ensures Consistent(t.(students := t.students + [s]))
  {
    DistinctAppend(t.students, s, StudentRow);
    DistinctAppend(t.students, s, StudentCode);
    DistinctAppend(t.students, s, StudentEmail);
    RefersToAppend(t.students, s, StudentClass, t.classes, ClassRow);
  }

  /** Overwriting student `i`: the row id is kept, and each unique value is kept, NULL, or unused. */
  lemma ReplaceStudentConsistent(t: Tables, i: nat, s: Student)
    requires Consistent(t) && i < |t.students|
    requires s.id == t.students[i].id
    requires s.studentId == t.students[i].studentId || StudentCode(s) !in KeySet(t.students, StudentCode)
    requires s.email.None? || s.email == t.students[i].email || s.email !in KeySet(t.students, StudentEmail)
    requires s.classId.None? || s.classId in KeySet(t.classes, ClassRow)
    ensures Consistent(t.(students := t.students[i := s]))
  {
    DistinctUpdate(t.students, i, s, StudentRow);
    DistinctUpdate(t.students, i, s, StudentCode);
    DistinctUpdate(t.students, i, s, StudentEmail);
    RefersToUpdate(t.students, i, s, StudentClass, t.classes, ClassRow);
  }

  /** The conditions under which a new teacher row keeps the store consistent. */
  ghost predicate TeacherFits(t: Tables, x: Teacher)
  {
    && TeacherRow(x) !in KeySet(t.teachers, TeacherRow)
    && TeacherCode(x) !in KeySet(t.teachers, TeacherCode)
    && (x.email.None? || x.email !in KeySet(t.teachers, TeacherEmail))
    && (x.userId.None? || (x.userId !in KeySet(t.teachers, TeacherUser) && x.userId in KeySet(t.users, UserRow)))
  }

  lemma AddTeacherConsistent(t: Tables, x: Teacher)
    requires Consistent(t) && TeacherFits(t, x)
    ensures Consistent(t.(teachers := t.teachers + [x]))
  {
    var r := t.(teachers := t.teachers + [x]);
    DistinctAppend(t.teachers, x, TeacherRow);
    DistinctAppend(t.teachers, x, TeacherCode);
    DistinctAppend(t.teachers, x, TeacherEmail);
    DistinctAppend(t.teachers, x, TeacherUser);
    RefersToAppend(t.teachers, x, TeacherUser, t.users, UserRow);
    KeySetAppend(t.teachers, x, TeacherRow);
    RefersToMono(t.assignments, r.assignments, AssignmentTeacher, t.teachers, r.teachers, TeacherRow);
  }

  /** Overwriting teacher `i`: the row id is kept, each unique value is kept, NULL, or unused, and
      the user link is valid. */
  lemma ReplaceTeacherConsistent(t: Tables, i: nat, x: Teacher)
    requires Consistent(t) && i < |t.teachers|
    requires x.id == t.teachers[i].id
    requires x.teacherId == t.teachers[i].teacherId || TeacherCode(x) !in KeySet(t.teachers, TeacherCode)
    requires x.email.None? || x.email == t.teachers[i].email || x.email !in KeySet(t.teachers, TeacherEmail)
    requires x.userId.None? || x.userId == t.teachers[i].userId
             || (x.userId !in KeySet(t.teachers, TeacherUser) && x.userId in KeySet(t.users, UserRow))
    ensures Consistent(t.(teachers := t.teachers[i := x]))
  {
    var r := t.(teachers := t.teachers[i := x]);
    DistinctUpdate(t.teachers, i, x, TeacherRow);
    DistinctUpdate(t.teachers, i, x, TeacherCode);
    DistinctUpdate(t.teachers, i, x, TeacherEmail);
    DistinctUpdate(t.teachers, i, x, TeacherUser);
    if x.userId.Some? && x.userId == t.teachers[i].userId {
      KeySetMember(t.teachers, TeacherUser, i);
      assert t.teachers[i] in t.teachers;
    }
    RefersToUpdate(t.teachers, i, x, TeacherUser, t.users, UserRow);
    KeySetUpdateSame(t.teachers, i, x, TeacherRow);
  }

  /** The conditions under which a new class row keeps the store consistent. */
  ghost predicate ClassFits(t: Tables, c: Class)
  {
    ClassRow(c) !in KeySet(t.classes, ClassRow) && GradeSection(c) !in KeySet(t.classes, GradeSection)
  }

  lemma AddClassConsistent(t: Tables, c: Class)
    requires Consistent(t) && ClassFits(t, c)
    ensures Consistent(t.(classes := t.classes + [c]))
  {
    var r := t.(classes := t.classes + [c]);
    DistinctAppend(t.classes, c, ClassRow);
    DistinctAppend(t.classes, c, GradeSection);
    KeySetAppend(t.classes, c, ClassRow);
    RefersToMono(t.students, r.students, StudentClass, t.classes, r.classes, ClassRow);
    RefersToMono(t.assignments, r.assignments, AssignmentClass, t.classes, r.classes, ClassRow);
  }

  /** The conditions under which a new assignment row keeps the store consistent. */
  ghost predicate AssignmentFits(t: Tables, a: Assignment)
  {
    && AssignmentRow(a) !in KeySet(t.assignments, AssignmentRow)
    && AssignmentTriple(a) !in KeySet(t.assignments, AssignmentTriple)
    && AssignmentTeacher(a) in KeySet(t.teachers, TeacherRow)
    && AssignmentClass(a) in KeySet(t.classes, ClassRow)
  }

  lemma AddAssignmentConsistent(t: Tables, a: Assignment)
    requires Consistent(t) && AssignmentFits(t, a)
    ensures Consistent(t.(assignments := t.assignments + [a]))
  {
    DistinctAppend(t.assignments, a, AssignmentRow);
    DistinctAppend(t.assignments, a, AssignmentTriple);
    RefersToAppend(t.assignments, a, AssignmentTeacher, t.teachers, TeacherRow);
    RefersToAppend(t.assignments, a, AssignmentClass, t.classes, ClassRow);
  }

  // ---------------------------------------------------------------------
  // Deleting rows, with the cascades the relationships declare.

  /** Deleting a student touches no other table. */
  function DeleteStudent(t: Tables, id: nat): (r: Tables)
    ensures r == t.(students := r.students)
    ensures forall s :: s in r.students <==> s in t.students && s.id != id
  {
    t.(students := Without(t.students, StudentRow, {Some(id)}))
  }

  lemma DeleteStudentConsistent(t: Tables, id: nat)
    requires Consistent(t)
    ensures Consistent(DeleteStudent(t, id))
  {
    var gone: set<Option<nat>> := {Some(id)};
    DistinctWithout(t.students, StudentRow, gone, StudentRow);
    DistinctWithout(t.students, StudentRow, gone, StudentCode);
    DistinctWithout(t.students, StudentRow, gone, StudentEmail);
  }

  /** The students of a deleted class, with their class link cleared and nothing else changed. */
  function Unlink(students: seq<Student>, id: nat): (r: seq<Student>)
    ensures |r| == |students|
    ensures forall k :: 0 <= k < |r| ==>
              r[k] == if students[k].classId == Some(id) then students[k].(classId := None) else students[k]
  {
    seq(|students|, k requires 0 <= k < |students| =>
      if students[k].classId == Some(id) then students[k].(classId := None) else students[k])
  }

  /** Deleting a class: its assignments are deleted (`cascade='all, delete-orphan'`), its students
      stay with their class link set to NULL, and teachers and users are untouched. */
  function DeleteClass(t: Tables, id: nat): (r: Tables)
    ensures r.users == t.users && r.teachers == t.teachers
    ensures forall c :: c in r.classes <==> c in t.classes && c.id != id
    ensures forall a :: a in r.assignments <==> a in t.assignments && a.classId != id
    ensures |r.students| == |t.students|
    ensures forall k :: 0 <= k < |r.students| ==>
              r.students[k].(classId := t.students[k].classId) == t.students[k]
              && r.students[k].classId == if t.students[k].classId == Some(id) then None else t.students[k].classId
  {
    Tables(t.users, Unlink(t.students, id), t.teachers,
           Without(t.classes, ClassRow, {Some(id)}),
           Without(t.assignments, AssignmentClass, {Some(id)}))
  }

  lemma {:induction false} DeleteClassConsistent(t: Tables, id: nat)
    requires Consistent(t)
    ensures Consistent(DeleteClass(t, id))
  {
    var r := DeleteClass(t, id);
    var gone: set<Option<nat>> := {Some(id)};
    DistinctSameKeys(t.students, r.students, StudentRow);
    DistinctSameKeys(t.students, r.students, StudentCode);
    DistinctSameKeys(t.students, r.students, StudentEmail);
    KeySetWithout(t.classes, ClassRow, gone);
    forall s | s in r.students && StudentClass(s).Some?
      ensures StudentClass(s) in KeySet(r.classes, ClassRow)
    {
      var k :| 0 <= k < |r.students| && r.students[k] == s;
      assert t.students[k] in t.students;
    }
    DistinctWithout(t.classes, ClassRow, gone, ClassRow);
    DistinctWithout(t.classes, ClassRow, gone, GradeSection);
    DistinctWithout(t.assignments, AssignmentClass, gone, AssignmentRow);
    DistinctWithout(t.assignments, AssignmentClass, gone, AssignmentTriple);
    RefersToMono(t.assignments, r.assignments, AssignmentTeacher, t.teachers, r.teachers, TeacherRow);
  }

  /** Deleting a teacher: its assignments are deleted (`cascade='all, delete-orphan'`);
      students, classes and users are untouched. */
  function DeleteTeacher(t: Tables, id: nat): (r: Tables)
    ensures r.users == t.users && r.students == t.students && r.classes == t.classes
    ensures forall x :: x in r.teachers <==> x in t.teachers && x.id != id
    ensures forall a :: a in r.assignments <==> a in t.assignments && a.teacherId != id
  {
    t.(teachers := Without(t.teachers, TeacherRow, {Some(id)}),
       assignments := Without(t.assignments, AssignmentTeacher, {Some(id)}))
  }

  lemma DeleteTeacherConsistent(t: Tables, id: nat)
    requires Consistent(t)
    ensures Consistent(DeleteTeacher(t, id))
  {
    var r := DeleteTeacher(t, id);
    var gone: set<Option<nat>> := {Some(id)};
    DistinctWithout(t.teachers, TeacherRow, gone, TeacherRow);
    DistinctWithout(t.teachers, TeacherRow, gone, TeacherCode);
    DistinctWithout(t.teachers, TeacherRow, gone, TeacherEmail);
    DistinctWithout(t.teachers, TeacherRow, gone, TeacherUser);
    KeySetWithout(t.teachers, TeacherRow, gone);
    DistinctWithout(t.assignments, AssignmentTeacher, gone, AssignmentRow);
    DistinctWithout(t.assignments, AssignmentTeacher, gone, AssignmentTriple);
    RefersToMono(t.assignments, r.assignments, AssignmentClass, t.classes, r.classes, ClassRow);
  }

  /** The row ids of the teachers linked to user account `id`. */
  function LinkedTeachers(teachers: seq<Teacher>, id: nat): (r: set<Option<nat>>)
    ensures forall k :: k in r <==> exists x :: x in teachers && x.userId == Some(id) && k == Some(x.id)
  {
    set x | x in teachers && x.userId == Some(id) :: TeacherRow(x)
  }

  /** Deleting a user account: its linked teacher is deleted (`cascade='all, delete-orphan'`) and,
      through that teacher, the teacher's assignments; students and classes are untouched. */
  function DeleteUser(t: Tables, id: nat): (r: Tables)
    ensures r.students == t.students && r.classes == t.classes
    ensures forall u :: u in r.users <==> u in t.users && u.id != id
    ensures forall x :: x in r.teachers <==> x in t.teachers && x.userId != Some(id)
    ensures forall a :: a in r.assignments <==>
              a in t.assignments && !(exists x :: x in t.teachers && x.userId == Some(id) && x.id == a.teacherId)
  {
    var doomed := LinkedTeachers(t.teachers, id);
    t.(users := Without(t.users, UserRow, {Some(id)}),
       teachers := Without(t.teachers, TeacherUser, {Some(id)}),
       assignments := Without(t.assignments, AssignmentTeacher, doomed))
  }

  lemma {:induction false} DeleteUserConsistent(t: Tables, id: nat)
    requires Consistent(t)
    ensures Consistent(DeleteUser(t, id))
  {
    var r := DeleteUser(t, id);
    var gone: set<Option<nat>> := {Some(id)};
    var doomed := LinkedTeachers(t.teachers, id);
    DistinctWithout(t.users, UserRow, gone, UserRow);
    DistinctWithout(t.users, UserRow, gone, Username);
    DistinctWithout(t.users, UserRow, gone, UserEmail);
    KeySetWithout(t.users, UserRow, gone);
    DistinctWithout(t.teachers, TeacherUser, gone, TeacherRow);
    DistinctWithout(t.teachers, TeacherUser, gone, TeacherCode);
    DistinctWithout(t.teachers, TeacherUser, gone, TeacherEmail);
    DistinctWithout(t.teachers, TeacherUser, gone, TeacherUser);
    DistinctWithout(t.assignments, AssignmentTeacher, doomed, AssignmentRow);
    DistinctWithout(t.assignments, AssignmentTeacher, doomed, AssignmentTriple);
    // an assignment that survives names a teacher that is not linked to the deleted account
    forall a | a in r.assignments
      ensures AssignmentTeacher(a) in KeySet(r.teachers, TeacherRow)
    {
      var x :| x in t.teachers && TeacherRow(x) == AssignmentTeacher(a);
      assert x in r.teachers;
    }
    RefersToMono(t.assignments, r.assignments, AssignmentClass, t.classes, r.classes, ClassRow);
  }

  /** A user owns at most one teacher record, so deleting the account deletes at most one teacher. */
  lemma DeleteUserRemovesAtMostOneTeacher(t: Tables, id: nat)
    requires Consistent(t)
    ensures |DeleteUser(t, id).teachers| >= |t.teachers| - 1
  {
    if Some(id) in KeySet(t.teachers, TeacherUser) {
      WithoutOneRow(t.teachers, TeacherUser, id);
    } else {
      WithoutNothing(t.teachers, TeacherUser, {Some(id)});
    }
  }

  /** Deleting an assignment touches no other table. */
  function DeleteAssignment(t: Tables, id: nat): (r: Tables)
    ensures r == t.(assignments := r.assignments)
    ensures forall a :: a in r.assignments <==> a in t.assignments && a.id != id
  {
    t.(assignments := Without(t.assignments, AssignmentRow, {Some(id)}))
  }

  lemma DeleteAssignmentConsistent(t: Tables, id: nat)
    requires Consistent(t)
    ensures Consistent(DeleteAssignment(t, id))
  {
    var gone: set<Option<nat>> := {Some(id)};
    DistinctWithout(t.assignments, AssignmentRow, gone, AssignmentRow);
    DistinctWithout(t.assignments, AssignmentRow, gone, AssignmentTriple);
  }

  // ---------------------------------------------------------------------

  /** The database: five tables, each a sequence of rows in insertion order. */
  class SchoolDb {
    var users: seq<User>
    var students: seq<Student>
    var teachers: seq<Teacher>
    var classes: seq<Class>
    var assignments: seq<Assignment>

    function State(): Tables
      reads this
    {
      Tables(users, students, teachers, classes, assignments)
    }

    ghost predicate Valid()
      reads this
    {
      Consistent(State())
    }

    /** `db.create_all()` on an empty database. */
    constructor ()
      ensures Valid() && State() == EmptyTables()
    {
      users, students, teachers, classes, assignments := [], [], [], [], [];
    }

    /** Adds a user account, refused when the username or the email is taken. */
    method AddUser(username: string, email: string, role: string, salt: string, password: string,
                   hash: Hasher, now: Timestamp) returns (id: Option<nat>)
      requires Valid()
      modifies this
      ensures Valid()
      ensures id.None? <==> Some(username) in KeySet(old(users), Username) || Some(email) in KeySet(old(users), UserEmail)
      ensures id.Some? ==> State() == old(State()).(users := old(users) + [
                WithPassword(User(id.value, username, email, PasswordHash("", ""), role, now), salt, password, hash)])
      ensures id.None? ==> State() == old(State())
    {
      if FindIndex(users, Username, Some(username)).Some? || FindIndex(users, UserEmail, Some(email)).Some? {
        return None;
      }
      var n := NextId(users, UserRow);
      var u := WithPassword(User(n, username, email, PasswordHash("", ""), role, now), salt, password, hash);
      AddUserConsistent(State(), u);
      users := users + [u];
      id := Some(n);
    }

    /** `user.set_password(password)` on the account with row id `id`; false when there is none. */
    method SetPassword(id: nat, salt: string, password: string, hash: Hasher) returns (found: bool)
      requires Valid()
      modifies this
      ensures Valid()
      ensures found <==> Some(id) in KeySet(old(users), UserRow)
      ensures found ==> exists i :: 0 <= i < |old(users)| && old(users)[i].id == id
                          && users == old(users)[i := WithPassword(old(users)[i], salt, password, hash)]
      ensures State() == old(State()).(users := users)
      ensures !found ==> users == old(users)
    {
      var i := FindIndex(users, UserRow, Some(id));
      if i.None? {
        return false;
      }
      var u := WithPassword(users[i.value], salt, password, hash);
      ReplaceUserConsistent(State(), i.value, u);
      users := users[i.value := u];
      found := true;
    }

    /** Links teacher `teacherRow` to user account `userRow` (the `user_id` column, unique);
        refused when either row is missing or the account already has a teacher. */
    method LinkTeacherAccount(teacherRow: nat, userRow: nat) returns (ok: bool)
      requires Valid()
      modifies this
      ensures Valid()
      ensures ok <==> Some(teacherRow) in KeySet(old(teachers), TeacherRow)
                      && Some(userRow) in KeySet(old(users), UserRow)
                      && Some(userRow) !in KeySet(old(teachers), TeacherUser)
      ensures ok ==> exists i :: 0 <= i < |old(teachers)| && old(teachers)[i].id == teacherRow
                       && teachers == old(teachers)[i := old(teachers)[i].(userId := Some(userRow))]
      ensures State() == old(State()).(teachers := teachers)
      ensures !ok ==> teachers == old(teachers)
    {
      var i := FindIndex(teachers, TeacherRow, Some(teacherRow));
      if i.None? || FindIndex(users, UserRow, Some(userRow)).None?
         || FindIndex(teachers, TeacherUser, Some(userRow)).Some? {
        return false;
      }
      var x := teachers[i.value].(userId := Some(userRow));
      ReplaceTeacherConsistent(State(), i.value, x);
      teachers := teachers[i.value := x];
      ok := true;
    }

    /** `db.session.delete(user)`, with the cascade to its teacher and that teacher's assignments. */
    method RemoveUser(id: nat)
      requires Valid()
      modifies this
      ensures Valid()
      ensures State() == DeleteUser(old(State()), id)
    {
      DeleteUserConsistent(State(), id);
      var r := DeleteUser(State(), id);
      users, teachers, assignments := r.users, r.teachers, r.assignments;
    }
  }
}

=== FILE: order.dfy ===
/** Ordering and slicing of query results: `ORDER BY` as a stable insertion
    sort under a comparator, SQL text ordering, `.limit(n)` and
    Flask-SQLAlchemy's `paginate(page, per_page=10, error_out=False)`. */
module Order {
  import opened Common

  /** Every pair of elements is comparable one way or the other. */
  ghost predicate Total<T(!new)>(le: (T, T) -> bool)
  {
    forall a, b :: le(a, b) || le(b, a)
  }

  ghost predicate Transitive<T(!new)>(le: (T, T) -> bool)
  {
    forall a, b, c :: le(a, b) && le(b, c) ==> le(a, c)
  }

  /** A comparator an `ORDER BY` can use: a total preorder. */
  ghost predicate Preorder<T(!new)>(le: (T, T) -> bool)
  {
    Total(le) && Transitive(le)
  }

  /** Each element comes no later, under `le`, than every element after it. */
  predicate Sorted<T>(s: seq<T>, le: (T, T) -> bool)
  {
    forall i, j :: 0 <= i < j < |s| ==> le(s[i], s[j])
  }

  /** `x` placed before the first element it may precede. */
  function Insert<T>(x: T, s: seq<T>, le: (T, T) -> bool): (r: seq<T>)
    ensures multiset(r) == multiset(s) + multiset{x}
  {
    if s == [] then [x]
    else if le(x, s[0]) then [x] + s
    else
      assert s == [s[0]] + s[1..];
      [s[0]] + Insert(x, s[1..], le)
  }

  /** The rows of `s` in the order `ORDER BY le` returns them. */
  function SortBy<T>(s: seq<T>, le: (T, T) -> bool): (r: seq<T>)
    ensures multiset(r) == multiset(s)
  {
    if s == [] then []
    else
      assert s == [s[0]] + s[1..];
      Insert(s[0], SortBy(s[1..], le), le)
  }

  lemma {:induction false} InsertSorted<T(!new)>(x: T, s: seq<T>, le: (T, T) -> bool)
    requires Preorder(le) && Sorted(s, le)
    ensures Sorted(Insert(x, s, le), le)
    decreases |s|
  {
    if s != [] && !le(x, s[0]) {
      var rest := Insert(x, s[1..], le);
      InsertSorted(x, s[1..], le);
      HeadPrecedes(x, s, le);
      var r := [s[0]] + rest;
      forall i, j | 0 <= i < j < |r| ensures le(r[i], r[j]) {
        if i == 0 {
          assert r[j] == rest[j - 1];
          assert r[j] in rest;
        } else {
          assert r[i] == rest[i - 1] && r[j] == rest[j - 1];
        }
      }
    }
  }

  /** When `x` goes after the head, the head precedes everything the rest becomes. */
  lemma HeadPrecedes<T(!new)>(x: T, s: seq<T>, le: (T, T) -> bool)
    requires Preorder(le) && Sorted(s, le) && s != [] && !le(x, s[0])
    ensures forall y :: y in Insert(x, s[1..], le) ==> le(s[0], y)
  {
    var rest := Insert(x, s[1..], le);
    forall y | y in rest ensures le(s[0], y) {
      assert y in multiset(rest);
      if y != x {
        assert y in multiset(s[1..]);
        var k :| 0 <= k < |s[1..]| && s[1..][k] == y;
        assert s[k + 1] == y;
      }
    }
  }

  /** `SortBy` returns its input in order. */
  lemma {:induction false} SortBySorted<T(!new)>(s: seq<T>, le: (T, T) -> bool)
    requires Preorder(le)
    ensures Sorted(SortBy(s, le), le)
    decreases |s|
  {
    if s != [] {
      SortBySorted(s[1..], le);
      InsertSorted(s[0], SortBy(s[1..], le), le);
    }
  }

  lemma SortedSlice<T>(s: seq<T>, lo: nat, hi: nat, le: (T, T) -> bool)
    requires lo <= hi <= |s| && Sorted(s, le)
    ensures Sorted(s[lo..hi], le)
  {
    forall i, j | 0 <= i < j < hi - lo ensures le(s[lo..hi][i], s[lo..hi][j]) {
      assert s[lo..hi][i] == s[lo + i] && s[lo..hi][j] == s[lo + j];
    }
  }

  /** `ORDER BY key DESC`: later keys first. */
  function ByKeyDesc<T>(key: T -> int): (T, T) -> bool
  {
    (a: T, b: T) => key(a) >= key(b)
  }

  lemma ByKeyDescPreorder<T(!new)>(key: T -> int)
    ensures Preorder(ByKeyDesc(key))
  {
  }

  /** SQL text comparison (binary collation): code point by code point, a prefix first. */
  predicate LexLe(a: string, b: string)
  {
    a == [] || (b != [] && (a[0] < b[0] || (a[0] == b[0] && LexLe(a[1..], b[1..]))))
  }

  lemma {:induction false} LexLeTotal(a: string, b: string)
    ensures LexLe(a, b) || LexLe(b, a)
  {
    if a != [] && b != [] && a[0] == b[0] {
      LexLeTotal(a[1..], b[1..]);
    }
  }

  lemma {:induction false} LexLeTransitive(a: string, b: string, c: string)
    requires LexLe(a, b) && LexLe(b, c)
    ensures LexLe(a, c)
  {
    if a != [] && b != [] && c != [] && a[0] == b[0] && b[0] == c[0] {
      LexLeTransitive(a[1..], b[1..], c[1..]);
    }
  }

  lemma {:induction false} LexLeReflexive(a: string)
    ensures LexLe(a, a)
  {
    if a != [] {
      LexLeReflexive(a[1..]);
    }
  }

  lemma {:induction false} LexLeAntisymmetric(a: string, b: string)
    requires LexLe(a, b) && LexLe(b, a)
    ensures a == b
  {
    if a != [] && b != [] {
      LexLeAntisymmetric(a[1..], b[1..]);
      assert a == [a[0]] + a[1..] && b == [b[0]] + b[1..];
    }
  }

  /** `ORDER BY key` on a text column. */
  function ByText<T>(key: T -> string): (T, T) -> bool
  {
    (a: T, b: T) => LexLe(key(a), key(b))
  }

  lemma ByTextPreorder<T(!new)>(key: T -> string)
    ensures Preorder(ByText(key))
  {
    forall a, b ensures ByText(key)(a, b) || ByText(key)(b, a) {
      LexLeTotal(key(a), key(b));
    }
    forall a, b, c | ByText(key)(a, b) && ByText(key)(b, c) ensures ByText(key)(a, c) {
      LexLeTransitive(key(a), key(b), key(c));
    }
  }

  /** `ORDER BY first, second` on two text columns. */
  function ByTextPair<T>(first: T -> string, second: T -> string): (T, T) -> bool
  {
    (a: T, b: T) => (LexLe(first(a), first(b)) && first(a) != first(b))
                    || (first(a) == first(b) && LexLe(second(a), second(b)))
  }

  lemma ByTextPairPreorder<T(!new)>(first: T -> string, second: T -> string)
    ensures Preorder(ByTextPair(first, second))
  {
    var le := ByTextPair(first, second);
    forall a, b ensures le(a, b) || le(b, a) {
      LexLeTotal(first(a), first(b));
      LexLeTotal(second(a), second(b));
    }
    forall a, b, c | le(a, b) && le(b, c) ensures le(a, c) {
      if first(a) == first(b) && first(b) == first(c) {
        LexLeTransitive(second(a), second(b), second(c));
      } else {
        // the first columns strictly increase somewhere, so a's comes strictly before c's
        LexLeReflexive(first(a));
        LexLeReflexive(first(b));
        LexLeTransitive(first(a), first(b), first(c));
        if first(a) == first(c) {
          LexLeAntisymmetric(first(a), first(b));
        }
      }
    }
  }

  /** The page size of every paginated list. */
  const PerPage: nat := 10

  /** The 1-based page number `paginate(..., error_out=False)` uses: below 1 reads as 1. */
  function PageNumber(page: int): (p: nat)
    ensures p >= 1
    ensures page >= 1 ==> p == page
  {
    if page < 1 then 1 else page
  }

  /** `LIMIT n`: the first `n` rows, or all of them when there are fewer. */
  function Take<T>(s: seq<T>, n: nat): (r: seq<T>)
    ensures |r| == Min(n, |s|)
    ensures forall k :: 0 <= k < |r| ==> r[k] == s[k]
  {
    if |s| <= n then s else s[..n]
  }

  /** One page of the rows: `LIMIT 10 OFFSET (page - 1) * 10`, empty past the end. */
  function Paginate<T>(s: seq<T>, page: int): (r: seq<T>)
    ensures |r| <= PerPage
    ensures forall k :: 0 <= k < |r| ==>
              (PageNumber(page) - 1) * PerPage + k < |s| && r[k] == s[(PageNumber(page) - 1) * PerPage + k]
    ensures (PageNumber(page) - 1) * PerPage >= |s| ==> r == []
    ensures (PageNumber(page) - 1) * PerPage + PerPage <= |s| ==> |r| == PerPage
  {
    var start := (PageNumber(page) - 1) * PerPage;
    if start >= |s| then [] else Take(s[start..], PerPage)
  }

  /** Every row is on exactly one page: row `k` is entry `k % 10` of page `k / 10 + 1`. */
  lemma PageHolds<T>(s: seq<T>, k: nat)
    requires k < |s|
    ensures k % PerPage < |Paginate(s, k / PerPage + 1)|
    ensures Paginate(s, k / PerPage + 1)[k % PerPage] == s[k]
  {
    var start := (k / PerPage) * PerPage;
    assert start + k % PerPage == k;
    assert start <= k;
  }

  /** A page of a sorted list is sorted. */
  lemma PaginateSorted<T>(s: seq<T>, page: int, le: (T, T) -> bool)
    requires Sorted(s, le)
    ensures Sorted(Paginate(s, page), le)
  {
    var start := (PageNumber(page) - 1) * PerPage;
    if start < |s| {
      SortedSlice(s, start, |s|, le);
      var rest := s[start..];
      SortedSlice(rest, 0, Min(PerPage, |rest|), le);
      assert Paginate(s, page) == rest[0..Min(PerPage, |rest|)];
    }
  }
}

=== FILE: seed_script.dfy ===
/** The sample-data generator: student numbering, the unique-email loop, the students placed in
    the first ten classes and the ten unplaced ones, and the subject assignments it draws. Every
    random draw is an input. */
module Seed {
  import opened Common
  import opened Table
  import opened Models
  import Classes

  // ---------------------------------------------------------------------
  // Decimal numerals

  function Digit(d: nat): char
    requires d < 10
  {
    ('0' as int + d) as char
  }

  function DigitValue(c: char): int
  {
    c as int - '0' as int
  }

  /** `str(n)`. */
  function Decimal(n: nat): (s: string)
    ensures |s| >= 1
    ensures forall i :: 0 <= i < |s| ==> '0' <= s[i] <= '9'
    decreases n
  {
    if n < 10 then [Digit(n)] else Decimal(n / 10) + [Digit(n % 10)]
  }

  /** The number a numeral denotes, read left to right. */
  function Value(s: string): int
    decreases |s|
  {
    if s == [] then 0 else Value(s[..|s| - 1]) * 10 + DigitValue(s[|s| - 1])
  }

  /** `str` loses nothing: the numeral of `n` denotes `n`. */
  lemma {:induction false} DecimalValue(n: nat)
    ensures Value(Decimal(n)) == n
    decreases n
  {
    if n >= 10 {
      DecimalValue(n / 10);
      var s := Decimal(n);
      assert s[..|s| - 1] == Decimal(n / 10);
    }
  }

  lemma {:induction false} LeadingZero(s: string)
    ensures Value("0" + s) == Value(s)
    decreases |s|
  {
    if s != [] {
      var z := "0" + s;
      assert z[..|z| - 1] == "0" + s[..|s| - 1];
      LeadingZero(s[..|s| - 1]);
    }
  }

  /** A format spec `0<width>d` applied to a numeral: zeros on the left up to `width` characters. */
  function ZeroPad(s: string, width: nat): string
    decreases width - |s|
  {
    if |s| >= width then s else ZeroPad("0" + s, width)
  }

  /** Padding never truncates: the result is `max(width, |s|)` long, zeros then the numeral, and it
      denotes the same number. */
  lemma {:induction false} ZeroPadded(s: string, width: nat)
    ensures var r := ZeroPad(s, width);
            && |r| == Max(width, |s|)
            && r[|r| - |s|..] == s
            && (forall i :: 0 <= i < |r| - |s| ==> r[i] == '0')
            && Value(r) == Value(s)
    decreases width - |s|
  {
    if |s| < width {
      var z := "0" + s;
      ZeroPadded(z, width);
      LeadingZero(s);
      var r := ZeroPad(s, width);
      assert r == ZeroPad(z, width);
      assert r[|r| - |s|..] == r[|r| - |z|..][1..];
    }
  }

  /** `f"STU{n:04d}"`. */
  function StudentNumber(n: nat): string
  {
    "STU" + ZeroPad(Decimal(n), 4)
  }

  /** Different counters give different student IDs. */
  lemma StudentNumberInjective(m: nat, n: nat)
    requires m != n
    ensures StudentNumber(m) != StudentNumber(n)
  {
    DecimalValue(m);
    DecimalValue(n);
    ZeroPadded(Decimal(m), 4);
    ZeroPadded(Decimal(n), 4);
    var a := StudentNumber(m);
    var b := StudentNumber(n);
    assert a[3..] == ZeroPad(Decimal(m), 4);
    assert b[3..] == ZeroPad(Decimal(n), 4);
    assert Value(a[3..]) != Value(b[3..]);
  }

  lemma StudentNumberExamples()
    ensures StudentNumber(1) == "STU0001"
    ensures StudentNumber(42) == "STU0042"
  {
    assert Decimal(1) == "1";
    assert "0" + "1" == "01" && "0" + "01" == "001" && "0" + "001" == "0001";
    assert ZeroPad("1", 4) == ZeroPad("01", 4) == ZeroPad("001", 4) == ZeroPad("0001", 4) == "0001";
    assert Decimal(4) == "4";
    assert Decimal(42) == "42";
    assert "0" + "42" == "042" && "0" + "042" == "0042";
    assert ZeroPad("42", 4) == ZeroPad("042", 4) == ZeroPad("0042", 4) == "0042";
  }

  // ---------------------------------------------------------------------
  // The unique-email loop

  const StudentDomain := "@student.school.com"

  /** `f"{first_name.lower()}.{last_name.lower()}"`. */
  function EmailBase(firstName: string, lastName: string): string
  {
    Lower(firstName) + "." + Lower(lastName)
  }

  /** The address the loop tries after `k` collisions: the plain one first, then numbered from 1. */
  function EmailCandidate(base: string, k: nat): string
  {
    if k == 0 then base + StudentDomain else base + Decimal(k) + StudentDomain
  }

  /** No two attempts produce the same address. */
  lemma CandidatesDiffer(base: string, j: nat, k: nat)
    requires j != k
    ensures EmailCandidate(base, j) != EmailCandidate(base, k)
  {
    var a := EmailCandidate(base, j);
    var b := EmailCandidate(base, k);
    if j != 0 && k != 0 && |a| == |b| {
      assert a[|base|..|a| - |StudentDomain|] == Decimal(j);
      assert b[|base|..|b| - |StudentDomain|] == Decimal(k);
      DecimalValue(j);
      DecimalValue(k);
    }
  }

  /** The first `n` addresses the loop tries. */
  function Candidates(base: string, n: nat): set<string>
  {
    if n == 0 then {} else Candidates(base, n - 1) + {EmailCandidate(base, n - 1)}
  }

  lemma {:induction false} LaterCandidateIsNew(base: string, n: nat, m: nat)
    requires m >= n
    ensures EmailCandidate(base, m) !in Candidates(base, n)
  {
    if n > 0 {
      CandidatesDiffer(base, n - 1, m);
      LaterCandidateIsNew(base, n - 1, m);
    }
  }

  /** The first `n` attempts are `n` different addresses. */
  lemma {:induction false} CandidatesCount(base: string, n: nat)
    ensures |Candidates(base, n)| == n
  {
    if n > 0 {
      CandidatesCount(base, n - 1);
      LaterCandidateIsNew(base, n - 1, n - 1);
    }
  }

  lemma SubsetSize(a: set<string>, b: set<string>)
    requires a <= b
    ensures |a| <= |b|
  {
    assert b == a + (b - a);
  }

  /** The `while email in used_emails` loop: the first candidate address not in `used`. It stops
      because the candidates are all different and `used` is finite. */
  method FirstFree(base: string, used: set<string>) returns (email: string)
    ensures email !in used
    ensures exists k :: email == EmailCandidate(base, k) && Candidates(base, k) <= used
  {
    email := EmailCandidate(base, 0);
    var suffix := 1;
    while email in used
      invariant suffix >= 1
      invariant email == EmailCandidate(base, suffix - 1)
      invariant Candidates(base, suffix - 1) <= used
      decreases |used| + 1 - suffix
    {
      // the `suffix` addresses tried so far are all taken and all different
      CandidatesCount(base, suffix);
      SubsetSize(Candidates(base, suffix), used);
      email := EmailCandidate(base, suffix);
      suffix := suffix + 1;
    }
  }

  /** One drawn student: the outcomes of the `random` calls behind it. */
  datatype Draw = Draw(firstName: string, lastName: string, dateOfBirth: Date, hasEmail: bool,
                       hasPhone: bool, phoneNumber: nat, address: Option<string>)

  /** `f"555-{n}"`. */
  function Phone(n: nat): string
  {
    "555-" + Decimal(n)
  }

  /** The ids of `classes[:10]`, the classes that receive students. */
  function PlacedClassIds(classes: seq<Class>): (ids: set<nat>)
    ensures forall n :: n in ids ==> Some(n) in KeySet(classes, ClassRow)
  {
    var first := classes[..Min(10, |classes|)];
    assert forall c :: c in first ==> c in classes;
    set c | c in first :: c.id
  }

  /** The number of students in all groups together. */
  function GroupsSize(groups: seq<seq<Draw>>): nat
  {
    if groups == [] then 0 else GroupsSize(groups[..|groups| - 1]) + |groups[|groups| - 1]|
  }

  /** The row the first student loop makes from draw `d` for class `id`: the drawn name and date of
      birth, an email exactly when one was drawn (the 80% draw), the phone when drawn (the 70% draw),
      the drawn address (the 60% draw), and the class. */
  predicate FromDraw(x: Student, d: Draw, id: nat)
  {
    && x.fullName == d.firstName + " " + d.lastName && x.dateOfBirth == d.dateOfBirth
    && x.email.Some? == d.hasEmail
    && x.phone == (if d.hasPhone then Some(Phone(d.phoneNumber)) else None)
    && x.address == d.address
    && x.classId == Some(id)
  }

  /** The rows of `s` from position `from` on are made, in order, from the draws of `group` for class `id`. */
  predicate InClass(s: seq<Student>, from: nat, group: seq<Draw>, id: nat)
  {
    from + |group| <= |s| && forall j :: 0 <= j < |group| ==> FromDraw(s[from + j], group[j], id)
  }

  /** Group `m` sits in class `classes[m]`, at its place after the groups before it, which start at `base`. */
  predicate GroupInClass(s: seq<Student>, base: nat, groups: seq<seq<Draw>>, classes: seq<Class>, m: nat)
  {
    m < |groups| && m < |classes| && InClass(s, base + GroupsSize(groups[..m]), groups[m], classes[m].id)
  }

  /** Placing group `i` after groups `0 .. i - 1` keeps those in their classes and puts it in its own. */
  lemma GroupPlaced(prev: seq<Student>, students: seq<Student>, base: nat, groups: seq<seq<Draw>>,
                    classes: seq<Class>, i: nat)
    requires i < |groups| && i < |classes|
    requires forall m :: 0 <= m < i ==> GroupInClass(prev, base, groups, classes, m)
    requires |prev| == base + GroupsSize(groups[..i]) && |students| == |prev| + |groups[i]|
    requires forall k :: 0 <= k < |prev| ==> students[k] == prev[k]
    requires InClass(students, |prev|, groups[i], classes[i].id)
    ensures forall m :: 0 <= m < i + 1 ==> GroupInClass(students, base, groups, classes, m)
  {
    forall m | 0 <= m < i + 1 ensures GroupInClass(students, base, groups, classes, m) {
      if m < i {
        assert GroupInClass(prev, base, groups, classes, m);
        InClassKept(prev, students, base + GroupsSize(groups[..m]), groups[m], classes[m].id);
      }
    }
  }

  /** Rows made before, and kept, stay made. */
  lemma InClassKept(prev: seq<Student>, students: seq<Student>, from: nat, group: seq<Draw>, id: nat)
    requires InClass(prev, from, group, id) && |prev| <= |students|
    requires forall k :: 0 <= k < |prev| ==> students[k] == prev[k]
    ensures InClass(students, from, group, id)
  {
    forall j | 0 <= j < |group| ensures FromDraw(students[from + j], group[j], id) {
      assert students[from + j] == prev[from + j];
    }
  }

  /** One more row made from the next draw extends the rows made from the draws so far. */
  lemma InClassStep(prev: seq<Student>, students: seq<Student>, from: nat, group: seq<Draw>, j: nat, id: nat)
    requires j < |group| && InClass(prev, from, group[..j], id) && |prev| == from + j
    requires |students| == |prev| + 1 && students[..|prev|] == prev
    requires FromDraw(students[|prev|], group[j], id)
    ensures InClass(students, from, group[..j + 1], id)
  {
    var g := group[..j + 1];
    forall k | 0 <= k < |g| ensures FromDraw(students[from + k], g[k], id) {
      if k < j {
        assert students[from + k] == prev[from + k];
        assert group[..j][k] == g[k];
      }
    }
  }

  /** The row the second student loop makes from draw `d`: the drawn name and date of birth, always
      an email, always the drawn `555-` phone, and neither an address nor a class. */
  predicate ExtraFromDraw(x: Student, d: Draw)
  {
    && x.fullName == d.firstName + " " + d.lastName && x.dateOfBirth == d.dateOfBirth
    && x.email.Some? && x.phone == Some(Phone(d.phoneNumber))
    && x.address.None? && x.classId.None?
  }

  /** The rows of `s` from position `from` on are made, in order, from the draws of `extras`. */
  predicate Unplaced(s: seq<Student>, from: nat, extras: seq<Draw>)
  {
    from + |extras| <= |s| && forall j :: 0 <= j < |extras| ==> ExtraFromDraw(s[from + j], extras[j])
  }

  /** One more row made from the next extra draw extends the rows made from the draws so far. */
  lemma UnplacedStep(prev: seq<Student>, students: seq<Student>, from: nat, extras: seq<Draw>, j: nat)
    requires j < |extras| && Unplaced(prev, from, extras[..j]) && |prev| == from + j
    requires |students| == |prev| + 1 && students[..|prev|] == prev
    requires ExtraFromDraw(students[|prev|], extras[j])
    ensures Unplaced(students, from, extras[..j + 1])
  {
    var g := extras[..j + 1];
    forall k | 0 <= k < |g| ensures ExtraFromDraw(students[from + k], g[k]) {
      if k < j {
        assert students[from + k] == prev[from + k];
        assert extras[..j][k] == g[k];
      }
    }
  }

  /** Rows numbered 1, 2, 3, ... in order, with student IDs STU0001, STU0002, ... to match. */
  predicate Numbered(s: seq<Student>)
    decreases |s|
  {
    s == [] || (Numbered(s[..|s| - 1]) && s[|s| - 1].id == |s| && s[|s| - 1].studentId == StudentNumber(|s|))
  }

  /** Row `k` of a numbered list is number `k + 1`. */
  lemma {:induction false} NumberedAt(s: seq<Student>, k: nat)
    requires Numbered(s) && k < |s|
    ensures s[k].id == k + 1 && s[k].studentId == StudentNumber(k + 1)
    decreases |s|
  {
    if k < |s| - 1 {
      NumberedAt(s[..|s| - 1], k);
    }
  }

  /** The running state of the student part of the script. */
  class Seeder {
    var usedEmails: set<string>
    var counter: nat
    var students: seq<Student>

    /** The counter is one past the number of students, each student's row id and ID follow the
        counter, and every email given out is recorded and used once. */
    ghost predicate Valid()
      reads this
    {
      && counter == |students| + 1
      && Numbered(students)
      && (forall x :: x in students && x.email.Some? ==> x.email.value in usedEmails)
      && Distinct(students, StudentEmail)
    }

    /** `student_counter = 1`, `used_emails = set()`, `students = []`. */
    constructor ()
      ensures Valid() && usedEmails == {} && students == []
    {
      usedEmails := {};
      counter := 1;
      students := [];
    }

    /** `used_emails.add(email)` after the loop: the first free candidate, now recorded. */
    method UniqueEmail(base: string) returns (email: string)
      modifies this
      ensures email !in old(usedEmails)
      ensures usedEmails == old(usedEmails) + {email}
      ensures exists k :: email == EmailCandidate(base, k) && Candidates(base, k) <= old(usedEmails)
      ensures students == old(students) && counter == old(counter)
    {
      email := FirstFree(base, usedEmails);
      usedEmails := usedEmails + {email};
    }

    /** `Student(...)`, `students.append(student)`, `student_counter += 1`. */
    method AddStudent(d: Draw, email: Option<string>, phone: Option<string>, address: Option<string>,
                      classId: Option<nat>, now: Timestamp)
      requires Valid()
      requires email.Some? ==> email.value in usedEmails && forall x :: x in students ==> x.email != email
      modifies this
      ensures Valid()
      ensures usedEmails == old(usedEmails)
      ensures students == old(students) + [Student(|old(students)| + 1, StudentNumber(old(counter)),
                                                   d.firstName + " " + d.lastName, d.dateOfBirth,
                                                   email, phone, address, classId, now, now)]
    {
      var x := Student(|students| + 1, StudentNumber(counter), d.firstName + " " + d.lastName,
                       d.dateOfBirth, email, phone, address, classId, now, now);
      DistinctAppend(students, x, StudentEmail);
      assert (students + [x])[..|students|] == students;
      students := students + [x];
      counter := counter + 1;
    }

    /** A fresh address for `d`, which no student has yet. */
    method FreshEmail(d: Draw) returns (email: string)
      requires Valid()
      modifies this
      ensures Valid() && students == old(students)
      ensures email in usedEmails && email !in old(usedEmails)
      ensures forall x :: x in students ==> x.email != Some(email)
    {
      email := UniqueEmail(EmailBase(d.firstName, d.lastName));
    }

    /** One pass of either student loop: a fresh email when `withEmail`, then the student itself. */
    method PlaceStudent(d: Draw, withEmail: bool, phone: Option<string>, address: Option<string>,
                        classId: Option<nat>, now: Timestamp)
      requires Valid()
      modifies this
      ensures Valid()
      ensures |students| == |old(students)| + 1 && students[..|old(students)|] == old(students)
      ensures students[|old(students)|].classId == classId
      ensures students[|old(students)|].email.Some? == withEmail
      ensures students[|old(students)|].phone == phone && students[|old(students)|].address == address
      ensures students[|old(students)|].fullName == d.firstName + " " + d.lastName
      ensures students[|old(students)|].dateOfBirth == d.dateOfBirth
    {
      var email: Option<string> := None;
      if withEmail {
        var e := FreshEmail(d);
        email := Some(e);
      }
      AddStudent(d, email, phone, address, classId, now);
    }

    /** The inner loop of the first student loop: the students drawn for one class. */
    method SeedClass(cls: Class, group: seq<Draw>, now: Timestamp)
      requires Valid()
      modifies this
      ensures Valid()
      ensures |students| == |old(students)| + |group|
      ensures students[..|old(students)|] == old(students)
      ensures forall k :: |old(students)| <= k < |students| ==> students[k].classId == Some(cls.id)
      ensures InClass(students, |old(students)|, group, cls.id)
    {
      var j := 0;
      while j < |group|
        invariant 0 <= j <= |group|
        invariant Valid()
        invariant |students| == |old(students)| + j
        invariant students[..|old(students)|] == old(students)
        invariant forall k :: |old(students)| <= k < |students| ==> students[k].classId == Some(cls.id)
        invariant InClass(students, |old(students)|, group[..j], cls.id)
      {
        var d := group[j];
        var phone := if d.hasPhone then Some(Phone(d.phoneNumber)) else None;
        ghost var prev := students;
        PlaceStudent(d, d.hasEmail, phone, d.address, Some(cls.id), now);
        assert FromDraw(students[|prev|], d, cls.id);
        InClassStep(prev, students, |old(students)|, group, j, cls.id);
        j := j + 1;
      }
      assert group[..j] == group;
    }

    /** The first student loop: `groups[i]` are the students drawn for `classes[i]`, for the first
        ten classes; each row is made from its draw, as `FromDraw` says. */
    method SeedPlacedStudents(classes: seq<Class>, groups: seq<seq<Draw>>, now: Timestamp)
      requires Valid()
      requires |groups| == Min(10, |classes|)
      modifies this
      ensures Valid()
      ensures |students| == |old(students)| + GroupsSize(groups)
      ensures students[..|old(students)|] == old(students)
      ensures forall k :: |old(students)| <= k < |students| ==>
                students[k].classId.Some? && students[k].classId.value in PlacedClassIds(classes)
      ensures forall i :: 0 <= i < |groups| ==> GroupInClass(students, |old(students)|, groups, classes, i)
    {
      var placed := PlacedClassIds(classes);
      var i := 0;
      while i < |groups|
        invariant 0 <= i <= |groups|
        invariant Valid()
        invariant |students| == |old(students)| + GroupsSize(groups[..i])
        invariant students[..|old(students)|] == old(students)
        invariant forall k :: |old(students)| <= k < |students| ==>
                    students[k].classId.Some? && students[k].classId.value in placed
        invariant forall m :: 0 <= m < i ==> GroupInClass(students, |old(students)|, groups, classes, m)
      {
        var cls := classes[i];
        assert cls in classes[..Min(10, |classes|)];
        ghost var prev := students;
        SeedClass(cls, groups[i], now);
        assert forall k :: 0 <= k < |prev| ==> students[k] == prev[k] by {
          assert students[..|prev|] == prev;
        }
        GroupPlaced(prev, students, |old(students)|, groups, classes, i);
        assert groups[..i + 1][..i] == groups[..i];
        i := i + 1;
      }
      assert groups[..i] == groups;
    }

    /** The second student loop: ten students with no class, every one with an email and a phone
        and without an address; each row is made from its draw, as `ExtraFromDraw` says. */
    method SeedUnplacedStudents(extras: seq<Draw>, now: Timestamp)
      requires Valid() && |extras| == 10
      modifies this
      ensures Valid()
      ensures |students| == |old(students)| + 10
      ensures students[..|old(students)|] == old(students)
      ensures forall k :: |old(students)| <= k < |students| ==>
                students[k].classId.None? && students[k].email.Some? && students[k].phone.Some?
                && students[k].address.None?
      ensures Unplaced(students, |old(students)|, extras)
    {
      var i := 0;
      while i < |extras|
        invariant 0 <= i <= |extras|
        invariant Valid()
        invariant |students| == |old(students)| + i
        invariant students[..|old(students)|] == old(students)
        invariant forall k :: |old(students)| <= k < |students| ==>
                    students[k].classId.None? && students[k].email.Some? && students[k].phone.Some?
                    && students[k].address.None?
        invariant Unplaced(students, |old(students)|, extras[..i])
      {
        var d := extras[i];
        ghost var prev := students;
        PlaceStudent(d, true, Some(Phone(d.phoneNumber)), None, None, now);
        assert ExtraFromDraw(students[|prev|], d);
        UnplacedStep(prev, students, |old(students)|, extras, i);
        i := i + 1;
      }
      assert extras[..i] == extras;
    }
  }

  /** Both student loops, from an empty list: IDs STU0001 onwards in order, row ids 1 onwards,
      no student ID or email used twice, every class link naming one of the first ten classes,
      the students of group `i` made from its draws in class `i`, and the last ten made from the
      extra draws, unplaced with an email and a phone. */
  method SeedStudents(classes: seq<Class>, groups: seq<seq<Draw>>, extras: seq<Draw>, now: Timestamp)
    returns (r: seq<Student>)
    requires |groups| == Min(10, |classes|) && |extras| == 10
    ensures |r| == GroupsSize(groups) + 10
    ensures forall k :: 0 <= k < |r| ==> r[k].id == k + 1 && r[k].studentId == StudentNumber(k + 1)
    ensures Distinct(r, StudentRow) && Distinct(r, StudentCode) && Distinct(r, StudentEmail)
    ensures RefersTo(r, StudentClass, classes, ClassRow)
    ensures forall k :: 0 <= k < GroupsSize(groups) ==> r[k].classId.Some?
    ensures forall k :: GroupsSize(groups) <= k < |r| ==>
              r[k].classId.None? && r[k].email.Some? && r[k].phone.Some?
    ensures forall i :: 0 <= i < |groups| ==> GroupInClass(r, 0, groups, classes, i)
    ensures Unplaced(r, GroupsSize(groups), extras)
  {
    var seeder := new Seeder();
    seeder.SeedPlacedStudents(classes, groups, now);
    ghost var placed := seeder.students;
    seeder.SeedUnplacedStudents(extras, now);
    r := seeder.students;
    assert r[..|placed|] == placed;
    forall i | 0 <= i < |groups| ensures GroupInClass(r, 0, groups, classes, i) {
      assert GroupInClass(placed, 0, groups, classes, i);
      InClassKept(placed, r, GroupsSize(groups[..i]), groups[i], classes[i].id);
    }
    NumberedRowsDistinct(r);
    forall k | 0 <= k < |r| ensures r[k].id == k + 1 && r[k].studentId == StudentNumber(k + 1) {
      NumberedAt(r, k);
    }
    forall x | x in r && StudentClass(x).Some?
      ensures StudentClass(x) in KeySet(classes, ClassRow)
    {
      var k :| 0 <= k < |r| && r[k] == x;
      assert k < |placed|;
      assert placed[k] == x;
    }
  }

  /** Rows numbered 1, 2, 3, ... with IDs STU0001, STU0002, ... have distinct row ids and IDs. */
  lemma NumberedRowsDistinct(r: seq<Student>)
    requires Numbered(r)
    ensures Distinct(r, StudentRow) && Distinct(r, StudentCode)
  {
    forall i, j | 0 <= i < |r| && 0 <= j < |r| && i != j
      ensures StudentRow(r[i]) != StudentRow(r[j]) && StudentCode(r[i]) != StudentCode(r[j])
    {
      NumberedAt(r, i);
      NumberedAt(r, j);
      StudentNumberInjective(i + 1, j + 1);
    }
  }

  // ---------------------------------------------------------------------
  // Subject assignments

  const DefaultSubjects: seq<string> := ["Mathematics", "English", "Science"]

  /** `subjects_by_class`, keyed by grade. */
  const SubjectsByGrade: map<string, seq<string>> := map[
    "1" := ["Mathematics", "English", "Science", "Art"],
    "2" := ["Mathematics", "English", "Science", "Art"],
    "3" := ["Mathematics", "English", "Science", "Social Studies"],
    "4" := ["Mathematics", "English", "Science", "Social Studies"],
    "5" := ["Mathematics", "English", "Science", "Social Studies"],
    "6" := ["Mathematics", "English", "Science", "History"],
    "7" := ["Mathematics", "English", "Science", "History"],
    "8" := ["Mathematics", "English", "Science", "History"],
    "9" := ["Mathematics", "English", "Physics", "Chemistry"],
    "10" := ["Mathematics", "English", "Physics", "Chemistry", "Biology"],
    "11" := ["Mathematics", "English", "Physics", "Chemistry", "Biology"],
    "12" := ["Mathematics", "English", "Physics", "Chemistry", "Biology"]
  ]

  /** `subjects_by_class.get(grade, [...])[:3]`: at most the first three subjects of the grade. */
  function SubjectsFor(grade: string): (r: seq<string>)
    ensures |r| <= 3
  {
    var all := if grade in SubjectsByGrade then SubjectsByGrade[grade] else DefaultSubjects;
    all[..Min(3, |all|)]
  }

  const ScienceSubjects: seq<string> := ["Science", "Physics", "Chemistry", "Biology"]

  /** The matching test of `available_teachers`. */
  predicate Teaches(x: Teacher, subject: string)
  {
    || Contains(Lower(x.subject), Lower(subject))
    || (subject == "Mathematics" && Contains(x.subject, "Math"))
    || (subject == "Science" && x.subject in ScienceSubjects)
  }

  /** `available_teachers`, in list order. */
  function Available(teachers: seq<Teacher>, subject: string): (r: seq<Teacher>)
    ensures forall x :: x in r <==> x in teachers && Teaches(x, subject)
  {
    Filter(teachers, x => Teaches(x, subject))
  }

  /** `random.choice(available_teachers)`, with `choose(c, s)` as the draw for class `c` and subject `s`. */
  function Chosen(teachers: seq<Teacher>, c: Class, subject: string, choose: (Class, string) -> nat): (x: Teacher)
    requires Available(teachers, subject) != []
    ensures x in teachers && Teaches(x, subject)
  {
    var available := Available(teachers, subject);
    available[choose(c, subject) % |available|]
  }

  /** The subjects, in order, that at least one teacher teaches: the ones that get an assignment. */
  function Staffed(teachers: seq<Teacher>, subjects: seq<string>): (r: seq<string>)
    ensures |r| <= |subjects|
    ensures forall s :: s in r <==> s in subjects && Available(teachers, s) != []
    decreases |subjects|
  {
    if subjects == [] then []
    else
      var last := subjects[|subjects| - 1];
      var rest := subjects[..|subjects| - 1];
      assert forall s :: s in subjects <==> s in rest || s == last;
      Staffed(teachers, rest) + (if Available(teachers, last) != [] then [last] else [])
  }

  /** One more subject extends the staffed ones by it exactly when someone teaches it. */
  lemma StaffedStep(teachers: seq<Teacher>, subjects: seq<string>, j: nat)
    requires j < |subjects|
    ensures Staffed(teachers, subjects[..j + 1]) ==
            Staffed(teachers, subjects[..j]) + (if Available(teachers, subjects[j]) != [] then [subjects[j]] else [])
  {
    assert subjects[..j + 1][..j] == subjects[..j];
  }

  /** The subject of each assignment, in order. */
  function SubjectNames(s: seq<Assignment>): seq<string>
  {
    seq(|s|, k requires 0 <= k < |s| => s[k].subjectName)
  }

  /** `a` is for class `c` and goes to the teacher drawn for that class and its subject. */
  predicate Drawn(a: Assignment, c: Class, teachers: seq<Teacher>, choose: (Class, string) -> nat)
  {
    && a.classId == c.id
    && Available(teachers, a.subjectName) != []
    && a.teacherId == Chosen(teachers, c, a.subjectName, choose).id
  }

  /** Class `c` has one assignment per subject of its grade that some teacher teaches, in the
      grade's order, each to the teacher drawn for that class and subject. */
  predicate ClassPlanned(r: seq<Assignment>, c: Class, teachers: seq<Teacher>, choose: (Class, string) -> nat)
  {
    && SubjectNames(Classes.AssignmentsOf(r, c.id)) == Staffed(teachers, SubjectsFor(c.grade))
    && forall a :: a in Classes.AssignmentsOf(r, c.id) ==> Drawn(a, c, teachers, choose)
  }

  /** The assignment goes to one of the teachers, who teaches its subject. */
  predicate Qualified(a: Assignment, teachers: seq<Teacher>)
  {
    exists x :: x in teachers && x.id == a.teacherId && Teaches(x, a.subjectName)
  }

  /** The row ids of some classes. */
  function IdsOf(classes: seq<Class>): set<nat>
  {
    set c | c in classes :: c.id
  }

  /** The inner assignment loop, for one class: appended to `r0`, one numbered assignment per
      subject of the class's grade that some teacher teaches, to a teacher who teaches it. */
  method AssignClass(cls: Class, teachers: seq<Teacher>, choose: (Class, string) -> nat, now: Timestamp,
                     r0: seq<Assignment>) returns (r: seq<Assignment>)
    ensures |r0| <= |r| && r[..|r0|] == r0
    ensures SubjectNames(r[|r0|..]) == Staffed(teachers, SubjectsFor(cls.grade))
    ensures forall k :: |r0| <= k < |r| ==> r[k].createdAt == now && Drawn(r[k], cls, teachers, choose)
    ensures forall k :: |r0| <= k < |r| ==>
              r[k].id == k + 1 && r[k].classId == cls.id && Qualified(r[k], teachers)
    ensures |Classes.AssignmentsOf(r, cls.id)| <= |Classes.AssignmentsOf(r0, cls.id)| + 3
    ensures Classes.AssignmentsOf(r, cls.id) == Classes.AssignmentsOf(r0, cls.id) + r[|r0|..]
    ensures forall id :: id != cls.id ==> Classes.AssignmentsOf(r, id) == Classes.AssignmentsOf(r0, id)
  {
    var subjects := SubjectsFor(cls.grade);
    r := r0;
    var j := 0;
    assert r[|r0|..] == [];
    while j < |subjects|
      invariant Progress(r0, r, cls, subjects, j, teachers, choose, now)
      decreases |subjects| - j
    {
      var subject := subjects[j];
      var available := Available(teachers, subject);
      if available != [] {
        var teacher := available[choose(cls, subject) % |available|];
        var a := Assignment(|r| + 1, teacher.id, cls.id, subject, now);
        ProgressAppend(r0, r, a, cls, subjects, j, teachers, choose, now);
        r := r + [a];
      } else {
        ProgressSkip(r0, r, cls, subjects, j, teachers, choose, now);
      }
      j := j + 1;
    }
    assert subjects[..j] == subjects;
    forall k | |r0| <= k < |r| ensures Qualified(r[k], teachers) {
      DrawnIsQualified(r[k], cls, teachers, choose);
    }
  }

  /** The inner loop after its first `j` subjects: `r0` kept, then one numbered assignment per
      staffed subject so far, each drawn for `cls`. */
  ghost predicate Progress(r0: seq<Assignment>, r: seq<Assignment>, cls: Class, subjects: seq<string>, j: nat,
                     teachers: seq<Teacher>, choose: (Class, string) -> nat, now: Timestamp)
  {
    && j <= |subjects|
    && |r0| <= |r| && r[..|r0|] == r0
    && SubjectNames(r[|r0|..]) == Staffed(teachers, subjects[..j])
    && (forall k :: |r0| <= k < |r| ==> r[k].id == k + 1 && r[k].createdAt == now && Drawn(r[k], cls, teachers, choose))
    && Classes.AssignmentsOf(r, cls.id) == Classes.AssignmentsOf(r0, cls.id) + r[|r0|..]
    && (forall id :: id != cls.id ==> Classes.AssignmentsOf(r, id) == Classes.AssignmentsOf(r0, id))
  }

  /** A subject some teacher teaches gets one assignment, to the teacher drawn for it. */
  lemma ProgressAppend(r0: seq<Assignment>, r: seq<Assignment>, a: Assignment, cls: Class, subjects: seq<string>,
                       j: nat, teachers: seq<Teacher>, choose: (Class, string) -> nat, now: Timestamp)
    requires Progress(r0, r, cls, subjects, j, teachers, choose, now) && j < |subjects|
    requires Available(teachers, subjects[j]) != []
    requires a == Assignment(|r| + 1, Chosen(teachers, cls, subjects[j], choose).id, cls.id, subjects[j], now)
    ensures Progress(r0, r + [a], cls, subjects, j + 1, teachers, choose, now)
  {
    StaffedStep(teachers, subjects, j);
    AppendAssignment(r0, r, a, cls.id);
    assert Drawn(a, cls, teachers, choose);
    var r' := r + [a];
    forall k | |r0| <= k < |r'| ensures r'[k].id == k + 1 && r'[k].createdAt == now && Drawn(r'[k], cls, teachers, choose) {
      if k < |r| {
        assert r'[k] == r[k];
      }
    }
  }

  /** A subject nobody teaches is skipped. */
  lemma ProgressSkip(r0: seq<Assignment>, r: seq<Assignment>, cls: Class, subjects: seq<string>,
                     j: nat, teachers: seq<Teacher>, choose: (Class, string) -> nat, now: Timestamp)
    requires Progress(r0, r, cls, subjects, j, teachers, choose, now) && j < |subjects|
    requires Available(teachers, subjects[j]) == []
    ensures Progress(r0, r, cls, subjects, j + 1, teachers, choose, now)
  {
    StaffedStep(teachers, subjects, j);
  }

  lemma DrawnIsQualified(a: Assignment, c: Class, teachers: seq<Teacher>, choose: (Class, string) -> nat)
    requires Drawn(a, c, teachers, choose)
    ensures Qualified(a, teachers)
  {
    assert Chosen(teachers, c, a.subjectName, choose) in teachers;
  }

  /** Appending an assignment for class `id` extends that class's assignments by it and leaves
      every other class's assignments alone. */
  lemma AppendAssignment(r0: seq<Assignment>, r: seq<Assignment>, a: Assignment, id: nat)
    requires |r0| <= |r| && r[..|r0|] == r0 && a.classId == id
    requires Classes.AssignmentsOf(r, id) == Classes.AssignmentsOf(r0, id) + r[|r0|..]
    requires forall other :: other != id ==> Classes.AssignmentsOf(r, other) == Classes.AssignmentsOf(r0, other)
    ensures (r + [a])[..|r0|] == r0
    ensures SubjectNames((r + [a])[|r0|..]) == SubjectNames(r[|r0|..]) + [a.subjectName]
    ensures Classes.AssignmentsOf(r + [a], id) == Classes.AssignmentsOf(r0, id) + (r + [a])[|r0|..]
    ensures forall other :: other != id ==> Classes.AssignmentsOf(r + [a], other) == Classes.AssignmentsOf(r0, other)
  {
    forall other ensures Classes.AssignmentsOf(r + [a], other) == Classes.AssignmentsOf(r, other) + (if other == id then [a] else []) {
      FilterAppend(r, a, RefIs(AssignmentClass, Some(other)));
      RefIsMeans(AssignmentClass, Some(other));
    }
    assert (r + [a])[|r0|..] == r[|r0|..] + [a];
    assert (r + [a])[..|r0|] == r[..|r0|];
  }

  /** The assignment loop. `choose(c, s)` is the draw behind `random.choice(available_teachers)`
      for class `c` and subject `s`; a subject nobody teaches is skipped. Each class gets at most
      three assignments, each from its grade's first three subjects, to a teacher who teaches it. */
  method SeedAssignments(classes: seq<Class>, teachers: seq<Teacher>, choose: (Class, string) -> nat,
                         now: Timestamp) returns (r: seq<Assignment>)
    requires Distinct(classes, ClassRow)
    ensures forall k :: 0 <= k < |r| ==> r[k].id == k + 1
    ensures forall a :: a in r ==> exists x :: x in teachers && x.id == a.teacherId && Teaches(x, a.subjectName)
    ensures forall a :: a in r ==> Some(a.classId) in KeySet(classes, ClassRow)
    ensures forall c :: c in classes ==> |Classes.AssignmentsOf(r, c.id)| <= 3
    ensures forall c :: c in classes ==> ClassPlanned(r, c, teachers, choose)
  {
    r := [];
    var i := 0;
    while i < |classes|
      invariant 0 <= i <= |classes|
      invariant forall k :: 0 <= k < |r| ==>
                  r[k].id == k + 1 && Qualified(r[k], teachers) && r[k].classId in IdsOf(classes[..i])
      invariant forall c :: c in classes ==> |Classes.AssignmentsOf(r, c.id)| <= 3
      invariant forall c :: c in classes[..i] ==> ClassPlanned(r, c, teachers, choose)
    {
      var cls := classes[i];
      NoAssignmentsYet(r, classes, i);
      ghost var before := r;
      r := AssignClass(cls, teachers, choose, now, r);
      ClassDone(before, r, classes, i, teachers);
      CapKept(before, r, classes, cls.id);
      ClassNowPlanned(before, r, cls, teachers, choose);
      OthersStillPlanned(before, r, classes, i, teachers, choose);
      i := i + 1;
    }
    assert classes[..i] == classes;
    AssignmentsBelong(r, classes, teachers);
  }

  /** Qualified assignments for the given classes name an existing class and a teacher of their subject. */
  lemma AssignmentsBelong(r: seq<Assignment>, classes: seq<Class>, teachers: seq<Teacher>)
    requires forall k :: 0 <= k < |r| ==> Qualified(r[k], teachers) && r[k].classId in IdsOf(classes)
    ensures forall a :: a in r ==> exists x :: x in teachers && x.id == a.teacherId && Teaches(x, a.subjectName)
    ensures forall a :: a in r ==> Some(a.classId) in KeySet(classes, ClassRow)
  {
    forall a | a in r
      ensures (exists x :: x in teachers && x.id == a.teacherId && Teaches(x, a.subjectName))
              && Some(a.classId) in KeySet(classes, ClassRow)
    {
      var k :| 0 <= k < |r| && r[k] == a;
      assert Qualified(r[k], teachers);
      var c :| c in classes && a.classId == c.id;
      assert ClassRow(c) in KeySet(classes, ClassRow);
    }
  }

  /** Serving one class, starting from none, with at most three new rows, keeps every class at most three. */
  lemma CapKept(before: seq<Assignment>, r: seq<Assignment>, classes: seq<Class>, id: nat)
    requires forall c :: c in classes ==> |Classes.AssignmentsOf(before, c.id)| <= 3
    requires Classes.AssignmentsOf(before, id) == []
    requires |Classes.AssignmentsOf(r, id)| <= |Classes.AssignmentsOf(before, id)| + 3
    requires forall other :: other != id ==> Classes.AssignmentsOf(r, other) == Classes.AssignmentsOf(before, other)
    ensures forall c :: c in classes ==> |Classes.AssignmentsOf(r, c.id)| <= 3
  {
    forall c | c in classes ensures |Classes.AssignmentsOf(r, c.id)| <= 3 {
      if c.id != id {
        assert Classes.AssignmentsOf(r, c.id) == Classes.AssignmentsOf(before, c.id);
      }
    }
  }

  /** The class the inner loop has just served, starting from none, is planned. */
  lemma ClassNowPlanned(before: seq<Assignment>, r: seq<Assignment>, cls: Class, teachers: seq<Teacher>,
                        choose: (Class, string) -> nat)
    requires Classes.AssignmentsOf(before, cls.id) == [] && |before| <= |r|
    requires SubjectNames(r[|before|..]) == Staffed(teachers, SubjectsFor(cls.grade))
    requires forall k :: |before| <= k < |r| ==> Drawn(r[k], cls, teachers, choose)
    requires Classes.AssignmentsOf(r, cls.id) == Classes.AssignmentsOf(before, cls.id) + r[|before|..]
    ensures ClassPlanned(r, cls, teachers, choose)
  {
    var mine := Classes.AssignmentsOf(r, cls.id);
    assert mine == r[|before|..];
    SuffixDrawn(mine, r, |before|, cls, teachers, choose);
  }

  /** The suffix of `r` from `from` on, whose rows are each drawn for `c`, has only members drawn for `c`. */
  lemma SuffixDrawn(suffix: seq<Assignment>, r: seq<Assignment>, from: nat, c: Class, teachers: seq<Teacher>,
                    choose: (Class, string) -> nat)
    requires from <= |r| && suffix == r[from..]
    requires forall k :: from <= k < |r| ==> Drawn(r[k], c, teachers, choose)
    ensures forall a :: a in suffix ==> Drawn(a, c, teachers, choose)
  {
    forall a | a in suffix ensures Drawn(a, c, teachers, choose) {
      var m :| 0 <= m < |suffix| && suffix[m] == a;
      assert a == r[from + m];
    }
  }

  /** Serving class `i` leaves the classes before it planned: their ids differ from its id. */
  lemma OthersStillPlanned(before: seq<Assignment>, r: seq<Assignment>, classes: seq<Class>, i: nat,
                           teachers: seq<Teacher>, choose: (Class, string) -> nat)
    requires Distinct(classes, ClassRow) && i < |classes|
    requires forall c :: c in classes[..i] ==> ClassPlanned(before, c, teachers, choose)
    requires ClassPlanned(r, classes[i], teachers, choose)
    requires forall id :: id != classes[i].id ==> Classes.AssignmentsOf(r, id) == Classes.AssignmentsOf(before, id)
    ensures forall c :: c in classes[..i + 1] ==> ClassPlanned(r, c, teachers, choose)
  {
    forall c | c in classes[..i + 1] ensures ClassPlanned(r, c, teachers, choose) {
      var m :| 0 <= m < i + 1 && classes[m] == c;
      if m < i {
        assert ClassRow(classes[m]) != ClassRow(classes[i]);
        assert c in classes[..i];
        assert Classes.AssignmentsOf(r, c.id) == Classes.AssignmentsOf(before, c.id);
      }
    }
  }

  /** Class ids are unique, so the class the outer loop reaches has no assignment yet. */
  lemma NoAssignmentsYet(r: seq<Assignment>, classes: seq<Class>, i: nat)
    requires Distinct(classes, ClassRow) && i < |classes|
    requires forall k :: 0 <= k < |r| ==> r[k].classId in IdsOf(classes[..i])
    ensures Classes.AssignmentsOf(r, classes[i].id) == []
  {
    forall a | a in r ensures a.classId != classes[i].id {
      var k :| 0 <= k < |r| && r[k] == a;
      var c :| c in classes[..i] && a.classId == c.id;
      var m :| 0 <= m < i && classes[m] == c;
      assert ClassRow(classes[m]) != ClassRow(classes[i]);
    }
    RefIsMeans(AssignmentClass, Some(classes[i].id));
    FilterNone(r, RefIs(AssignmentClass, Some(classes[i].id)));
  }

  /** After class `i`, every assignment so far is numbered, qualified, and for one of the first
      `i + 1` classes. */
  lemma ClassDone(before: seq<Assignment>, r: seq<Assignment>, classes: seq<Class>, i: nat, teachers: seq<Teacher>)
    requires i < |classes|
    requires forall k :: 0 <= k < |before| ==>
               before[k].id == k + 1 && Qualified(before[k], teachers) && before[k].classId in IdsOf(classes[..i])
    requires |before| <= |r| && r[..|before|] == before
    requires forall k :: |before| <= k < |r| ==>
               r[k].id == k + 1 && r[k].classId == classes[i].id && Qualified(r[k], teachers)
    ensures forall k :: 0 <= k < |r| ==>
              r[k].id == k + 1 && Qualified(r[k], teachers) && r[k].classId in IdsOf(classes[..i + 1])
  {
    assert forall c :: c in classes[..i] ==> c in classes[..i + 1];
    assert classes[i] in classes[..i + 1];
    forall k | 0 <= k < |r|
      ensures r[k].id == k + 1 && Qualified(r[k], teachers) && r[k].classId in IdsOf(classes[..i + 1])
    {
      if k < |before| {
        assert r[k] == before[k];
      }
    }
  }

  /** The Computer Science teacher matches "Science" through the substring test alone. */
  lemma ScienceMatchesComputerScience(x: Teacher)
    requires x.subject == "Computer Science"
    ensures Teaches(x, "Science")
  {
    var hay := Lower(x.subject);
    assert hay[9..] == "science";
    assert Lower("Science") == "science";
    ContainsAt(hay, "science", 9);
  }

  lemma {:induction false} ContainsAt(hay: string, needle: string, i: nat)
    requires i <= |hay| && needle <= hay[i..]
    ensures Contains(hay, needle)
    decreases i
  {
    if i > 0 {
      assert hay[1..][i - 1..] == hay[i..];
      ContainsAt(hay[1..], needle, i - 1);
    }
  }
}

=== FILE: students.dfy ===
/** The student routes: list with search, class filter and pages; create;
    edit; delete; view. Each mutating route is a method on the store, proved
    against the decision function that says which failure, if any, the
    request ends in. */
module Students {
  import opened Common
  import opened Table
  import opened Order
  import opened Models
  import opened Forms
  import opened Auth

  // ---------------------------------------------------------------------
  // list_students

  /** `search` occurs, ignoring case, in the name, the student ID or the email. An empty search
      applies no filter; a NULL email matches nothing. */
  predicate MatchesSearch(s: Student, search: string)
  {
    || search == ""
    || ContainsIgnoringCase(s.fullName, search)
    || ContainsIgnoringCase(s.studentId, search)
    || (s.email.Some? && ContainsIgnoringCase(s.email.value, search))
  }

  /** The class filter: None when the `class` argument is empty, otherwise its numeric value. */
  predicate InClassFilter(s: Student, classFilter: Option<int>)
  {
    classFilter.None? || (s.classId.Some? && s.classId.value == classFilter.value)
  }

  function StudentCreated(s: Student): int { s.createdAt }

  /** `ORDER BY created_at DESC`. */
  function NewestFirst(): (Student, Student) -> bool
  {
    ByKeyDesc(StudentCreated)
  }

  function MatchingStudents(t: Tables, search: string, classFilter: Option<int>): (r: seq<Student>)
    ensures forall s :: s in r <==> s in t.students && MatchesSearch(s, search) && InClassFilter(s, classFilter)
  {
    Filter(t.students, s => MatchesSearch(s, search) && InClassFilter(s, classFilter))
  }

  /** The matching students, newest first. */
  function OrderedStudents(t: Tables, search: string, classFilter: Option<int>): (r: seq<Student>)
    ensures multiset(r) == multiset(MatchingStudents(t, search, classFilter))
    ensures Sorted(r, NewestFirst())
  {
    ByKeyDescPreorder(StudentCreated);
    SortBySorted(MatchingStudents(t, search, classFilter), NewestFirst());
    SortBy(MatchingStudents(t, search, classFilter), NewestFirst())
  }

  /** `GET /students/?page=&search=&class=`: one page of at most 10 matching students, newest first. */
  function ListStudents(t: Tables, p: Principal, search: string, classFilter: Option<int>, page: int)
    : (r: Result<seq<Student>>)
    ensures r.Err? <==> p.Anonymous?
    ensures r.Err? ==> r.error == LoginRequired
    ensures r.Ok? ==> |r.value| <= PerPage
    ensures r.Ok? ==> forall s :: s in r.value ==>
                        s in t.students && MatchesSearch(s, search) && InClassFilter(s, classFilter)
    ensures r.Ok? ==> Sorted(r.value, NewestFirst())
    ensures r.Ok? && (PageNumber(page) - 1) * PerPage >= |MatchingStudents(t, search, classFilter)| ==> r.value == []
    ensures r.Ok? ==> forall k :: 0 <= k < |r.value| ==>
              (PageNumber(page) - 1) * PerPage + k < |OrderedStudents(t, search, classFilter)|
              && r.value[k] == OrderedStudents(t, search, classFilter)[(PageNumber(page) - 1) * PerPage + k]
    ensures r.Ok? && (PageNumber(page) - 1) * PerPage + PerPage <= |MatchingStudents(t, search, classFilter)| ==>
              |r.value| == PerPage
  {
    if p.Anonymous? then Err(LoginRequired)
    else
      var ordered := OrderedStudents(t, search, classFilter);
      var r := Paginate(ordered, page);
      PaginateSorted(ordered, page, NewestFirst());
      assert |ordered| == |multiset(ordered)| == |MatchingStudents(t, search, classFilter)|;
      assert forall s :: s in r ==> s in multiset(ordered);
      Ok(r)
  }

  /** Every matching student is listed on some page. */
  lemma EveryMatchIsListed(t: Tables, p: Principal, search: string, classFilter: Option<int>, s: Student)
    requires p.SignedIn?
    requires s in t.students && MatchesSearch(s, search) && InClassFilter(s, classFilter)
    ensures exists page: nat :: page >= 1 && s in ListStudents(t, p, search, classFilter, page).value
  {
    var ordered := OrderedStudents(t, search, classFilter);
    assert s in multiset(MatchingStudents(t, search, classFilter));
    assert s in multiset(ordered);
    var k :| 0 <= k < |ordered| && ordered[k] == s;
    PageHolds(ordered, k);
    assert s in ListStudents(t, p, search, classFilter, k / PerPage + 1).value;
  }

  // ---------------------------------------------------------------------
  // create_student

  /** The row `create_student` inserts: empty optional fields and the sentinel class become NULL. */
  function NewStudent(t: Tables, f: StudentForm, now: Timestamp): Student
    requires f.dateOfBirth.Some?
  {
    Student(NextId(t.students, StudentRow), f.studentId, f.fullName, f.dateOfBirth.value,
            Stored(f.email), Stored(f.phone), Stored(f.address), ClassLink(f.classChoice), now, now)
  }

  /** Some student already has this student ID. */
  predicate StudentIdTaken(t: Tables, studentId: string)
  {
    exists s :: s in t.students && s.studentId == studentId
  }

  /** Some student already has this email. */
  predicate StudentEmailTaken(t: Tables, email: string)
  {
    exists s :: s in t.students && s.email == Some(email)
  }

  /** How `POST /students/create` ends: the guards, the form, then the two uniqueness pre-checks. */
  function CreateStudentError(t: Tables, p: Principal, f: StudentForm, today: Date): (e: Option<Error>)
    ensures AdminGate(p).Some? ==> e == AdminGate(p)
    ensures AdminGate(p).None? ==> (e == Some(InvalidForm) <==> !StudentFormValid(f, today, ClassIds(t)))
    ensures AdminGate(p).None? && StudentFormValid(f, today, ClassIds(t)) ==>
              (e == Some(DuplicateStudentId) <==> StudentIdTaken(t, f.studentId))
    ensures AdminGate(p).None? && StudentFormValid(f, today, ClassIds(t)) && !StudentIdTaken(t, f.studentId) ==>
              (e == Some(DuplicateEmail) <==> f.email != "" && StudentEmailTaken(t, f.email))
    ensures e.None? <==> AdminGate(p).None? && StudentFormValid(f, today, ClassIds(t))
                         && forall s :: s in t.students ==>
                              s.studentId != f.studentId && (f.email != "" ==> s.email != Some(f.email))
  {
    if AdminGate(p).Some? then AdminGate(p)
    else if !StudentFormValid(f, today, ClassIds(t)) then Some(InvalidForm)
    else if Some(f.studentId) in KeySet(t.students, StudentCode) then Some(DuplicateStudentId)
    else if f.email != "" && Some(f.email) in KeySet(t.students, StudentEmail) then Some(DuplicateEmail)
    else None
  }

  /** A create that passes the pre-checks keeps the store consistent. */
  lemma CreateStudentConsistent(t: Tables, p: Principal, f: StudentForm, today: Date, now: Timestamp)
    requires Consistent(t) && CreateStudentError(t, p, f, today).None?
    ensures Consistent(t.(students := t.students + [NewStudent(t, f, now)]))
  {
    var s := NewStudent(t, f, now);
    assert s.classId.Some? ==> s.classId.value in ClassIds(t);
    AddStudentConsistent(t, s);
  }

  /** `POST /students/create`. */
  method CreateStudent(db: SchoolDb, p: Principal, f: StudentForm, today: Date, now: Timestamp)
    returns (e: Option<Error>)
    requires db.Valid()
    modifies db
    ensures db.Valid()
    ensures e == CreateStudentError(old(db.State()), p, f, today)
    ensures e.None? ==> db.State() == old(db.State()).(students := old(db.students) + [NewStudent(old(db.State()), f, now)])
    ensures e.Some? ==> db.State() == old(db.State())
  {
    e := AdminGate(p);
    if e.Some? {
      return;
    }
    if !StudentFormValid(f, today, ClassIds(db.State())) {
      return Some(InvalidForm);
    }
    if FindIndex(db.students, StudentCode, Some(f.studentId)).Some? {
      return Some(DuplicateStudentId);
    }
    if f.email != "" && FindIndex(db.students, StudentEmail, Some(f.email)).Some? {
      return Some(DuplicateEmail);
    }
    CreateStudentConsistent(db.State(), p, f, today, now);
    db.students := db.students + [NewStudent(db.State(), f, now)];
  }

  /** A successful create adds exactly one student, carrying the form's values. */
  lemma CreateStudentAddsOne(t: Tables, p: Principal, f: StudentForm, today: Date, now: Timestamp)
    requires CreateStudentError(t, p, f, today).None?
    ensures var s := NewStudent(t, f, now);
            && s.studentId == f.studentId && s.fullName == f.fullName
            && f.dateOfBirth.Some? && s.dateOfBirth == f.dateOfBirth.value && s.dateOfBirth <= today
            && (s.email.None? <==> f.email == "") && (s.email.Some? ==> s.email.value == f.email)
            && (s.phone.None? <==> f.phone == "") && (s.phone.Some? ==> s.phone.value == f.phone)
            && (s.address.None? <==> f.address == "") && (s.address.Some? ==> s.address.value == f.address)
            && (s.classId.None? <==> f.classChoice == 0) && (s.classId.Some? ==> s.classId.value == f.classChoice)
            && s.createdAt == now && s.updatedAt == now
            && (s.classId.Some? ==> exists c :: c in t.classes && c.id == s.classId.value)
            && s !in t.students
  {
    var s := NewStudent(t, f, now);
    if s.classId.Some? {
      assert s.classId.value in ClassIds(t);
    }
    assert StudentRow(s) !in KeySet(t.students, StudentRow);
  }

  // ---------------------------------------------------------------------
  // edit_student

  /** The seven form fields and `updated_at` overwritten; the row id and `created_at` kept. */
  function EditedStudent(s: Student, f: StudentForm, now: Timestamp): (r: Student)
    requires f.dateOfBirth.Some?
    ensures r.id == s.id && r.createdAt == s.createdAt
  {
    s.(studentId := f.studentId, fullName := f.fullName, dateOfBirth := f.dateOfBirth.value,
       email := Stored(f.email), phone := Stored(f.phone), address := Stored(f.address),
       classId := ClassLink(f.classChoice), updatedAt := now)
  }

  /** How `POST /students/<id>/edit` ends. The student ID is re-checked only when it changed, the
      email only when it is non-empty and changed. */
  function EditStudentError(t: Tables, p: Principal, id: nat, f: StudentForm, today: Date): (e: Option<Error>)
    ensures AdminGate(p).Some? ==> e == AdminGate(p)
    ensures AdminGate(p).None? ==> (e == Some(NotFound) <==> Some(id) !in KeySet(t.students, StudentRow))
    ensures e.None? ==> Some(id) in KeySet(t.students, StudentRow) && StudentFormValid(f, today, ClassIds(t))
    ensures AdminGate(p).None? && Some(id) in KeySet(t.students, StudentRow) ==>
              var s := t.students[EditIndex(t, id)];
              && (e == Some(InvalidForm) <==> !StudentFormValid(f, today, ClassIds(t)))
              && (StudentFormValid(f, today, ClassIds(t)) ==>
                    (e == Some(DuplicateStudentId) <==> f.studentId != s.studentId && StudentIdTaken(t, f.studentId)))
              && (StudentFormValid(f, today, ClassIds(t)) && (f.studentId == s.studentId || !StudentIdTaken(t, f.studentId)) ==>
                    (e == Some(DuplicateEmail) <==>
                       f.email != "" && Some(f.email) != s.email && StudentEmailTaken(t, f.email)))
              && (e.None? <==> StudentFormValid(f, today, ClassIds(t))
                               && (f.studentId == s.studentId || !StudentIdTaken(t, f.studentId))
                               && (f.email == "" || Some(f.email) == s.email || !StudentEmailTaken(t, f.email)))
  {
    if AdminGate(p).Some? then AdminGate(p)
    else
      match FindIndex(t.students, StudentRow, Some(id))
      case None => Some(NotFound)
      case Some(i) =>
        var s := t.students[i];
        if !StudentFormValid(f, today, ClassIds(t)) then Some(InvalidForm)
        else if f.studentId != s.studentId && Some(f.studentId) in KeySet(t.students, StudentCode) then
          Some(DuplicateStudentId)
        else if f.email != "" && Some(f.email) != s.email && Some(f.email) in KeySet(t.students, StudentEmail) then
          Some(DuplicateEmail)
        else None
  }

  /** The position of the edited student. */
  function EditIndex(t: Tables, id: nat): (i: nat)
    requires Some(id) in KeySet(t.students, StudentRow)
    ensures i < |t.students| && t.students[i].id == id
  {
    FindIndex(t.students, StudentRow, Some(id)).value
  }

  /** The store after a successful edit: that student overwritten, every other row as it was. */
  function AfterEdit(t: Tables, id: nat, f: StudentForm, now: Timestamp): (r: Tables)
    requires Some(id) in KeySet(t.students, StudentRow) && f.dateOfBirth.Some?
  {
    var i := EditIndex(t, id);
    t.(students := t.students[i := EditedStudent(t.students[i], f, now)])
  }

  /** After a successful edit no other student shares the new student ID or non-empty email,
      although the checks skip unchanged values; and the store stays consistent. */
  lemma EditStudentConsistent(t: Tables, p: Principal, id: nat, f: StudentForm, today: Date, now: Timestamp)
    requires Consistent(t) && EditStudentError(t, p, id, f, today).None?
    ensures forall s :: s in t.students && s.id != id ==>
              s.studentId != f.studentId && (f.email != "" ==> s.email != Some(f.email))
    ensures Consistent(AfterEdit(t, id, f, now))
  {
    var i := EditIndex(t, id);
    var old_ := t.students[i];
    var s := EditedStudent(old_, f, now);
    forall x | x in t.students && x.id != id
      ensures x.studentId != f.studentId && (f.email != "" ==> x.email != Some(f.email))
    {
      var j :| 0 <= j < |t.students| && t.students[j] == x;
      assert j != i;
      // x holds values of its own, in use, and (by uniqueness) different from the edited row's
      KeySetMember(t.students, StudentCode, j);
      KeySetMember(t.students, StudentEmail, j);
      assert StudentCode(x) != StudentCode(old_);
      assert x.email.Some? ==> x.email != old_.email;
    }
    assert s.classId.Some? ==> s.classId.value in ClassIds(t);
    ReplaceStudentConsistent(t, i, s);
  }

  /** `POST /students/<id>/edit`. */
  method EditStudent(db: SchoolDb, p: Principal, id: nat, f: StudentForm, today: Date, now: Timestamp)
    returns (e: Option<Error>)
    requires db.Valid()
    modifies db
    ensures db.Valid()
    ensures e == EditStudentError(old(db.State()), p, id, f, today)
    ensures e.None? ==> db.State() == AfterEdit(old(db.State()), id, f, now)
    ensures e.Some? ==> db.State() == old(db.State())
  {
    e := AdminGate(p);
    if e.Some? {
      return;
    }
    var found := FindIndex(db.students, StudentRow, Some(id));
    if found.None? {
      return Some(NotFound);
    }
    var i := found.value;
    var s := db.students[i];
    if !StudentFormValid(f, today, ClassIds(db.State())) {
      return Some(InvalidForm);
    }
    if f.studentId != s.studentId && FindIndex(db.students, StudentCode, Some(f.studentId)).Some? {
      return Some(DuplicateStudentId);
    }
    if f.email != "" && Some(f.email) != s.email && FindIndex(db.students, StudentEmail, Some(f.email)).Some? {
      return Some(DuplicateEmail);
    }
    EditStudentConsistent(db.State(), p, id, f, today, now);
    db.students := db.students[i := EditedStudent(s, f, now)];
  }

  /** A successful edit changes only the edited student, and only in the form's fields and `updated_at`. */
  lemma EditStudentTouchesOneRow(t: Tables, id: nat, f: StudentForm, now: Timestamp)
    requires Some(id) in KeySet(t.students, StudentRow) && f.dateOfBirth.Some?
    ensures var r := AfterEdit(t, id, f, now);
            && r.(students := t.students) == t
            && |r.students| == |t.students|
            && (forall k :: 0 <= k < |t.students| && t.students[k].id != id ==> r.students[k] == t.students[k])
            && (forall k :: 0 <= k < |t.students| && r.students[k] != t.students[k] ==> t.students[k].id == id)
    ensures var i := EditIndex(t, id);
            var s := AfterEdit(t, id, f, now).students[i];
            && (forall k :: 0 <= k < |t.students| && k != i ==> AfterEdit(t, id, f, now).students[k] == t.students[k])
            && s.id == id && s.createdAt == t.students[i].createdAt && s.updatedAt == now
            && s.studentId == f.studentId && s.fullName == f.fullName && s.dateOfBirth == f.dateOfBirth.value
            && (s.email.None? <==> f.email == "") && (s.email.Some? ==> s.email.value == f.email)
            && (s.phone.None? <==> f.phone == "") && (s.phone.Some? ==> s.phone.value == f.phone)
            && (s.address.None? <==> f.address == "") && (s.address.Some? ==> s.address.value == f.address)
            && (s.classId.None? <==> f.classChoice == 0) && (s.classId.Some? ==> s.classId.value == f.classChoice)
  {
  }

  // ---------------------------------------------------------------------
  // delete_student and view_student

  function DeleteStudentError(t: Tables, p: Principal, id: nat): (e: Option<Error>)
    ensures AdminGate(p).Some? ==> e == AdminGate(p)
    ensures e.None? <==> AdminGate(p).None? && Some(id) in KeySet(t.students, StudentRow)
  {
    if AdminGate(p).Some? then AdminGate(p)
    else if FindIndex(t.students, StudentRow, Some(id)).None? then Some(NotFound)
    else None
  }

  /** `POST /students/<id>/delete`. */
  method RemoveStudent(db: SchoolDb, p: Principal, id: nat) returns (e: Option<Error>)
    requires db.Valid()
    modifies db
    ensures db.Valid()
    ensures e == DeleteStudentError(old(db.State()), p, id)
    ensures e.None? ==> db.State() == DeleteStudent(old(db.State()), id)
    ensures e.Some? ==> db.State() == old(db.State())
  {
    e := AdminGate(p);
    if e.Some? {
      return;
    }
    if FindIndex(db.students, StudentRow, Some(id)).None? {
      return Some(NotFound);
    }
    DeleteStudentConsistent(db.State(), id);
    db.students := DeleteStudent(db.State(), id).students;
  }

  /** Deleting an existing student removes exactly one row. */
  lemma DeleteStudentRemovesOne(t: Tables, id: nat)
    requires Consistent(t) && Some(id) in KeySet(t.students, StudentRow)
    ensures |DeleteStudent(t, id).students| == |t.students| - 1
    ensures Some(id) !in KeySet(DeleteStudent(t, id).students, StudentRow)
  {
    WithoutOneRow(t.students, StudentRow, id);
    KeySetWithout(t.students, StudentRow, {Some(id)});
  }

  /** `GET /students/<id>`. */
  function ViewStudent(t: Tables, p: Principal, id: nat): (r: Result<Student>)
    ensures p.Anonymous? <==> r == Err(LoginRequired)
    ensures r == Err(NotFound) <==> p.SignedIn? && Some(id) !in KeySet(t.students, StudentRow)
    ensures r.Ok? ==> r.value in t.students && r.value.id == id
  {
    if p.Anonymous? then Err(LoginRequired)
    else
      match FindIndex(t.students, StudentRow, Some(id))
      case None => Err(NotFound)
      case Some(i) => Ok(t.students[i])
  }
}

=== FILE: table.dfy ===
/** Generic facts about a table held as a sequence of rows: the values a
    column takes, uniqueness of a column, foreign keys into another table,
    filtering rows out, and primary-key allocation. A column is a function
    from a row to `Option<K>`, so that a nullable unique column (None for
    NULL) and a mandatory one (always Some) share one notion of uniqueness. */
module Table {
  import opened Common

  /** The values a column takes over the rows of a table. */
  function KeySet<T(==,!new), K(==)>(s: seq<T>, key: T -> K): set<K>
  {
    set x | x in s :: key(x)
  }

  /** No two rows share a non-NULL value of the column (SQL UNIQUE: NULLs never clash). */
  predicate Distinct<T(==,!new), K(==)>(s: seq<T>, key: T -> Option<K>)
  {
    forall i, j :: 0 <= i < |s| && 0 <= j < |s| && i != j && key(s[i]).Some? ==> key(s[i]) != key(s[j])
  }

  /** Every non-NULL reference of a row of `s` names a row of `targets`. */
  predicate RefersTo<T(==,!new), U(==,!new), K(==)>(s: seq<T>, ref: T -> Option<K>, targets: seq<U>, key: U -> Option<K>)
  {
    forall x :: x in s && ref(x).Some? ==> ref(x) in KeySet(targets, key)
  }

  /** The rows that satisfy `keep`, in their original order. */
  function Filter<T(==,!new)>(s: seq<T>, keep: T -> bool): (r: seq<T>)
    ensures |r| <= |s|
    ensures forall x :: x in r <==> x in s && keep(x)
  {
    if s == [] then []
    else
      var rest := Filter(s[1..], keep);
      assert forall x :: x in s <==> x == s[0] || x in s[1..];
      if keep(s[0]) then [s[0]] + rest else rest
  }

  /** The rows whose column value is not in `gone`: an SQL delete, or the
      delete a cascade performs. */
  function Without<T(==,!new), K(==)>(s: seq<T>, key: T -> K, gone: set<K>): (r: seq<T>)
    ensures |r| <= |s|
    ensures forall x :: x in r <==> x in s && key(x) !in gone
  {
    Filter(s, x => key(x) !in gone)
  }

  /** The row index of the first row whose column equals `v` (SQLAlchemy's `.first()`). */
  function FindIndex<T(==,!new), K(==)>(s: seq<T>, key: T -> K, v: K): (r: Option<nat>)
    ensures r.Some? ==> r.value < |s| && key(s[r.value]) == v
    ensures r.Some? ==> forall j :: 0 <= j < r.value ==> key(s[j]) != v
    ensures r.None? <==> v !in KeySet(s, key)
  {
    if s == [] then None
    else if key(s[0]) == v then Some(0)
    else
      var r := FindIndex(s[1..], key, v);
      assert forall x :: x in s <==> x == s[0] || x in s[1..];
      assert KeySet(s, key) == KeySet(s[1..], key) + {key(s[0])};
      if r.None? then None else Some(r.value + 1)
  }

  /** The largest primary key in use, or 0 for an empty table. */
  function MaxId<T(==,!new)>(s: seq<T>, id: T -> Option<nat>): (m: nat)
    ensures forall x :: x in s && id(x).Some? ==> id(x).value <= m
  {
    if s == [] then 0
    else
      var k := if id(s[0]).Some? then id(s[0]).value else 0;
      assert forall x :: x in s <==> x == s[0] || x in s[1..];
      Max(MaxId(s[1..], id), k)
  }

  /** The primary key SQLite gives the next inserted row: one more than the largest in use. */
  function NextId<T(==,!new)>(s: seq<T>, id: T -> Option<nat>): (n: nat)
    ensures n >= 1
    ensures Some(n) !in KeySet(s, id)
  {
    MaxId(s, id) + 1
  }

  lemma KeySetMember<T(!new), K>(s: seq<T>, key: T -> K, i: nat)
    requires i < |s|
    ensures key(s[i]) in KeySet(s, key)
  {
    assert s[i] in s;
  }

  /** Appending a row whose value is NULL or new keeps a column unique. */
  lemma DistinctAppend<T(!new), K>(s: seq<T>, x: T, key: T -> Option<K>)
    requires Distinct(s, key)
    requires key(x).None? || key(x) !in KeySet(s, key)
    ensures Distinct(s + [x], key)
  {
    var r := s + [x];
    forall i, j | 0 <= i < |r| && 0 <= j < |r| && i != j && key(r[i]).Some?
      ensures key(r[i]) != key(r[j])
    {
      if i == |s| {
        KeySetMember(s, key, j);
      } else if j == |s| {
        KeySetMember(s, key, i);
      }
    }
  }

  /** Overwriting a row keeps a column unique when the new value is NULL,
      unchanged, or not used by any row. */
  lemma DistinctUpdate<T(!new), K>(s: seq<T>, i: nat, x: T, key: T -> Option<K>)
    requires i < |s| && Distinct(s, key)
    requires key(x).None? || key(x) == key(s[i]) || key(x) !in KeySet(s, key)
    ensures Distinct(s[i := x], key)
  {
    var r := s[i := x];
    forall a, b | 0 <= a < |r| && 0 <= b < |r| && a != b && key(r[a]).Some?
      ensures key(r[a]) != key(r[b])
    {
      if a == i {
        KeySetMember(s, key, b);
      } else if b == i {
        KeySetMember(s, key, a);
      }
    }
  }

  lemma {:induction false} DistinctFilter<T(!new), K>(s: seq<T>, keep: T -> bool, key: T -> Option<K>)
    requires Distinct(s, key)
    ensures Distinct(Filter(s, keep), key)
    decreases |s|
  {
    if s != [] {
      var rest := Filter(s[1..], keep);
      assert Distinct(s[1..], key) by {
        forall i, j | 0 <= i < |s[1..]| && 0 <= j < |s[1..]| && i != j && key(s[1..][i]).Some?
          ensures key(s[1..][i]) != key(s[1..][j])
        {
          assert s[1..][i] == s[i + 1] && s[1..][j] == s[j + 1];
        }
      }
      DistinctFilter(s[1..], keep, key);
      if keep(s[0]) {
        var r := [s[0]] + rest;
        assert r == Filter(s, keep);
        // every kept row after the first is a row of s[1..], so its value differs from s[0]'s
        forall k | 0 <= k < |rest| && key(rest[k]).Some?
          ensures key(rest[k]) != key(s[0])
        {
          assert rest[k] in rest;
          var m :| 0 <= m < |s[1..]| && s[1..][m] == rest[k];
          assert s[m + 1] == rest[k];
        }
        forall a, b | 0 <= a < |r| && 0 <= b < |r| && a != b && key(r[a]).Some?
          ensures key(r[a]) != key(r[b])
        {
          if a == 0 {
            assert r[b] == rest[b - 1];
          } else if b == 0 {
            assert r[a] == rest[a - 1];
          } else {
            assert r[a] == rest[a - 1] && r[b] == rest[b - 1];
          }
        }
      }
    }
  }

  /** Deleting rows keeps every unique column unique. */
  lemma DistinctWithout<T(!new), K, V>(s: seq<T>, key: T -> K, gone: set<K>, col: T -> Option<V>)
    requires Distinct(s, col)
    ensures Distinct(Without(s, key, gone), col)
  {
    DistinctFilter(s, x => key(x) !in gone, col);
  }

  /** Deleting the rows whose column value is in `gone` removes exactly those values from the column. */
  lemma KeySetWithout<T(!new), K>(s: seq<T>, key: T -> K, gone: set<K>)
    ensures KeySet(Without(s, key, gone), key) == KeySet(s, key) - gone
  {
    var w := Without(s, key, gone);
    forall k | k in KeySet(s, key) - gone
      ensures k in KeySet(w, key)
    {
      var y :| y in s && key(y) == k;
      assert y in w;
    }
  }

  lemma KeySetAppend<T(!new), K>(s: seq<T>, x: T, key: T -> K)
    ensures KeySet(s + [x], key) == KeySet(s, key) + {key(x)}
  {
    assert forall y :: y in s + [x] <==> y in s || y == x;
    forall k | k in KeySet(s, key) ensures k in KeySet(s + [x], key) {
      var y :| y in s && key(y) == k;
      assert y in s + [x];
    }
    assert x in s + [x];
  }

  /** Overwriting a row without changing its value leaves the column's values as they were. */
  lemma KeySetUpdateSame<T(!new), K>(s: seq<T>, i: nat, x: T, key: T -> K)
    requires i < |s| && key(x) == key(s[i])
    ensures KeySet(s[i := x], key) == KeySet(s, key)
  {
    var r := s[i := x];
    forall k | k in KeySet(s, key) ensures k in KeySet(r, key) {
      var j :| 0 <= j < |s| && key(s[j]) == k;
      if j == i { assert r[i] in r; } else { assert r[j] in r; }
    }
    forall k | k in KeySet(r, key) ensures k in KeySet(s, key) {
      var j :| 0 <= j < |r| && key(r[j]) == k;
      if j == i { assert s[i] in s; } else { assert s[j] in s; }
    }
  }

  /** A foreign key stays valid when rows are only removed from `s` and only added to `targets`. */
  lemma RefersToMono<T(!new), U(!new), K>(s: seq<T>, s': seq<T>, ref: T -> Option<K>,
                              targets: seq<U>, targets': seq<U>, key: U -> Option<K>)
    requires RefersTo(s, ref, targets, key)
    requires forall x :: x in s' ==> x in s
    requires KeySet(targets, key) <= KeySet(targets', key)
    ensures RefersTo(s', ref, targets', key)
  {
  }

  /** Deleting one row by its unique primary key shortens the table by exactly one. */
  lemma {:induction false} WithoutOneRow<T(!new), K>(s: seq<T>, id: T -> Option<K>, v: K)
    requires Distinct(s, id)
    requires Some(v) in KeySet(s, id)
    ensures |Without(s, id, {Some(v)})| == |s| - 1
    decreases |s|
  {
    var tail := s[1..];
    assert Distinct(tail, id) by {
      forall i, j | 0 <= i < |tail| && 0 <= j < |tail| && i != j && id(tail[i]).Some?
        ensures id(tail[i]) != id(tail[j])
      {
        assert tail[i] == s[i + 1] && tail[j] == s[j + 1];
      }
    }
    WithoutCons(s, id, {Some(v)});
    if id(s[0]) == Some(v) {
      assert Some(v) !in KeySet(tail, id);
      WithoutNothing(tail, id, {Some(v)});
    } else {
      assert Some(v) in KeySet(tail, id) by {
        var y :| y in s && id(y) == Some(v);
        var m :| 0 <= m < |s| && s[m] == y;
        assert m != 0;
        assert tail[m - 1] == y;
        KeySetMember(tail, id, m - 1);
      }
      WithoutOneRow(tail, id, v);
    }
  }

  lemma WithoutCons<T(!new), K>(s: seq<T>, key: T -> K, gone: set<K>)
    requires s != []
    ensures Without(s, key, gone) == (if key(s[0]) in gone then [] else [s[0]]) + Without(s[1..], key, gone)
  {
  }

  /** Deleting values the column never takes changes nothing. */
  lemma {:induction false} WithoutNothing<T(!new), K>(s: seq<T>, key: T -> K, gone: set<K>)
    requires KeySet(s, key) !! gone
    ensures Without(s, key, gone) == s
    decreases |s|
  {
    if s != [] {
      KeySetMember(s, key, 0);
      assert KeySet(s[1..], key) <= KeySet(s, key) by {
        forall k | k in KeySet(s[1..], key) ensures k in KeySet(s, key) {
          var y :| y in s[1..] && key(y) == k;
          assert y in s;
        }
      }
      WithoutNothing(s[1..], key, gone);
      assert s == [s[0]] + s[1..];
    }
  }

  /** Rows whose column values are unchanged, index by index, keep the column unique. */
  lemma DistinctSameKeys<T(!new), K>(s: seq<T>, r: seq<T>, key: T -> Option<K>)
    requires Distinct(s, key)
    requires |r| == |s| && forall k :: 0 <= k < |s| ==> key(r[k]) == key(s[k])
    ensures Distinct(r, key)
  {
  }

  /** A foreign key stays valid when a row whose reference is NULL or valid is appended. */
  lemma RefersToAppend<T(!new), U(!new), K>(s: seq<T>, x: T, ref: T -> Option<K>, targets: seq<U>, key: U -> Option<K>)
    requires RefersTo(s, ref, targets, key)
    requires ref(x).None? || ref(x) in KeySet(targets, key)
    ensures RefersTo(s + [x], ref, targets, key)
  {
    assert forall y :: y in s + [x] <==> y in s || y == x;
  }

  /** A foreign key stays valid when a row is overwritten by one whose reference is NULL or valid. */
  lemma RefersToUpdate<T(!new), U(!new), K>(s: seq<T>, i: nat, x: T, ref: T -> Option<K>, targets: seq<U>, key: U -> Option<K>)
    requires i < |s| && RefersTo(s, ref, targets, key)
    requires ref(x).None? || ref(x) in KeySet(targets, key)
    ensures RefersTo(s[i := x], ref, targets, key)
  {
    forall y | y in s[i := x] && ref(y).Some? ensures ref(y) in KeySet(targets, key) {
      var k :| 0 <= k < |s[i := x]| && s[i := x][k] == y;
      if k != i {
        assert s[k] == y;
      }
    }
  }

  /** In a unique column, a non-NULL value names one row only. */
  lemma DistinctIndex<T(!new), K>(s: seq<T>, key: T -> Option<K>, i: nat, x: T)
    requires Distinct(s, key) && i < |s| && x in s
    requires key(s[i]).Some? && key(x) == key(s[i])
    ensures x == s[i]
  {
    var j :| 0 <= j < |s| && s[j] == x;
  }

  // ---------------------------------------------------------------------
  // Counting the rows that refer to each row of another table.

  /** The rows whose reference is the non-NULL value `v`: `filter_by(ref=v)`. */
  function RefIs<T, K(==)>(ref: T -> Option<K>, v: Option<K>): T -> bool
  {
    x => ref(x).Some? && ref(x) == v
  }

  lemma RefIsMeans<T, K>(ref: T -> Option<K>, v: Option<K>)
    ensures forall x :: RefIs(ref, v)(x) == (ref(x).Some? && ref(x) == v)
  {
  }

  /** The rows whose reference is not NULL. */
  function HasRef<T, K>(ref: T -> Option<K>): T -> bool
  {
    x => ref(x).Some?
  }

  /** The number of rows of `targets` whose key is `v`. */
  function Hits<U, K(==)>(targets: seq<U>, key: U -> Option<K>, v: Option<K>): nat
  {
    if targets == [] then 0 else (if key(targets[0]) == v then 1 else 0) + Hits(targets[1..], key, v)
  }

  /** For each row of `targets` in turn, the number of rows of `s` referring to it, added up. */
  function RefTotal<T(==,!new), U, K(==)>(s: seq<T>, ref: T -> Option<K>, targets: seq<U>, key: U -> Option<K>): nat
  {
    if targets == [] then 0
    else |Filter(s, RefIs(ref, key(targets[0])))| + RefTotal(s, ref, targets[1..], key)
  }

  lemma RefTotalEmpty<T(!new), U, K>(ref: T -> Option<K>, targets: seq<U>, key: U -> Option<K>)
    ensures RefTotal([], ref, targets, key) == 0
  {
  }

  /** The first row of `s` adds one to the total per target it refers to. */
  lemma {:induction false} RefTotalStep<T(!new), U, K>(s: seq<T>, ref: T -> Option<K>, targets: seq<U>, key: U -> Option<K>)
    requires s != []
    ensures RefTotal(s, ref, targets, key)
            == RefTotal(s[1..], ref, targets, key) + (if ref(s[0]).Some? then Hits(targets, key, ref(s[0])) else 0)
    decreases |targets|
  {
    if targets != [] {
      RefTotalStep(s, ref, targets[1..], key);
    }
  }

  /** In a unique column a non-NULL value is the key of one row, or of none. */
  lemma {:induction false} HitsDistinct<U(!new), K>(targets: seq<U>, key: U -> Option<K>, v: Option<K>)
    requires Distinct(targets, key) && v.Some?
    ensures Hits(targets, key, v) == if v in KeySet(targets, key) then 1 else 0
    decreases |targets|
  {
    if targets != [] {
      var rest := targets[1..];
      assert Distinct(rest, key) by {
        forall i, j | 0 <= i < |rest| && 0 <= j < |rest| && i != j && key(rest[i]).Some?
          ensures key(rest[i]) != key(rest[j])
        {
          assert rest[i] == targets[i + 1] && rest[j] == targets[j + 1];
        }
      }
      HitsDistinct(rest, key, v);
      assert forall x :: x in targets <==> x == targets[0] || x in rest;
      assert KeySet(targets, key) == KeySet(rest, key) + {key(targets[0])};
      if key(targets[0]) == v {
        forall x | x in rest ensures key(x) != v {
          var j :| 0 <= j < |rest| && rest[j] == x;
          assert targets[j + 1] == x;
        }
      }
    }
  }

  /** When the targets' key is unique and every reference is valid, every row with a non-NULL
      reference is counted exactly once. */
  lemma {:induction false} RefTotalCount<T(!new), U(!new), K>(s: seq<T>, ref: T -> Option<K>, targets: seq<U>, key: U -> Option<K>)
    requires Distinct(targets, key) && RefersTo(s, ref, targets, key)
    ensures RefTotal(s, ref, targets, key) == |Filter(s, HasRef(ref))|
    decreases |s|
  {
    if s == [] {
      RefTotalEmpty(ref, targets, key);
    } else {
      RefTotalStep(s, ref, targets, key);
      assert forall x :: x in s[1..] ==> x in s;
      RefTotalCount(s[1..], ref, targets, key);
      if ref(s[0]).Some? {
        HitsDistinct(targets, key, ref(s[0]));
      }
    }
  }

  /** A filter that keeps every row returns the table unchanged. */
  lemma {:induction false} FilterAll<T(!new)>(s: seq<T>, keep: T -> bool)
    requires forall x :: x in s ==> keep(x)
    ensures Filter(s, keep) == s
    decreases |s|
  {
    if s != [] {
      assert forall x :: x in s[1..] ==> x in s;
      FilterAll(s[1..], keep);
    }
  }

  /** Two different positions holding the same row make it occur at least twice. */
  lemma TwiceInMultiset<T>(r: seq<T>, i: nat, j: nat)
    requires i < j < |r| && r[i] == r[j]
    ensures multiset(r)[r[i]] >= 2
  {
    assert r == r[..j] + [r[j]] + r[j + 1..];
    assert r[i] in r[..j];
  }

  /** A row occurring at least twice sits at two different positions. */
  lemma TwoPositions<T>(s: seq<T>, x: T) returns (a: nat, b: nat)
    requires multiset(s)[x] >= 2
    ensures a < |s| && b < |s| && a != b && s[a] == x && s[b] == x
  {
    assert x in multiset(s);
    a :| 0 <= a < |s| && s[a] == x;
    assert s == s[..a] + [s[a]] + s[a + 1..];
    var others := s[..a] + s[a + 1..];
    assert multiset(others)[x] >= 1;
    assert x in others;
    var c :| 0 <= c < |others| && others[c] == x;
    if c < a {
      b := c;
    } else {
      b := c + 1;
    }
  }

  /** Reordering the rows keeps a column unique. */
  lemma DistinctPermutation<T(!new), K>(s: seq<T>, r: seq<T>, key: T -> Option<K>)
    requires multiset(s) == multiset(r) && Distinct(s, key)
    ensures Distinct(r, key)
  {
    forall i, j | 0 <= i < |r| && 0 <= j < |r| && i != j && key(r[i]).Some?
      ensures key(r[i]) != key(r[j])
    {
      assert r[i] in multiset(s) && r[j] in multiset(s);
      var a: nat, b: nat;
      if r[i] == r[j] {
        if i < j {
          TwiceInMultiset(r, i, j);
        } else {
          TwiceInMultiset(r, j, i);
        }
        a, b := TwoPositions(s, r[i]);
      } else {
        a :| 0 <= a < |s| && s[a] == r[i];
        b :| 0 <= b < |s| && s[b] == r[j];
      }
      assert key(s[a]) != key(s[b]);
    }
  }

  /** Reordering the rows keeps the values a column takes. */
  lemma KeySetPermutation<T(!new), K>(s: seq<T>, r: seq<T>, key: T -> K)
    requires multiset(s) == multiset(r)
    ensures KeySet(s, key) == KeySet(r, key)
  {
    assert forall x :: x in s <==> x in multiset(s);
    assert forall x :: x in r <==> x in multiset(r);
  }

  /** Appending a row extends the filtered rows by that row, when it is kept. */
  lemma {:induction false} FilterAppend<T(!new)>(s: seq<T>, x: T, keep: T -> bool)
    ensures Filter(s + [x], keep) == Filter(s, keep) + (if keep(x) then [x] else [])
    decreases |s|
  {
    if s != [] {
      assert (s + [x])[1..] == s[1..] + [x];
      FilterAppend(s[1..], x, keep);
    }
  }

  /** A filter that keeps no row returns nothing. */
  lemma {:induction false} FilterNone<T(!new)>(s: seq<T>, keep: T -> bool)
    requires forall x :: x in s ==> !keep(x)
    ensures Filter(s, keep) == []
    decreases |s|
  {
    if s != [] {
      assert forall x :: x in s[1..] ==> x in s;
      FilterNone(s[1..], keep);
    }
  }
}

=== FILE: teachers.dfy ===
/** The teacher routes: list with search and pages; create; edit; delete
    (with the cascade to the teacher's assignments); view. */
module Teachers {
  import opened Common
  import opened Table
  import opened Order
  import opened Models
  import opened Forms
  import opened Auth

  // ---------------------------------------------------------------------
  // list_teachers

  /** `search` occurs, ignoring case, in the name, the teacher ID, the subject or the email. */
  predicate MatchesSearch(x: Teacher, search: string)
  {
    || search == ""
    || ContainsIgnoringCase(x.fullName, search)
    || ContainsIgnoringCase(x.teacherId, search)
    || ContainsIgnoringCase(x.subject, search)
    || (x.email.Some? && ContainsIgnoringCase(x.email.value, search))
  }

  function TeacherCreated(x: Teacher): int { x.createdAt }

  /** `ORDER BY created_at DESC`. */
  function NewestFirst(): (Teacher, Teacher) -> bool
  {
    ByKeyDesc(TeacherCreated)
  }

  function MatchingTeachers(t: Tables, search: string): (r: seq<Teacher>)
    ensures forall x :: x in r <==> x in t.teachers && MatchesSearch(x, search)
  {
    Filter(t.teachers, x => MatchesSearch(x, search))
  }

  function OrderedTeachers(t: Tables, search: string): (r: seq<Teacher>)
    ensures multiset(r) == multiset(MatchingTeachers(t, search))
    ensures Sorted(r, NewestFirst())
  {
    ByKeyDescPreorder(TeacherCreated);
    SortBySorted(MatchingTeachers(t, search), NewestFirst());
    SortBy(MatchingTeachers(t, search), NewestFirst())
  }

  /** `GET /teachers/?page=&search=`: one page of at most 10 matching teachers, newest first. */
  function ListTeachers(t: Tables, p: Principal, search: string, page: int): (r: Result<seq<Teacher>>)
    ensures r.Err? <==> p.Anonymous?
    ensures r.Err? ==> r.error == LoginRequired
    ensures r.Ok? ==> |r.value| <= PerPage
    ensures r.Ok? ==> forall x :: x in r.value ==> x in t.teachers && MatchesSearch(x, search)
    ensures r.Ok? ==> Sorted(r.value, NewestFirst())
    ensures r.Ok? && (PageNumber(page) - 1) * PerPage >= |MatchingTeachers(t, search)| ==> r.value == []
    ensures r.Ok? ==> forall k :: 0 <= k < |r.value| ==>
              (PageNumber(page) - 1) * PerPage + k < |OrderedTeachers(t, search)|
              && r.value[k] == OrderedTeachers(t, search)[(PageNumber(page) - 1) * PerPage + k]
    ensures r.Ok? && (PageNumber(page) - 1) * PerPage + PerPage <= |MatchingTeachers(t, search)| ==>
              |r.value| == PerPage
  {
    if p.Anonymous? then Err(LoginRequired)
    else
      var ordered := OrderedTeachers(t, search);
      var r := Paginate(ordered, page);
      PaginateSorted(ordered, page, NewestFirst());
      assert |ordered| == |multiset(ordered)| == |MatchingTeachers(t, search)|;
      assert forall x :: x in r ==> x in multiset(ordered);
      Ok(r)
  }

  /** Every matching teacher is listed on some page. */
  lemma EveryMatchIsListed(t: Tables, p: Principal, search: string, x: Teacher)
    requires p.SignedIn? && x in t.teachers && MatchesSearch(x, search)
    ensures exists page: nat :: page >= 1 && x in ListTeachers(t, p, search, page).value
  {
    var ordered := OrderedTeachers(t, search);
    assert x in multiset(MatchingTeachers(t, search));
    assert x in multiset(ordered);
    var k :| 0 <= k < |ordered| && ordered[k] == x;
    PageHolds(ordered, k);
    assert x in ListTeachers(t, p, search, k / PerPage + 1).value;
  }

  // ---------------------------------------------------------------------
  // create_teacher

  /** The row `create_teacher` inserts: empty optional fields become NULL, no user account is linked. */
  function NewTeacher(t: Tables, f: TeacherForm, now: Timestamp): Teacher
    requires f.joiningDate.Some?
  {
    Teacher(NextId(t.teachers, TeacherRow), f.teacherId, f.fullName, f.subject, Stored(f.qualification),
            Stored(f.email), Stored(f.phone), f.joiningDate.value, now, now, None)
  }

  /** Some teacher already has this teacher ID. */
  predicate TeacherIdTaken(t: Tables, teacherId: string)
  {
    exists x :: x in t.teachers && x.teacherId == teacherId
  }

  /** Some teacher already has this email. */
  predicate TeacherEmailTaken(t: Tables, email: string)
  {
    exists x :: x in t.teachers && x.email == Some(email)
  }

  /** How `POST /teachers/create` ends: the guards, the form, then the two uniqueness pre-checks. */
  function CreateTeacherError(t: Tables, p: Principal, f: TeacherForm, today: Date): (e: Option<Error>)
    ensures AdminGate(p).Some? ==> e == AdminGate(p)
    ensures AdminGate(p).None? ==> (e == Some(InvalidForm) <==> !TeacherFormValid(f, today))
    ensures AdminGate(p).None? && TeacherFormValid(f, today) ==>
              (e == Some(DuplicateTeacherId) <==> TeacherIdTaken(t, f.teacherId))
    ensures AdminGate(p).None? && TeacherFormValid(f, today) && !TeacherIdTaken(t, f.teacherId) ==>
              (e == Some(DuplicateEmail) <==> f.email != "" && TeacherEmailTaken(t, f.email))
    ensures e.None? <==> AdminGate(p).None? && TeacherFormValid(f, today)
                         && forall x :: x in t.teachers ==>
                              x.teacherId != f.teacherId && (f.email != "" ==> x.email != Some(f.email))
  {
    if AdminGate(p).Some? then AdminGate(p)
    else if !TeacherFormValid(f, today) then Some(InvalidForm)
    else if Some(f.teacherId) in KeySet(t.teachers, TeacherCode) then Some(DuplicateTeacherId)
    else if f.email != "" && Some(f.email) in KeySet(t.teachers, TeacherEmail) then Some(DuplicateEmail)
    else None
  }

  lemma CreateTeacherConsistent(t: Tables, p: Principal, f: TeacherForm, today: Date, now: Timestamp)
    requires Consistent(t) && CreateTeacherError(t, p, f, today).None?
    ensures Consistent(t.(teachers := t.teachers + [NewTeacher(t, f, now)]))
  {
    AddTeacherConsistent(t, NewTeacher(t, f, now));
  }

  /** `POST /teachers/create`. */
  method CreateTeacher(db: SchoolDb, p: Principal, f: TeacherForm, today: Date, now: Timestamp)
    returns (e: Option<Error>)
    requires db.Valid()
    modifies db
    ensures db.Valid()
    ensures e == CreateTeacherError(old(db.State()), p, f, today)
    ensures e.None? ==> db.State() == old(db.State()).(teachers := old(db.teachers) + [NewTeacher(old(db.State()), f, now)])
    ensures e.Some? ==> db.State() == old(db.State())
  {
    e := AdminGate(p);
    if e.Some? {
      return;
    }
    if !TeacherFormValid(f, today) {
      return Some(InvalidForm);
    }
    if FindIndex(db.teachers, TeacherCode, Some(f.teacherId)).Some? {
      return Some(DuplicateTeacherId);
    }
    if f.email != "" && FindIndex(db.teachers, TeacherEmail, Some(f.email)).Some? {
      return Some(DuplicateEmail);
    }
    CreateTeacherConsistent(db.State(), p, f, today, now);
    db.teachers := db.teachers + [NewTeacher(db.State(), f, now)];
  }

  /** A successful create adds one teacher carrying the form's values, with empty optional fields NULL. */
  lemma CreateTeacherAddsOne(t: Tables, p: Principal, f: TeacherForm, today: Date, now: Timestamp)
    requires CreateTeacherError(t, p, f, today).None?
    ensures var x := NewTeacher(t, f, now);
            && x.teacherId == f.teacherId && x.fullName == f.fullName && x.subject == f.subject
            && f.joiningDate.Some? && x.joiningDate == f.joiningDate.value && x.joiningDate <= today
            && (x.qualification.None? <==> f.qualification == "")
            && (x.qualification.Some? ==> x.qualification.value == f.qualification)
            && (x.email.None? <==> f.email == "") && (x.email.Some? ==> x.email.value == f.email)
            && (x.phone.None? <==> f.phone == "") && (x.phone.Some? ==> x.phone.value == f.phone)
            && x.userId.None? && x.createdAt == now && x.updatedAt == now
            && x !in t.teachers
  {
    assert TeacherRow(NewTeacher(t, f, now)) !in KeySet(t.teachers, TeacherRow);
  }

  // ---------------------------------------------------------------------
  // edit_teacher

  /** The seven form fields and `updated_at` overwritten; row id, `created_at` and user link kept. */
  function EditedTeacher(x: Teacher, f: TeacherForm, now: Timestamp): (r: Teacher)
    requires f.joiningDate.Some?
    ensures r.id == x.id && r.createdAt == x.createdAt && r.userId == x.userId
  {
    x.(teacherId := f.teacherId, fullName := f.fullName, subject := f.subject,
       qualification := Stored(f.qualification), email := Stored(f.email), phone := Stored(f.phone),
       joiningDate := f.joiningDate.value, updatedAt := now)
  }

  /** How `POST /teachers/<id>/edit` ends. The teacher ID is re-checked only when it changed, the
      email only when it is non-empty and changed. */
  function EditTeacherError(t: Tables, p: Principal, id: nat, f: TeacherForm, today: Date): (e: Option<Error>)
    ensures AdminGate(p).Some? ==> e == AdminGate(p)
    ensures AdminGate(p).None? ==> (e == Some(NotFound) <==> Some(id) !in KeySet(t.teachers, TeacherRow))
    ensures e.None? ==> Some(id) in KeySet(t.teachers, TeacherRow) && TeacherFormValid(f, today)
    ensures AdminGate(p).None? && Some(id) in KeySet(t.teachers, TeacherRow) ==>
              var x := t.teachers[EditIndex(t, id)];
              && (e == Some(InvalidForm) <==> !TeacherFormValid(f, today))
              && (TeacherFormValid(f, today) ==>
                    (e == Some(DuplicateTeacherId) <==> f.teacherId != x.teacherId && TeacherIdTaken(t, f.teacherId)))
              && (TeacherFormValid(f, today) && (f.teacherId == x.teacherId || !TeacherIdTaken(t, f.teacherId)) ==>
                    (e == Some(DuplicateEmail) <==>
                       f.email != "" && Some(f.email) != x.email && TeacherEmailTaken(t, f.email)))
              && (e.None? <==> TeacherFormValid(f, today)
                               && (f.teacherId == x.teacherId || !TeacherIdTaken(t, f.teacherId))
                               && (f.email == "" || Some(f.email) == x.email || !TeacherEmailTaken(t, f.email)))
  {
    if AdminGate(p).Some? then AdminGate(p)
    else
      match FindIndex(t.teachers, TeacherRow, Some(id))
      case None => Some(NotFound)
      case Some(i) =>
        var x := t.teachers[i];
        if !TeacherFormValid(f, today) then Some(InvalidForm)
        else if f.teacherId != x.teacherId && Some(f.teacherId) in KeySet(t.teachers, TeacherCode) then
          Some(DuplicateTeacherId)
        else if f.email != "" && Some(f.email) != x.email && Some(f.email) in KeySet(t.teachers, TeacherEmail) then
          Some(DuplicateEmail)
        else None
  }

  function EditIndex(t: Tables, id: nat): (i: nat)
    requires Some(id) in KeySet(t.teachers, TeacherRow)
    ensures i < |t.teachers| && t.teachers[i].id == id
  {
    FindIndex(t.teachers, TeacherRow, Some(id)).value
  }

  /** The store after a successful edit: that teacher overwritten, every other row as it was. */
  function AfterEdit(t: Tables, id: nat, f: TeacherForm, now: Timestamp): (r: Tables)
    requires Some(id) in KeySet(t.teachers, TeacherRow) && f.joiningDate.Some?
  {
    var i := EditIndex(t, id);
    t.(teachers := t.teachers[i := EditedTeacher(t.teachers[i], f, now)])
  }

  /** After a successful edit no other teacher shares the new teacher ID or non-empty email, and the
      store stays consistent. */
  lemma EditTeacherConsistent(t: Tables, p: Principal, id: nat, f: TeacherForm, today: Date, now: Timestamp)
    requires Consistent(t) && EditTeacherError(t, p, id, f, today).None?
    ensures forall x :: x in t.teachers && x.id != id ==>
              x.teacherId != f.teacherId && (f.email != "" ==> x.email != Some(f.email))
    ensures Consistent(AfterEdit(t, id, f, now))
  {
    var i := EditIndex(t, id);
    var old_ := t.teachers[i];
    forall x | x in t.teachers && x.id != id
      ensures x.teacherId != f.teacherId && (f.email != "" ==> x.email != Some(f.email))
    {
      var j :| 0 <= j < |t.teachers| && t.teachers[j] == x;
      assert j != i;
      KeySetMember(t.teachers, TeacherCode, j);
      KeySetMember(t.teachers, TeacherEmail, j);
      assert TeacherCode(x) != TeacherCode(old_);
      assert x.email.Some? ==> x.email != old_.email;
    }
    ReplaceTeacherConsistent(t, i, EditedTeacher(old_, f, now));
  }

  /** `POST /teachers/<id>/edit`. */
  method EditTeacher(db: SchoolDb, p: Principal, id: nat, f: TeacherForm, today: Date, now: Timestamp)
    returns (e: Option<Error>)
    requires db.Valid()
    modifies db
    ensures db.Valid()
    ensures e == EditTeacherError(old(db.State()), p, id, f, today)
    ensures e.None? ==> db.State() == AfterEdit(old(db.State()), id, f, now)
    ensures e.Some? ==> db.State() == old(db.State())
  {
    e := AdminGate(p);
    if e.Some? {
      return;
    }
    var found := FindIndex(db.teachers, TeacherRow, Some(id));
    if found.None? {
      return Some(NotFound);
    }
    var i := found.value;
    var x := db.teachers[i];
    if !TeacherFormValid(f, today) {
      return Some(InvalidForm);
    }
    if f.teacherId != x.teacherId && FindIndex(db.teachers, TeacherCode, Some(f.teacherId)).Some? {
      return Some(DuplicateTeacherId);
    }
    if f.email != "" && Some(f.email) != x.email && FindIndex(db.teachers, TeacherEmail, Some(f.email)).Some? {
      return Some(DuplicateEmail);
    }
    EditTeacherConsistent(db.State(), p, id, f, today, now);
    db.teachers := db.teachers[i := EditedTeacher(x, f, now)];
  }

  /** A successful edit changes only the edited teacher, and only in the form's fields and `updated_at`. */
  lemma EditTeacherTouchesOneRow(t: Tables, id: nat, f: TeacherForm, now: Timestamp)
    requires Some(id) in KeySet(t.teachers, TeacherRow) && f.joiningDate.Some?
    ensures var r := AfterEdit(t, id, f, now);
            && r.(teachers := t.teachers) == t
            && |r.teachers| == |t.teachers|
            && (forall k :: 0 <= k < |t.teachers| && t.teachers[k].id != id ==> r.teachers[k] == t.teachers[k])
            && (forall k :: 0 <= k < |t.teachers| && r.teachers[k] != t.teachers[k] ==> t.teachers[k].id == id)
    ensures var i := EditIndex(t, id);
            var x := AfterEdit(t, id, f, now).teachers[i];
            && (forall k :: 0 <= k < |t.teachers| && k != i ==> AfterEdit(t, id, f, now).teachers[k] == t.teachers[k])
            && x.id == id && x.createdAt == t.teachers[i].createdAt && x.userId == t.teachers[i].userId
            && x.updatedAt == now
            && x.teacherId == f.teacherId && x.fullName == f.fullName && x.subject == f.subject
            && x.joiningDate == f.joiningDate.value
            && (x.qualification.None? <==> f.qualification == "")
            && (x.qualification.Some? ==> x.qualification.value == f.qualification)
            && (x.email.None? <==> f.email == "") && (x.email.Some? ==> x.email.value == f.email)
            && (x.phone.None? <==> f.phone == "") && (x.phone.Some? ==> x.phone.value == f.phone)
  {
  }

  // ---------------------------------------------------------------------
  // delete_teacher and view_teacher

  function DeleteTeacherError(t: Tables, p: Principal, id: nat): (e: Option<Error>)
    ensures AdminGate(p).Some? ==> e == AdminGate(p)
    ensures e.None? <==> AdminGate(p).None? && Some(id) in KeySet(t.teachers, TeacherRow)
  {
    if AdminGate(p).Some? then AdminGate(p)
    else if FindIndex(t.teachers, TeacherRow, Some(id)).None? then Some(NotFound)
    else None
  }

  /** `POST /teachers/<id>/delete`: the teacher and, by cascade, its assignments. */
  method RemoveTeacher(db: SchoolDb, p: Principal, id: nat) returns (e: Option<Error>)
    requires db.Valid()
    modifies db
    ensures db.Valid()
    ensures e == DeleteTeacherError(old(db.State()), p, id)
    ensures e.None? ==> db.State() == DeleteTeacher(old(db.State()), id)
    ensures e.Some? ==> db.State() == old(db.State())
  {
    e := AdminGate(p);
    if e.Some? {
      return;
    }
    if FindIndex(db.teachers, TeacherRow, Some(id)).None? {
      return Some(NotFound);
    }
    DeleteTeacherConsistent(db.State(), id);
    var r := DeleteTeacher(db.State(), id);
    db.teachers, db.assignments := r.teachers, r.assignments;
  }

  /** Deleting an existing teacher removes exactly one teacher and leaves no assignment naming it. */
  lemma DeleteTeacherRemovesOne(t: Tables, id: nat)
    requires Consistent(t) && Some(id) in KeySet(t.teachers, TeacherRow)
    ensures |DeleteTeacher(t, id).teachers| == |t.teachers| - 1
    ensures forall a :: a in DeleteTeacher(t, id).assignments ==> a.teacherId != id
  {
    WithoutOneRow(t.teachers, TeacherRow, id);
  }

  /** `GET /teachers/<id>`. */
  function ViewTeacher(t: Tables, p: Principal, id: nat): (r: Result<Teacher>)
    ensures p.Anonymous? <==> r == Err(LoginRequired)
    ensures r == Err(NotFound) <==> p.SignedIn? && Some(id) !in KeySet(t.teachers, TeacherRow)
    ensures r.Ok? ==> r.value in t.teachers && r.value.id == id
  {
    if p.Anonymous? then Err(LoginRequired)
    else
      match FindIndex(t.teachers, TeacherRow, Some(id))
      case None => Err(NotFound)
      case Some(i) => Ok(t.teachers[i])
  }
}
